=== FILE: README.md ===
# Quiz JSON pipeline — a Dafny model

This project models the intake-form quiz pipeline of a storefront, which has four parts:

- **Transformer.** Turns a raw quiz record from the quiz document into the canonical quiz configuration the form renders:
  - sorted progress steps;
  - sorted form steps with their questions;
  - the step-to-progress mapping;
  - compiled display values.
- **Validator.** Checks a raw record and accumulates errors and warnings as readable messages.
- **Raw record types.** The types the document is read into, with their closed enumerations and legacy field spellings.
- **Loader.** Merges the JSON quizzes with hand-written ones and caches the JSON load.

## Module layout

| file | module | models |
|---|---|---|
| `wrappers.dfy` | `Wrappers` | `Option`, with `??`-style fallbacks |
| `js_values.dfy` | `JsValues` | JavaScript values, truthiness, `\|\|` vs `??`, `Number(v)` and its string grammar, `String(n)`, template interpolation, ASCII case mapping |
| `sequences.dfy` | `Sequences` | the stable `Array.prototype.sort` by an integer key, `map`, `filter`, ranges |
| `raw_quiz.dfy` | `RawQuiz` | the raw record types, their enumerations and the alias resolution of doubly spelled fields |
| `canonical.dfy` | `Canonical` | the canonical configuration built by the transformer (progress step, form step, question variants, mapping, quiz) |
| `transform.dfy` | `QuizTransform` | the transformer |
| `formats.dfy` | `Formats` | the slug and colour regular expressions, as automata |
| `duplicates.dfy` | `Duplicates` | `findDuplicates` |
| `validate.dfy` | `QuizValidate` | the validator |
| `js_maps.dfy` | `JsMaps` | the insertion-ordered JavaScript `Map` |
| `loader.dfy` | `QuizLoader` | the loader merge, the lookup and the cache state machine |
| `pipeline.dfy` | `QuizPipeline` | how a validated quiz behaves in the transformer |
| `in_place.dfy` | `InPlaceSort` | the record as the transformer's in-place sorts leave it, and transforming it again |

### How JavaScript behaviour is modelled

- **Absent values.** An absent, `null` or `undefined` field is `None`, with two exceptions. The step `order`/`step_order` pair is a `NumberField` (`Missing | ExplicitNull | Present(n)`): the validator's `=== undefined` test tells those cases apart. Condition values, option values and answers are a `JsValue`, which keeps `undefined`, `null`, booleans, numbers and strings apart: `String(value)` gives the label `"null"` or `"undefined"`, and `equals` compares strictly.
- **Falsiness.** A falsy string (`''`) and a falsy number (`0`) are handled explicitly, which gets `||`, `??` and `!x` right.
- **Thrown `TypeError`s become `None` results.** The source throws when:
  - it dereferences a missing `progressSteps`, `formSteps` or `questions` list;
  - a render condition has no `conditions` list.
- **The batch transform drops such quizzes,** as the source's `try`/`catch` does.
- **Closures become data.** The display value's `condition` and `calculate` closures are represented by the JSON they were compiled from, plus evaluation functions that take the answers map.
- **Module-level state becomes parameters.** The loader's module-level variables are an explicit `LoaderState` that is passed in and returned. The hand-written quiz list and the outcome of the JSON load are parameters.

## Model

| member | source | states |
|---|---|---|
| Sequences.SortBy | utils/intake-form/transformQuizJson.ts:46 | The result is ascending by the key and a permutation of the input. Elements with equal keys stay in input order, so this is a stable sort, as `Array.prototype.sort` is. |
| Sequences.StableSortUnique | utils/intake-form/transformQuizJson.ts:46 | Two key-sorted rearrangements of the same elements that keep equal-key elements in the same order are identical: stability fixes the output completely. |
| Sequences.SortByIsTheStableSort | utils/intake-form/transformQuizJson.ts:46 | Any sequence meeting the stable-sort specification is exactly `SortBy`'s result. |
| Sequences.SortBySortedIsIdentity | utils/intake-form/transformQuizJson.ts:59 | Sorting a list already in key order returns it unchanged. |
| Sequences.SortByIdempotent | utils/intake-form/transformQuizJson.ts:135 | Sorting twice is the same as sorting once. |
| Sequences.SuccessIndices | utils/intake-form/transformQuizJson.ts:398-405 | The positions where a partial function succeeds: all of them, only them, in ascending order. |
| Sequences.FilterMapSuccesses | utils/intake-form/transformQuizJson.ts:398-405 | `map` then `filter(x => x !== null)` keeps one value per successful position, in order: the j-th result is the value at the j-th successful position. |
| Sequences.SortedIsOneToN | utils/intake-form/validateQuizJson.ts:116-118 | The ascending sort of a list of orders is `1, 2, …, N` exactly when the list is a permutation of `1..N`. |
| JsValues.NatToString | utils/intake-form/validateQuizJson.ts:97 | The decimal rendering of a step index in `${index}` is a non-empty digit string without a leading zero (except for 0). |
| JsValues.DigitsValueOfNatToString | utils/intake-form/validateQuizJson.ts:97 | Reading back the decimal rendering of an index gives the index. |
| JsValues.NumberStringRoundTrip | utils/intake-form/transformQuizJson.ts:263 | `Number(String(n)) === Number(n)` for every integer of the model: a label that falls back to `String(value)` still denotes the option's value. |
| JsValues.StringToNumberOfInt | utils/intake-form/transformQuizJson.ts:174-176 | The decimal text of an integer, with or without a minus sign, reads back as that integer. |
| JsValues.SurroundingSpaceIgnored | utils/intake-form/transformQuizJson.ts:174-176 | White space and line terminators around a number's text do not change what `Number` reads. |
| JsValues.PlusSignIgnored | utils/intake-form/transformQuizJson.ts:174-176 | `+` followed by decimal digits reads as those digits' value. |
| JsValues.HexTextValue | utils/intake-form/transformQuizJson.ts:174-176 | `0x` followed by hexadecimal digits reads as their base-16 value. |
| JsValues.ExponentTextValue | utils/intake-form/transformQuizJson.ts:174-176 | Decimal digits, `e` and decimal digits read as mantissa × 10^exponent. |
| JsValues.UpperOfLower | utils/intake-form/transformQuizJson.ts:240-255 | Upper-casing the lower-cased type tag gives the upper-cased raw tag, so the dispatch does not depend on the tag's original case. |
| JsValues.UpperIdempotent | utils/intake-form/validateQuizJson.ts:194-195 | Upper-casing twice is the same as once. |
| RawQuiz.ParseOperator | types/intake-form/quizJson.ts:10 | It accepts exactly `equals`, `notEquals`, `greaterThan` and `lessThan`, and is the inverse of the operator's name. |
| RawQuiz.ParseOperatorName | types/intake-form/quizJson.ts:104 | Parsing an operator's name gives that operator back. |
| RawQuiz.ParseLogicalOperator | types/intake-form/quizJson.ts:16 | It accepts exactly `AND` and `OR`, and is the inverse of the logical operator's name. |
| RawQuiz.ParseCalculationType | types/intake-form/quizJson.ts:108 | It accepts exactly `bmi`, `weeksToGoal` and `custom`, and is the inverse of the type's name. |
| RawQuiz.OrderResolutionsDiffer | utils/intake-form/validateQuizJson.ts:116 | The validator's `order ?? step_order ?? 0` and the transformer's `order \|\| step_order \|\| 0` disagree exactly when `order` is an explicit 0 and `step_order` is a non-zero number. |
| Formats.IsValidSlug | utils/intake-form/validateQuizJson.ts:247-250 | The automaton for `^[a-z0-9_-]+$` accepts exactly the non-empty strings over lower-case letters, digits, `_` and `-`. |
| Formats.SlugExamples | utils/intake-form/validateQuizJson.ts:249 | `"Step-1"` and `""` are rejected; `"step_1-a"` is accepted. |
| Formats.IsValidColor | utils/intake-form/validateQuizJson.ts:255-258 | The automaton for `^#([0-9A-Fa-f]{3}\|[0-9A-Fa-f]{6})$` accepts exactly `#` followed by 3 or 6 hex digits of either case. |
| Formats.ColorExamples | utils/intake-form/validateQuizJson.ts:257 | `#A75809` and `#fff` are accepted; a missing `#`, four digits and non-hex digits are rejected. |
| Duplicates.ScanComputesSecondOccurrences | utils/intake-form/validateQuizJson.ts:233-239 | The `seen`/`duplicates` scan computes the reference list of second occurrences. |
| Duplicates.SecondOccurrencesMembers | utils/intake-form/validateQuizJson.ts:229-242 | A value is in the reference list exactly when it occurs at least twice. |
| Duplicates.FindDuplicates | utils/intake-form/validateQuizJson.ts:229-242 | The result is every value occurring at least twice, each exactly once, in order of its second occurrence, and nothing else. |
| Duplicates.FindDuplicatesEmpty | utils/intake-form/validateQuizJson.ts:30-31 | No duplicates are reported exactly when no value repeats. |
| Duplicates.FindDuplicatesExample | utils/intake-form/validateQuizJson.ts:241 | `[b, a, b, a, a, c]` reports `[b, a]`: second-occurrence order, with the third `a` not repeated. |
| Duplicates.NoRepeatsPermutation | utils/intake-form/transformQuizJson.ts:59 | Reordering a list does not change whether it has repeats. |
| QuizValidate.SlugErrors | utils/intake-form/validateQuizJson.ts:96-100 | At most one message. It is empty exactly when the slug is truthy and URL-safe, and it is the missing message when the slug is falsy. |
| QuizValidate.DuplicateErrors | utils/intake-form/validateQuizJson.ts:81-85 | At most one message, absent exactly when no value repeats; the message lists `findDuplicates` joined by `", "`. |
| QuizValidate.OptionErrorsFrom | utils/intake-form/validateQuizJson.ts:199-206 | Each option with a falsy value (0 and `''` included) or a falsy label gets its own message with a 1-based position, and every message stems from such an option. |
| QuizValidate.QuestionOptionErrors | utils/intake-form/validateQuizJson.ts:195-208 | Silent exactly when the upper-cased type does not bear options, or when options are present, non-empty, and every value and label is truthy. |
| QuizValidate.QuestionImageErrors | utils/intake-form/validateQuizJson.ts:210-221 | `MARKETING` needs an image; `BEFORE_AFTER` needs a before and an after image in either spelling; the result is silent exactly when these hold. |
| QuizValidate.ValidateQuestion | utils/intake-form/validateQuizJson.ts:180-224 | No message exactly when the question meets every rule. Gives the missing-slug and missing-type messages, and the "requires options" message for a missing or empty option list. |
| QuizValidate.OptionsRequiredOnce | utils/intake-form/validateQuizJson.ts:195-198 | The "requires options" message occurs exactly once when an option-bearing type has a missing or empty list, and never otherwise. |
| QuizValidate.OptionsInQuestionHaveNoPositions | utils/intake-form/validateQuizJson.ts:196-197 | A question whose option list is missing or empty gets no per-option message at any position. |
| QuizValidate.ProgressStepErrors | utils/intake-form/validateQuizJson.ts:95-112 | Silent exactly when the step meets its rules. The name, colour and order messages name the step by slug, or by index when the slug is falsy. The order message fires only when both spellings are undefined. |
| QuizValidate.EachProgressStepErrors | utils/intake-form/validateQuizJson.ts:95-113 | Silent exactly when every step meets its rules; every message of every step is reported. |
| QuizValidate.FirstMismatch | utils/intake-form/validateQuizJson.ts:117-121 | Finds the first position whose value is not its 1-based index, or reports that there is none. |
| QuizValidate.OrderSequenceErrors | utils/intake-form/validateQuizJson.ts:116-122 | At most one message, absent exactly when the orders are a permutation of `1..N`. |
| QuizValidate.NotSequentialText | utils/intake-form/validateQuizJson.ts:119 | The message reads `Progress step order sequence is not sequential (expected 3, found 2)` for position 3 holding 2. |
| QuizValidate.OrderSequenceExample | utils/intake-form/validateQuizJson.ts:116-122 | Orders `[1, 2, 2]` are reported as expected 3, found 2. |
| QuizValidate.OrderSequencePermutationExample | utils/intake-form/validateQuizJson.ts:116 | Orders `[2, 3, 1]` pass: listing order does not matter. |
| QuizValidate.ValidateProgressSteps | utils/intake-form/validateQuizJson.ts:72-125 | A missing or empty list gives exactly one message and no other. Otherwise the result is silent exactly when the list meets every rule (distinct slugs and ids, each step's rules, orders `1..N`), and every per-step message is reported. The duplicate-slug message comes first, and the duplicate-id and not-sequential messages are among the errors. |
| QuizValidate.ProgressRefErrors | utils/intake-form/validateQuizJson.ts:153-157 | At most one message, absent exactly when `progressStepId` is truthy and is a progress-step slug; the missing message when it is falsy. |
| QuizValidate.QuestionErrors | utils/intake-form/validateQuizJson.ts:164-171 | Silent exactly when every question meets its rules. Every question message is reported, prefixed with the step name and a 1-based question position. |
| QuizValidate.FormStepErrors | utils/intake-form/validateQuizJson.ts:146-172 | Silent exactly when the step meets its rules; reports the reference messages and every prefixed question message. |
| QuizValidate.EachFormStepErrors | utils/intake-form/validateQuizJson.ts:146-172 | Silent exactly when every step meets its rules; every step's messages are reported. |
| QuizValidate.ValidateFormSteps | utils/intake-form/validateQuizJson.ts:130-175 | A missing or empty list gives exactly one message. Otherwise the result is silent exactly when the list meets every rule, every per-step message is reported, and the duplicate-slug message comes first. |
| QuizValidate.QuizIdentityErrors | utils/intake-form/validateQuizJson.ts:11-17 | Silent exactly when both slug and id are truthy and the slug is URL-safe. |
| QuizValidate.StepQuestionDuplicates | utils/intake-form/validateQuizJson.ts:37-41 | Silent exactly when the step's question slugs do not repeat. |
| QuizValidate.QuestionDuplicateErrors | utils/intake-form/validateQuizJson.ts:35-42 | Silent exactly when no step repeats a question slug within itself; slugs are not compared across steps. |
| QuizValidate.StepReferenceErrors | utils/intake-form/validateQuizJson.ts:45-51 | Silent exactly when every step's `progressStepId` is truthy and known. Every reference message is reported, naming the step by its interpolated slug. |
| QuizValidate.MetadataWarnings | utils/intake-form/validateQuizJson.ts:53-60 | Missing metadata gives exactly one warning. Otherwise there is one warning for each falsy `category`, `estimatedTime` or `targetAudience`, no other warning, none twice, in that field order. |
| QuizValidate.QuizLevelChecksRepeatFormStepChecks | utils/intake-form/validateQuizJson.ts:28-51 | When `validateFormSteps` is silent, so are the quiz-level duplicate-slug and reference checks. |
| QuizValidate.QuizRulesHoldParts | utils/intake-form/validateQuizJson.ts:6-67 | A quiz meets every rule exactly when the identity, progress-step, form-step and question-duplicate checks are all silent. |
| QuizValidate.QuizErrors | utils/intake-form/validateQuizJson.ts:6-62 | The error list is empty exactly when the quiz meets every rule. |
| QuizValidate.ValidateQuizJson | utils/intake-form/validateQuizJson.ts:6-67 | No result exactly when the source throws. Otherwise `isValid` holds exactly when there are no errors, which is exactly when the quiz meets every rule; the warnings are the metadata warnings. |
| QuizValidate.DuplicateFormSlugsReportedTwice | utils/intake-form/validateQuizJson.ts:28-33 | A repeated form-step slug puts the same duplicate message in the errors at least twice. |
| QuizValidate.BadReferenceReportedTwice | utils/intake-form/validateQuizJson.ts:45-51 | For a step with a truthy slug, a missing or unknown `progressStepId` message appears in the errors at least twice. |
| QuizValidate.BadReferenceMessageTwice | utils/intake-form/validateQuizJson.ts:153-157 | Each such reference message occurs at least twice in the error list. |
| QuizValidate.UnnamedStepMessages | utils/intake-form/validateQuizJson.ts:45-47 | A slug-less step without `progressStepId` is named by its index in `validateFormSteps` and as `undefined` in the quiz-level check. |
| QuizTransform.ProgressStepOf | utils/intake-form/transformQuizJson.ts:47-52 | The id is the slug; name and description are copied; the colour is the step's colour when truthy and `#A75809` otherwise, so never empty. |
| QuizTransform.TransformProgressSteps | utils/intake-form/transformQuizJson.ts:45-52 | One canonical step per raw step, in stable `order \|\| step_order \|\| 0` order; the ids are exactly the raw slugs, as a multiset. |
| QuizTransform.ProgressStepsFollowAnyStableSort | utils/intake-form/transformQuizJson.ts:45-46 | The progress steps are the mapped result of any stable sort of the raw steps by the resolved order. |
| QuizTransform.FindSlugIndex | utils/intake-form/transformQuizJson.ts:66 | `find` by slug returns the first step with the slug, or none when no step has it. |
| QuizTransform.MappingEntry | utils/intake-form/transformQuizJson.ts:64-80 | An entry exists only for a step whose own id it carries, and its progress-step id is non-empty and a known progress-step id. |
| QuizTransform.MappingEntryDistinctSlugs | utils/intake-form/transformQuizJson.ts:66-80 | With distinct slugs, a step gets an entry exactly when its `progressStepId` is truthy and known, and the entry is (slug, `progressStepId`). |
| QuizTransform.BuildMapping | utils/intake-form/transformQuizJson.ts:63-82 | No more entries than steps, and every entry names a non-empty, known progress step: dangling references are dropped. |
| QuizTransform.BuildMappingMembers | utils/intake-form/transformQuizJson.ts:63-82 | The entries are exactly the entries of the steps that are not dropped. |
| QuizTransform.BuildMappingOrder | utils/intake-form/transformQuizJson.ts:63-82 | The entries' step ids are a subsequence of the steps' slugs, so they follow step order. |
| QuizTransform.BuildMappingComplete | utils/intake-form/transformQuizJson.ts:63-82 | When no step is dropped, there is one entry per step, and the i-th entry is the i-th step's. |
| QuizTransform.TransformRenderCondition | utils/intake-form/transformQuizJson.ts:143-152 | Defined exactly when `conditions` is present. It keeps the logical operator, the number of conditions, and each condition's field, operator and value. |
| QuizTransform.ClauseHolds | utils/intake-form/transformQuizJson.ts:166-180 | `equals` is strict equality. `notEquals` needs a non-nullish, non-`''`, unequal value. `greaterThan`/`lessThan` compare the `Number` readings of answer and value, and fail when either is NaN. An unknown operator passes. |
| QuizTransform.GreaterThanNumberText | utils/intake-form/transformQuizJson.ts:173-174 | A numeric answer compared with the text of an integer holds exactly when the answer is larger. |
| QuizTransform.AllClausesHold | utils/intake-form/transformQuizJson.ts:166 | `every`: true exactly when each clause holds. |
| QuizTransform.DisplayCondition | utils/intake-form/transformQuizJson.ts:161-181 | True when the clause list is absent or empty; otherwise true exactly when every clause holds. |
| QuizTransform.DisplayCalculate | utils/intake-form/transformQuizJson.ts:184-219 | `''` without a calculate config and for every type other than `bmi`. The BMI is computed exactly when the type is `bmi`, there are at least 3 fields and none of the first three answers is nullish; it uses those three answers. |
| QuizTransform.TransformDisplayValue | utils/intake-form/transformQuizJson.ts:157-225 | Present exactly when the raw display value is; it keeps the raw configuration; the template falls back to `{{value}}` when falsy. |
| QuizTransform.OptionLists | utils/intake-form/transformQuizJson.ts:259-263 | Values and labels are index-aligned over the options sorted by `option_order \|\| 0`, with labels falling back to `String(value)`. The values are a permutation of the raw option values. |
| QuizTransform.TransformQuestion | utils/intake-form/transformQuizJson.ts:231-355 | Id is the slug; `required ?? is_required ?? false`; dispatch on the upper-cased tag. Named variants store the upper-case tag, the default keeps the lower-case tag with `icon`, and `FILE_INPUT` forces `apiType` `FILE`. Choice and dropdown variants carry aligned options, and only the three choice types get `displayAsRow ?? display_as_row ?? true`, the question's `image` and `optionImages ?? option_images`. `MEDICAL_REVIEW` defaults `candidateStatement` to `''`. `MARKETING`, `BEFORE_AFTER`, `PERFECT` and `WEIGHT_SUMMARY` build their own payloads, resolving the `image`/statistics and before/after image aliases. A falsy placeholder is dropped. |
| QuizTransform.TransformFormStep | utils/intake-form/transformQuizJson.ts:99-138 | Defined exactly when `questions` is present and a resolved render condition, if any, has `conditions`. Id is the slug and `questionSubtext` equals `subtext`. Questions are transformed in `question_order \|\| 0` order. `renderCondition` takes precedence over `render_condition`. Title, the two headings, `showTrustBadges`, `headingsInline` and the four dynamic texts are copied unchanged, and `displayValue` is transformed. |
| QuizTransform.TransformFormSteps | utils/intake-form/transformQuizJson.ts:58-60 | Defined exactly when every step transforms; then one canonical step per raw step, position by position. |
| QuizTransform.TransformQuiz | utils/intake-form/transformQuizJson.ts:43-94 | Defined exactly when the source does not throw. It keeps id (the slug), name, description, version and metadata. The progress steps are the transformed raw progress steps. The form steps are the transforms of the stable sort of the raw steps, and the mapping is built from that sorted list; it has at most one entry per step, each naming a known progress step. |
| QuizTransform.QuizStepsFollowAnyStableSort | utils/intake-form/transformQuizJson.ts:58-82 | The form steps and the mapping are those of any stable sort of the raw form steps by the resolved order. |
| QuizTransform.TransformAll | utils/intake-form/transformQuizJson.ts:398-405 | The transforms of the quizzes that do not throw, in input order: the j-th configuration is the transform of the j-th such quiz, and there are as many as such quizzes. |
| QuizTransform.TransformAllMembers | utils/intake-form/transformQuizJson.ts:398-405 | A configuration is in the batch result exactly when some input quiz transforms to it. |
| QuizTransform.TransformQuizzesFromData | utils/intake-form/transformQuizJson.ts:390-406 | A document without a quiz list gives `[]`; otherwise it is the batch transform of its quizzes. |
| QuizTransform.LoadQuizzesFromJson | utils/intake-form/transformQuizJson.ts:361-374 | A missing document gives `[]`; otherwise it is the transform of the document's quiz list. |
| QuizTransform.LoadedQuizzesMembers | utils/intake-form/transformQuizJson.ts:361-405 | A configuration is loaded exactly when the document has a quiz list and one of its quizzes transforms to it. |
| QuizTransform.FindQuiz | utils/intake-form/transformQuizJson.ts:413 | Returns the first configuration with the id, or none exactly when no configuration has it. |
| QuizTransform.GetQuizBySlugFromJson | utils/intake-form/transformQuizJson.ts:411-414 | Returns the first loaded configuration whose id is the slug, or none exactly when none has it. |
| JsMaps.Set | utils/intake-form/quizLoader.ts:59-60 | Setting an existing key keeps the key order; setting a new key appends it. |
| JsMaps.FromEntriesKeys | utils/intake-form/quizLoader.ts:60 | The keys of `new Map(entries)` are the entry keys without repeats, in first-occurrence order. |
| JsMaps.FromEntriesLastWins | utils/intake-form/quizLoader.ts:60 | The value `new Map(entries)` holds for a key is that of the last entry with the key. |
| JsMaps.Without | utils/intake-form/quizLoader.ts:66-70 | Keeps exactly the elements outside the excluded list, as a subsequence of the input (so in input order), and keeps distinctness. |
| JsMaps.EntriesWithoutKeys | utils/intake-form/quizLoader.ts:66-70 | Filtering the map's entries by `!jsonMap.has(id)` filters their keys the same way. |
| QuizLoader.KeyedMapById | utils/intake-form/quizLoader.ts:59-60 | The map built from a quiz list holds each quiz under its own id, and its entry keys are the quiz ids. |
| QuizLoader.AppendedIds | utils/intake-form/quizLoader.ts:66-70 | The ids appended are the distinct hand-written ids in first-occurrence order, minus the JSON ids. |
| QuizLoader.AppendedFromHardcoded | utils/intake-form/quizLoader.ts:66-70 | Every appended quiz is a hand-written quiz whose id is not a JSON id. |
| QuizLoader.AppendedCoversMissing | utils/intake-form/quizLoader.ts:66-70 | Every hand-written id that is not a JSON id is appended. |
| QuizLoader.MergeQuizzes | utils/intake-form/quizLoader.ts:58-72 | The result starts with all JSON quizzes in order. Then come hand-written quizzes with ids absent from the JSON, at most one per distinct id, covering every such id. Each is the LAST hand-written quiz with its id. Every hand-written id appears. |
| QuizLoader.AppendedAreLast | utils/intake-form/quizLoader.ts:60-70 | Every appended quiz is the last hand-written quiz with its id, because a `Map` keeps the last value set for a key. |
| QuizLoader.GetQuizById | utils/intake-form/quizLoader.ts:78-100 | Found exactly when a JSON or hand-written quiz has the id. The first JSON match wins; otherwise the first hand-written match is returned. |
| QuizLoader.FindQuizAppend | utils/intake-form/quizLoader.ts:80-99 | Looking up a concatenation tries the first list and then the second. |
| QuizLoader.FindQuizUnique | utils/intake-form/quizLoader.ts:99 | With distinct ids, lookup returns the quiz carrying the id. |
| QuizLoader.AppendedLookup | utils/intake-form/quizLoader.ts:66-70 | With distinct hand-written ids, looking up a non-JSON id among the appended quizzes finds the hand-written quiz. |
| QuizLoader.MergedLookupAgreesWithGetQuizById | utils/intake-form/quizLoader.ts:58-100 | With distinct hand-written ids, looking an id up in the merged list agrees with `getQuizById`. |
| QuizLoader.RepeatedHardcodedIdsDisagree | utils/intake-form/quizLoader.ts:60 | With a repeated hand-written id, the merged list keeps the later quiz while `getQuizById` returns the earlier one. |
| QuizLoader.LoadAllQuizzes | utils/intake-form/quizLoader.ts:30-73 | The JSON loader runs exactly when no load was attempted. A returned list is cached and a failure caches `[]`; otherwise the state is unchanged. The result starts with the cache and contains every hand-written id. |
| QuizLoader.ClearQuizCache | utils/intake-form/quizLoader.ts:105-108 | Resets the state to not-attempted with no cache. |
| QuizLoader.ClearThenLoadRunsLoader | utils/intake-form/quizLoader.ts:105-108 | After a clear, the next load runs the loader and caches its list, or `[]` on failure. |
| QuizLoader.GetAvailableQuizIds | utils/intake-form/quizLoader.ts:113-116 | The ids of `loadAllQuizzes`, in order and position by position, with the same state change. |
| QuizLoader.LoaderRunsOncePerClear | utils/intake-form/quizLoader.ts:24-42 | Over any sequence of calls, the JSON loader runs at most once plus once per clear, and the cache keeps agreeing with the loader. |
| QuizLoader.CachedLoadIsStable | utils/intake-form/quizLoader.ts:30-42 | With the cache in step with the loader, a load returns the merge of the loaded list. The next load does not run the loader and returns the same list. |
| QuizPipeline.ReferencedSlugIsProgressId | utils/intake-form/transformQuizJson.ts:55 | A progress-step slug the validator accepts as a reference is the id of a transformed progress step. |
| QuizPipeline.ReorderedStepsStayValid | utils/intake-form/transformQuizJson.ts:59 | Sorting the form steps of a valid list keeps their slugs distinct and each step within its rules. |
| QuizPipeline.ValidStepsAllMapped | utils/intake-form/transformQuizJson.ts:63-80 | In a valid form-step list, every sorted step has a truthy, known `progressStepId` and gets the entry (slug, `progressStepId`). |
| QuizPipeline.ValidStepsMapping | utils/intake-form/transformQuizJson.ts:63-82 | For a valid form-step list whose steps all transform, the sorted list transforms too and the mapping has one entry per step. Entry i names step i and its `progressStepId`. |
| QuizPipeline.ValidQuizMapsEveryStep | utils/intake-form/transformQuizJson.ts:63-93 | A quiz that passes validation and transforms maps every form step, in step order, to its own progress step. |
| QuizPipeline.UnconditionedQuizValid | utils/intake-form/validateQuizJson.ts:6-67 | A quiz whose only step has a render condition without `conditions` passes validation. |
| QuizPipeline.UnconditionedQuizDropped | utils/intake-form/transformQuizJson.ts:143-145 | That quiz fails to transform and the batch transform drops it. |
| QuizPipeline.ValidQuizMayFailToTransform | utils/intake-form/transformQuizJson.ts:398-405 | Some quiz passes validation yet is dropped by the batch transform: the validator never inspects render conditions. |
| InPlaceSort.QuestionAfterTransform | utils/intake-form/transformQuizJson.ts:259-261 | A choice or dropdown question is left with its options sorted by `option_order \|\| 0`, the same options as a multiset; any other question, and every other field, is untouched. |
| InPlaceSort.FormStepAfterTransform | utils/intake-form/transformQuizJson.ts:99-138 | A step that transforms keeps as many questions and still transforms; a step that throws is untouched; no field but the question list changes. |
| InPlaceSort.StepsAfterTransform | utils/intake-form/transformQuizJson.ts:58-60 | Every step is still there, and whether all steps transform is unchanged. When all do, each step is left as `FormStepAfterTransform` says. Otherwise there is a first step that throws: the steps before it are left as their transform leaves them, and it and the rest are untouched. |
| InPlaceSort.QuizAfterTransform | utils/intake-form/transformQuizJson.ts:43-60 | Only the progress and form step lists change, and the record still throws exactly when it threw before. |
| InPlaceSort.DocumentAfterTransform | utils/intake-form/transformQuizJson.ts:398 | The document keeps its quiz list, or its lack of one, and the list's length. |
| InPlaceSort.QuestionAgain | utils/intake-form/transformQuizJson.ts:259-263 | A question as the first transform left it transforms to the same result again. |
| InPlaceSort.FormStepAgain | utils/intake-form/transformQuizJson.ts:133-136 | A step as the first transform left it transforms to the same step again. |
| InPlaceSort.TransformAgainIsSame | utils/intake-form/transformQuizJson.ts:43-94 | Transforming a record a second time, with its arrays as the first transform left them, gives the same configuration or the same failure. |
| InPlaceSort.LoadAgainIsSame | utils/intake-form/transformQuizJson.ts:361-374 | Loading the document again, as the first load left it, gives the same configurations. |

## Left out

- **Build-time import.** The import of the quiz document, its module-level cache and the async variants (`loadQuizJsonDataAsync`, `loadQuizzesFromJsonAsync`, `getQuizBySlugFromJsonAsync`) are asset I/O and promise plumbing. The parsed document is an input (`Option<QuizJson>`, where `None` means no document).
- **Logging.** Console warnings and errors, and the `NODE_ENV` tests around them, have no effect on results.
- **BMI arithmetic and `toFixed(2)`.** These are floating point. The model stops at `BmiOf(feet, inches, weight)`, holding the three answers, and models only the guards and the `''` sentinel paths.
- **Number values.** A number in an answer or option value is an integer (`Num(n)`), and so are the order fields: `option_order` and `question_order` (`Option<int>`), and the step `order` and `step_order` (`NumberField.Present(n)`). JSON also allows a fractional order such as `1.5`; the source then sorts by the fraction and the validator reports `found 1.5`, which the model cannot express. `String(n)` is modelled for integers only. `Number(s)` of a string follows the full string grammar (white space, sign, `0x`/`0o`/`0b`, fraction, exponent, `Infinity`) but reads the exact decimal value.
- JsValues.ToNumber: the exact decimal value is kept, not rounded to a double. So `"1e400"` is a finite number here and `Infinity` in JavaScript, and two texts that differ beyond the 17th significant digit compare unequal here. `-0` is 0. Likewise `NumberStringRoundTrip` holds over unbounded integers; in JavaScript `String(1e21)` is `"1e+21"`.
- QuizTransform.ClauseHolds: `greaterThan`/`lessThan` compare exact decimal values, as `JsValues.ToNumber` says, not doubles.
- **Array and object answers.** `JsValue` has no array or object case. A `MULTISELECT` or `CHECKBOX` answer is an array in the source. There `Number(["5"])` is 5, `notEquals` on an array is true, and `equals` compares references. Conditions over such answers are not modelled.
- **`null` versus `undefined`.** Both are `None` in every string, boolean and list field. They are kept apart only in the step `order`/`step_order` fields and in the `JsValue` of condition values, option values and answers. So an explicit `null` slug is interpolated as `undefined` in messages, where the source writes `null`. `findDuplicates` also counts a `null` and an `undefined` slug as the same value, where the source keeps them apart.
- **Case mapping.** `toLowerCase`/`toUpperCase` are ASCII-only. Non-ASCII letters in type tags are left unchanged.
- **In-place sorting.** The source sorts its input arrays in place. `QuizTransform` returns sorted copies. `InPlaceSort` models the record as the sorts leave it, including a transform that throws part-way. `InPlaceSort.TransformAgainIsSame` and `LoadAgainIsSame` show that a second transform or load gives the same result. The aliasing itself is not modelled: the document and the records are values.
- **The unused `stepContext` parameter** of `validateQuestion`. It has no effect.
- **The hand-written quiz configurations.** These and the canonical `form` types module are not part of this model. The list is a parameter, and the canonical types are rebuilt from the object literals the transformer returns.
- **Fields nothing reads.** Fields that no function of the core reads are not part of the records: `form_step_id`, `config`, `is_template_step`, `quiz_id`, `productBundleIds`/`product_bundle_ids`, `created_at`, `organization_id`, `quizFormStepMapping`, the raw `stepProgressMapping`, `templates`, and the document's own `metadata`.
- **`getQuizById` and `loadQuizzesFromJson`.** `getQuizById` takes the list `loadQuizzesFromJson` returns as a parameter. That function catches everything itself and reads a document fixed at build time.
- **Unreachable catch.** The catch branch of `loadAllQuizzes` cannot be reached in the program for the same reason. It is still modelled, as `jsonLoad == None`.
- **Render conditions.** Both spellings are treated as objects or absent. A non-object render condition of some other JSON type is not modelled.
- QuizValidate.OptionErrorsFrom: says which messages must appear and where each comes from, not their exact order.
- QuizValidate.ValidateQuestion: the error order within a question is not stated, only membership and emptiness.
- QuizTransform.DisplayCalculate: the BMI value is the uninterpreted `BmiOf` record of the three answers, not a number.

=== FILE: canonical.dfy ===
/** The canonical quiz configuration the rendering layer consumes, as the
    transformer builds it. The shapes follow the object literals the
    transformer constructs; the `form` types module itself is not part of
    this model. */
module Canonical {
  import opened Wrappers
  import opened JsValues
  import opened RawQuiz

  datatype ProgressStep = ProgressStep(
    id: Option<string>,
    name: Option<string>,
    description: Option<string>,
    color: string)

  /** Links a form step (by its id) to the progress step it belongs to. */
  datatype StepProgressMapping = StepProgressMapping(stepId: Option<string>, progressStepId: string)

  datatype Condition = Condition(field: string, operator: string, value: JsValue)

  datatype RenderCondition = RenderCondition(conditions: seq<Condition>, logicalOperator: string)

  /** A compiled display value. The source builds two closures over the
      step's display-value JSON; here the captured JSON is stored and the
      closures are the functions `DisplayCondition` and `DisplayCalculate`
      of the transformer. */
  datatype DisplayValue = DisplayValue(spec: DisplayValueJson, template: string)

  /** What `calculate` returns: the empty-string sentinel, or the BMI of the
      three resolved answers (the arithmetic itself is not modelled). */
  datatype Calculated = EmptySentinel | BmiOf(feet: JsValue, inches: JsValue, weight: JsValue)

  /** The type-specific part of a question. */
  datatype QuestionPayload =
    | ChoicePayload(options: seq<JsValue>, optionLabels: seq<string>, displayAsRow: bool,
                    image: Option<string>, optionImages: Option<seq<string>>)
    | DropdownPayload(options: seq<JsValue>, optionLabels: seq<string>)
    | MarketingPayload(image: Option<string>, displayStatistics: Option<bool>)
    | BeforeAfterPayload(beforeImage: Option<string>, afterImage: Option<string>, quote: Option<string>)
    | FileInputPayload
    | MedicalReviewPayload(calculatedValues: Option<CalculatedValues>, candidateStatement: string)
    | PerfectPayload(heading1: Option<string>, dynamicSubtext: Option<string>, subtext: Option<string>)
    | WeightSummaryPayload
    | TextPayload(icon: Option<string>)

  datatype FormQuestion = FormQuestion(
    id: Option<string>,
    question: Option<string>,
    displayQuestion: Option<string>,
    required: bool,
    questionType: string,
    placeholder: Option<string>,
    apiType: Option<string>,
    validation: Option<seq<string>>,
    dynamicText: Option<string>,
    payload: QuestionPayload)

  datatype FormStep = FormStep(
    id: Option<string>,
    title: Option<string>,
    heading1: Option<string>,
    heading2: Option<string>,
    subtext: Option<string>,
    questionSubtext: Option<string>,
    renderCondition: Option<RenderCondition>,
    showTrustBadges: Option<bool>,
    headingsInline: Option<bool>,
    dynamicTitle: Option<string>,
    dynamicHeading1: Option<string>,
    dynamicHeading2: Option<string>,
    dynamicSubtext: Option<string>,
    displayValue: Option<DisplayValue>,
    questions: seq<FormQuestion>)

  datatype QuizConfig = QuizConfig(
    id: Option<string>,
    name: Option<string>,
    description: Option<string>,
    version: Option<string>,
    progressSteps: seq<ProgressStep>,
    stepProgressMapping: seq<StepProgressMapping>,
    steps: seq<FormStep>,
    metadata: Option<QuizMetadata>)
}

=== FILE: duplicates.dfy ===
/** `findDuplicates` (utils/intake-form/validateQuizJson.ts): every value that
    occurs at least twice, each once, in the order of its second occurrence. */
module Duplicates {

  /** No value occurs twice in `r`. */
  predicate NoRepeats<T(==)>(r: seq<T>) {
    forall i, j | 0 <= i < j < |r| :: r[i] != r[j]
  }

  /** Reference definition: the values standing at a position where they
      occur for the second time, in position order. */
  function SecondOccurrences<T(==)>(s: seq<T>): seq<T> {
    if |s| == 0 then []
    else
      var init := s[..|s| - 1];
      SecondOccurrences(init) + (if multiset(init)[s[|s| - 1]] == 1 then [s[|s| - 1]] else [])
  }

  lemma {:induction false} SecondOccurrencesMembers<T>(s: seq<T>)
    ensures forall x :: x in SecondOccurrences(s) <==> multiset(s)[x] >= 2
  {
    if |s| > 0 {
      var init := s[..|s| - 1];
      SecondOccurrencesMembers(init);
      assert s == init + [s[|s| - 1]];
    }
  }

  lemma {:induction false} SecondOccurrencesDistinct<T>(s: seq<T>)
    ensures NoRepeats(SecondOccurrences(s))
  {
    if |s| > 0 {
      var init := s[..|s| - 1];
      SecondOccurrencesDistinct(init);
      SecondOccurrencesMembers(init);
      var r0 := SecondOccurrences(init);
      var x := s[|s| - 1];
      if multiset(init)[x] == 1 {
        var r := r0 + [x];
        assert SecondOccurrences(s) == r;
        assert x !in r0;
        forall i, j | 0 <= i < j < |r| ensures r[i] != r[j] {
          assert r[i] == r0[i] && r0[i] in r0;
          if j < |r0| {
            assert r[j] == r0[j];
            assert r0[i] != r0[j];
          }
        }
      }
    }
  }

  /** The source's single pass: `seen` holds the values met so far and
      `dups` is the insertion-ordered `duplicates` set. */
  function Scan<T(==)>(s: seq<T>, i: nat, seen: set<T>, dups: seq<T>): seq<T>
    requires i <= |s|
    decreases |s| - i
  {
    if i == |s| then dups
    else if s[i] in seen then Scan(s, i + 1, seen, if s[i] in dups then dups else dups + [s[i]])
    else Scan(s, i + 1, seen + {s[i]}, dups)
  }

  lemma {:induction false} ScanComputesSecondOccurrences<T>(s: seq<T>, i: nat, seen: set<T>, dups: seq<T>)
    requires i <= |s|
    requires seen == set x | x in s[..i]
    requires dups == SecondOccurrences(s[..i])
    ensures Scan(s, i, seen, dups) == SecondOccurrences(s)
    decreases |s| - i
  {
    if i == |s| {
      assert s[..i] == s;
    } else {
      var x := s[i];
      var next := s[..i + 1];
      assert next[..i] == s[..i];
      assert next == s[..i] + [x];
      SecondOccurrencesMembers(s[..i]);
      assert x in seen <==> multiset(s[..i])[x] >= 1;
      var seen' := if x in seen then seen else seen + {x};
      var dups' := if x in seen && x !in dups then dups + [x] else dups;
      assert seen' == set y | y in next;
      ScanComputesSecondOccurrences(s, i + 1, seen', dups');
    }
  }

  function FindDuplicates<T(==,!new)>(s: seq<T>): (r: seq<T>)
    ensures r == SecondOccurrences(s)
    ensures forall x :: x in r <==> multiset(s)[x] >= 2
    ensures NoRepeats(r)
  {
    assert s[..0] == [];
    ScanComputesSecondOccurrences(s, 0, {}, []);
    SecondOccurrencesMembers(s);
    SecondOccurrencesDistinct(s);
    Scan(s, 0, {}, [])
  }

  /** No value repeats exactly when every value occurs at most once. */
  lemma {:induction false} NoRepeatsCounts<T>(s: seq<T>)
    ensures NoRepeats(s) <==> forall x :: multiset(s)[x] <= 1
  {
    if |s| > 0 {
      var init := s[..|s| - 1];
      var y := s[|s| - 1];
      NoRepeatsCounts(init);
      assert s == init + [y];
      if NoRepeats(s) {
        assert NoRepeats(init) by {
          forall i, j | 0 <= i < j < |init| ensures init[i] != init[j] {
            assert init[i] == s[i] && init[j] == s[j];
          }
        }
        assert forall i | 0 <= i < |init| :: init[i] == s[i] && s[i] != s[|s| - 1];
        assert y !in init;
      } else {
        var i, j :| 0 <= i < j < |s| && s[i] == s[j];
        if j < |s| - 1 {
          assert init[i] == init[j];
          assert !NoRepeats(init);
          var x :| multiset(init)[x] > 1;
          assert multiset(s)[x] >= multiset(init)[x];
        } else {
          assert init[i] == y;
          assert multiset(init)[y] >= 1;
          assert multiset(s)[y] >= 2;
        }
      }
    }
  }

  /** Rearranging a sequence does not create or remove repeats. */
  lemma NoRepeatsPermutation<T>(a: seq<T>, b: seq<T>)
    requires multiset(a) == multiset(b)
    ensures NoRepeats(a) <==> NoRepeats(b)
  {
    NoRepeatsCounts(a);
    NoRepeatsCounts(b);
  }

  /** The duplicate list is empty exactly when no value repeats. */
  lemma FindDuplicatesEmpty<T(!new)>(s: seq<T>)
    ensures FindDuplicates(s) == [] <==> NoRepeats(s)
  {
    NoRepeatsCounts(s);
    var d := FindDuplicates(s);
    if d != [] {
      assert d[0] in d;
    }
  }

  lemma FindDuplicatesExample()
    ensures FindDuplicates(["b", "a", "b", "a", "a", "c"]) == ["b", "a"]
  {
    var s := ["b", "a", "b", "a", "a", "c"];
    assert s[..1] == ["b"];
    assert s[..2] == ["b", "a"];
    assert s[..3] == ["b", "a", "b"];
    assert s[..4] == ["b", "a", "b", "a"];
    assert s[..5] == ["b", "a", "b", "a", "a"];
  }
}

=== FILE: formats.dfy ===
/** The validator's two format checks, each a regular expression in the
    source: `^[a-z0-9_-]+$` for slugs and `^#([0-9A-Fa-f]{3}|[0-9A-Fa-f]{6})$`
    for colours. Each is modelled as the deterministic automaton a regex
    engine runs, and proved equal to a plain character-level description. */
module Formats {

  predicate SlugChar(c: char) {
    ('a' <= c <= 'z') || ('0' <= c <= '9') || c == '_' || c == '-'
  }

  predicate HexDigit(c: char) {
    ('0' <= c <= '9') || ('a' <= c <= 'f') || ('A' <= c <= 'F')
  }

  // ---------------------------------------------------------------------------
  // Slugs: ^[a-z0-9_-]+$
  // ---------------------------------------------------------------------------

  datatype SlugState = SlugStart | SlugBody | SlugDead

  function SlugStep(st: SlugState, c: char): SlugState {
    if st == SlugDead || !SlugChar(c) then SlugDead else SlugBody
  }

  function RunSlug(st: SlugState, s: string): SlugState
    decreases |s|
  {
    if |s| == 0 then st else RunSlug(SlugStep(st, s[0]), s[1..])
  }

  lemma {:induction false} RunSlugAccepts(st: SlugState, s: string)
    ensures RunSlug(st, s) == SlugBody
        <==> st != SlugDead && (|s| > 0 || st == SlugBody) && forall i | 0 <= i < |s| :: SlugChar(s[i])
    decreases |s|
  {
    if |s| > 0 {
      RunSlugAccepts(SlugStep(st, s[0]), s[1..]);
      assert forall i | 1 <= i < |s| :: s[i] == s[1..][i - 1];
    }
  }

  /** `isValidSlug`: a non-empty string of lower-case letters, digits, `_` and `-`. */
  function IsValidSlug(s: string): (r: bool)
    ensures r <==> |s| > 0 && forall i | 0 <= i < |s| :: SlugChar(s[i])
  {
    RunSlugAccepts(SlugStart, s);
    RunSlug(SlugStart, s) == SlugBody
  }

  lemma SlugExamples()
    ensures !IsValidSlug("Step-1")
    ensures IsValidSlug("step_1-a")
    ensures !IsValidSlug("")
  {
    assert !SlugChar("Step-1"[0]);
  }

  // ---------------------------------------------------------------------------
  // Colours: ^#([0-9A-Fa-f]{3}|[0-9A-Fa-f]{6})$
  // ---------------------------------------------------------------------------

  /** `HexRead(k)`: the `#` and `k` hex digits have been read. */
  datatype ColorState = ColorStart | HexRead(k: nat) | ColorDead

  function ColorStep(st: ColorState, c: char): ColorState {
    match st
    case ColorStart => if c == '#' then HexRead(0) else ColorDead
    case HexRead(k) => if HexDigit(c) && k < 6 then HexRead(k + 1) else ColorDead
    case ColorDead => ColorDead
  }

  function RunColor(st: ColorState, s: string): ColorState
    decreases |s|
  {
    if |s| == 0 then st else RunColor(ColorStep(st, s[0]), s[1..])
  }

  lemma {:induction false} RunColorDigits(k: nat, s: string)
    requires k <= 6
    ensures RunColor(HexRead(k), s)
         == if k + |s| <= 6 && forall i | 0 <= i < |s| :: HexDigit(s[i]) then HexRead(k + |s|) else ColorDead
    decreases |s|
  {
    if |s| > 0 {
      assert forall i | 1 <= i < |s| :: s[i] == s[1..][i - 1];
      if HexDigit(s[0]) && k < 6 {
        RunColorDigits(k + 1, s[1..]);
      } else {
        RunColorDead(s[1..]);
      }
    }
  }

  lemma {:induction false} RunColorDead(s: string)
    ensures RunColor(ColorDead, s) == ColorDead
  {
    if |s| > 0 {
      RunColorDead(s[1..]);
    }
  }

  lemma ColorAccepts(s: string)
    ensures RunColor(ColorStart, s) in {HexRead(3), HexRead(6)}
        <==> (|s| == 4 || |s| == 7) && s[0] == '#' && forall i | 1 <= i < |s| :: HexDigit(s[i])
  {
    if |s| > 0 {
      assert forall i | 1 <= i < |s| :: s[i] == s[1..][i - 1];
      if s[0] == '#' {
        RunColorDigits(0, s[1..]);
      } else {
        RunColorDead(s[1..]);
      }
    }
  }

  /** `isValidColor`: `#` followed by exactly three or six hex digits of either case. */
  function IsValidColor(s: string): (r: bool)
    ensures r <==> (|s| == 4 || |s| == 7) && s[0] == '#' && forall i | 1 <= i < |s| :: HexDigit(s[i])
  {
    ColorAccepts(s);
    var end := RunColor(ColorStart, s);
    end == HexRead(3) || end == HexRead(6)
  }

  lemma ColorExamples()
    ensures IsValidColor("#A75809") && IsValidColor("#fff")
    ensures !IsValidColor("A75809") && !IsValidColor("#ffff") && !IsValidColor("#ggg")
  {
    assert !HexDigit("#ggg"[1]);
  }
}

=== FILE: in_place.dfy ===
/** The transformer sorts the arrays of the record it is given in place
    (utils/intake-form/transformQuizJson.ts, lines 46, 59, 135, 261 and 309),
    so the imported document is left reordered and a later transform of the
    same record, after the loader's cache is cleared, sees the sorted arrays.
    This module describes the record as a transform leaves it and shows that
    transforming it again gives the same configuration. */
module InPlaceSort {
  import opened Wrappers
  import opened Sequences
  import opened RawQuiz
  import opened Canonical
  import opened QuizTransform

  // ---------------------------------------------------------------------------
  // The record as a transform leaves it
  // ---------------------------------------------------------------------------

  /** Whether `transformQuestion` sorts the question's `options`: only the
      choice and dropdown branches do. */
  predicate SortsOptions(q: QuestionJson) {
    DispatchTag(q) in ChoiceTags || DispatchTag(q) == "DROPDOWN"
  }

  /** A question as `transformQuestion` leaves it. A missing option list is
      replaced by a fresh `[]` before sorting, so the record keeps none. */
  function QuestionAfterTransform(q: QuestionJson): (r: QuestionJson)
    ensures r == q.(options := r.options)
    ensures r.options.Some? <==> q.options.Some?
    ensures r.options.Some? ==> multiset(r.options.value) == multiset(q.options.value)
    ensures r.options.Some? && SortsOptions(q) ==> SortedBy(r.options.value, OptionSortKey)
    ensures !SortsOptions(q) ==> r == q
  {
    if SortsOptions(q) && q.options.Some? then
      q.(options := Some(SortBy(q.options.value, OptionSortKey)))
    else
      q
  }

  /** A form step as `transformFormStep` leaves it. When it does not throw,
      its questions are sorted by `question_order || 0` and each is left as
      `transformQuestion` leaves it. A step whose render condition throws is
      untouched, since the render condition is read first. */
  function FormStepAfterTransform(s: FormStepJson): (r: FormStepJson)
    ensures r == s.(questions := r.questions)
    ensures FormStepTransforms(r) <==> FormStepTransforms(s)
    ensures r.questions.Some? <==> s.questions.Some?
    ensures r.questions.Some? ==> |r.questions.value| == |s.questions.value|
    ensures !FormStepTransforms(s) ==> r == s
  {
    if FormStepTransforms(s) then
      s.(questions := Some(MapSeq(QuestionAfterTransform, SortBy(s.questions.value, QuestionSortKey))))
    else
      s
  }

  /** Every step transforms. */
  predicate AllStepsTransform(steps: seq<FormStepJson>) {
    forall s | s in steps :: FormStepTransforms(s)
  }

  /** `k` is the first step that throws: the steps before it all transform
      and `r` holds them as their transform leaves them, and from it on `r`
      is `steps` untouched. */
  predicate StopsAt(steps: seq<FormStepJson>, r: seq<FormStepJson>, k: nat) {
    && k < |steps| == |r|
    && AllStepsTransform(steps[..k])
    && !FormStepTransforms(steps[k])
    && r[..k] == MapSeq(FormStepAfterTransform, steps[..k])
    && r[k..] == steps[k..]
  }

  /** The form steps, already sorted, as the `map` over them leaves them:
      the steps before the first that throws are transformed, and that step
      and the rest are untouched. */
  function StepsAfterTransform(steps: seq<FormStepJson>): (r: seq<FormStepJson>)
    ensures |r| == |steps|
    ensures AllStepsTransform(r) <==> AllStepsTransform(steps)
    ensures AllStepsTransform(steps) ==> r == MapSeq(FormStepAfterTransform, steps)
    ensures !AllStepsTransform(steps) ==> exists k :: StopsAt(steps, r, k)
  {
    if |steps| == 0 then
      []
    else if !FormStepTransforms(steps[0]) then
      assert StopsAt(steps, steps, 0);
      steps
    else
      var first := FormStepAfterTransform(steps[0]);
      var rest := StepsAfterTransform(steps[1..]);
      assert steps == [steps[0]] + steps[1..];
      StepsConsTransform(steps[0], steps[1..]);
      StepsConsTransform(first, rest);
      MapSeqFirst(FormStepAfterTransform, steps);
      var r := [first] + rest;
      assert !AllStepsTransform(steps) ==> exists k :: StopsAt(steps, r, k) by {
        if !AllStepsTransform(steps) {
          var k :| StopsAt(steps[1..], rest, k);
          StopsAtCons(steps, rest, k);
        }
      }
      r
  }

  /** A first throwing step of the tail, shifted past a head that
      transforms, is the first throwing step of the whole list. */
  lemma StopsAtCons(steps: seq<FormStepJson>, rest: seq<FormStepJson>, k: nat)
    requires |steps| > 0 && FormStepTransforms(steps[0])
    requires StopsAt(steps[1..], rest, k)
    ensures StopsAt(steps, [FormStepAfterTransform(steps[0])] + rest, k + 1)
  {
    var r := [FormStepAfterTransform(steps[0])] + rest;
    assert steps[..k + 1] == [steps[0]] + steps[1..][..k];
    StepsConsTransform(steps[0], steps[1..][..k]);
    assert r[..k + 1] == [r[0]] + rest[..k];
    MapSeqFirst(FormStepAfterTransform, steps[..k + 1]);
    assert MapSeq(FormStepAfterTransform, steps[..k + 1])[1..] == MapSeq(FormStepAfterTransform, steps[1..][..k]);
    assert r[k + 1..] == rest[k..];
    assert steps[k + 1..] == steps[1..][k..];
  }

  /** Every step of `[x] + rest` transforms exactly when `x` and every step
      of `rest` do. */
  lemma StepsConsTransform(x: FormStepJson, rest: seq<FormStepJson>)
    ensures AllStepsTransform([x] + rest) <==> FormStepTransforms(x) && AllStepsTransform(rest)
  {
    assert forall s | s in [x] + rest :: s == x || s in rest;
  }

  /** Whether every step transforms does not depend on their order. */
  lemma AllTransformPermutation(a: seq<FormStepJson>, b: seq<FormStepJson>)
    requires multiset(a) == multiset(b)
    ensures (forall s | s in a :: FormStepTransforms(s)) <==> forall s | s in b :: FormStepTransforms(s)
  {
    assert forall s | s in a :: s in multiset(b);
    assert forall s | s in b :: s in multiset(a);
  }

  /** The record as `transformQuizJsonToQuizConfig` leaves it: progress
      steps sorted, then form steps sorted and transformed one by one. A
      missing list throws where it is first read. */
  function QuizAfterTransform(q: QuizJsonQuiz): (r: QuizJsonQuiz)
    ensures QuizTransforms(r) <==> QuizTransforms(q)
    ensures r == q.(progressSteps := r.progressSteps, formSteps := r.formSteps)
  {
    match q.progressSteps
    case None => q
    case Some(ps) =>
      var sortedProgress := q.(progressSteps := Some(SortBy(ps, ProgressSortKey)));
      match q.formSteps
      case None => sortedProgress
      case Some(fs) =>
        var sorted := SortBy(fs, FormStepSortKey);
        AllTransformPermutation(sorted, fs);
        sortedProgress.(formSteps := Some(StepsAfterTransform(sorted)))
  }

  /** The document as `transformQuizzesFromData` leaves it. */
  function DocumentAfterTransform(data: QuizJson): (r: QuizJson)
    ensures r.quizzes.Some? <==> data.quizzes.Some?
    ensures r.quizzes.Some? ==> |r.quizzes.value| == |data.quizzes.value|
  {
    match data.quizzes
    case None => data
    case Some(qs) => QuizJson(Some(MapSeq(QuizAfterTransform, qs)))
  }

  // ---------------------------------------------------------------------------
  // Transforming again
  // ---------------------------------------------------------------------------

  /** A question transforms the same once its options are sorted. */
  lemma QuestionAgain(q: QuestionJson)
    ensures TransformQuestion(QuestionAfterTransform(q)) == TransformQuestion(q)
  {
    var q' := QuestionAfterTransform(q);
    if SortsOptions(q) && q.options.Some? {
      SortByIdempotent(q.options.value, OptionSortKey);
      assert SortedOptions(q') == SortedOptions(q);
      assert OptionLists(q') == OptionLists(q);
    }
  }

  lemma QuestionsAgain(qs: seq<QuestionJson>)
    ensures MapSeq(TransformQuestion, MapSeq(QuestionAfterTransform, qs)) == MapSeq(TransformQuestion, qs)
  {
    forall i | 0 <= i < |qs| ensures TransformQuestion(QuestionAfterTransform(qs[i])) == TransformQuestion(qs[i]) {
      QuestionAgain(qs[i]);
    }
  }

  /** The questions of a step, sorted and left as transformed, sort to
      themselves. */
  lemma SortedQuestionsStaySorted(qs: seq<QuestionJson>)
    ensures var after := MapSeq(QuestionAfterTransform, SortBy(qs, QuestionSortKey));
      SortBy(after, QuestionSortKey) == after
  {
    var sorted := SortBy(qs, QuestionSortKey);
    MapSeqKeepsSorted(QuestionAfterTransform, sorted, QuestionSortKey);
    SortBySortedIsIdentity(MapSeq(QuestionAfterTransform, sorted), QuestionSortKey);
  }

  /** A step transforms the same once its questions and their options are
      sorted. */
  lemma FormStepAgain(s: FormStepJson)
    ensures TransformFormStep(FormStepAfterTransform(s)) == TransformFormStep(s)
  {
    if FormStepTransforms(s) {
      var s' := FormStepAfterTransform(s);
      var sorted := SortBy(s.questions.value, QuestionSortKey);
      SortedQuestionsStaySorted(s.questions.value);
      QuestionsAgain(sorted);
      assert MapSeq(TransformQuestion, SortBy(s'.questions.value, QuestionSortKey))
          == MapSeq(TransformQuestion, sorted);
    }
  }

  /** `find` by slug only reads slugs. */
  lemma {:induction false} FindSlugIndexSameSlugs(a: seq<FormStepJson>, b: seq<FormStepJson>, slug: Option<string>)
    requires |a| == |b| && forall i | 0 <= i < |a| :: a[i].slug == b[i].slug
    ensures FindSlugIndex(a, slug) == FindSlugIndex(b, slug)
  {
    if |a| > 0 {
      FindSlugIndexSameSlugs(a[1..], b[1..], slug);
    }
  }

  /** The mapping only reads slugs and `progressStepId`s. */
  lemma {:induction false} BuildMappingSameReferences(
    pa: seq<FormStepJson>, pb: seq<FormStepJson>, sa: seq<FormStepJson>, sb: seq<FormStepJson>,
    ids: set<Option<string>>)
    requires |pa| == |pb| && forall i | 0 <= i < |pa| :: pa[i].slug == pb[i].slug
    requires |sa| == |sb| && forall i | 0 <= i < |sa| :: sa[i].slug == sb[i].slug && sa[i].progressStepId == sb[i].progressStepId
    ensures BuildMapping(pa, sa, ids) == BuildMapping(pb, sb, ids)
  {
    if |pa| > 0 {
      FindSlugIndexSameSlugs(sa, sb, pa[0].slug);
      assert MappingEntry(sa, pa[0], ids) == MappingEntry(sb, pb[0], ids);
      BuildMappingSameReferences(pa[1..], pb[1..], sa, sb, ids);
    }
  }

  /** The sorted form steps, left as transformed, transform the same. */
  lemma FormStepsAgain(sorted: seq<FormStepJson>)
    ensures TransformFormSteps(MapSeq(FormStepAfterTransform, sorted)) == TransformFormSteps(sorted)
  {
    forall i | 0 <= i < |sorted| ensures TransformFormStep(FormStepAfterTransform(sorted[i])) == TransformFormStep(sorted[i]) {
      FormStepAgain(sorted[i]);
    }
    MapAllAfterMap(TransformFormStep, FormStepAfterTransform, sorted);
  }

  /** The sorted form steps, left as transformed, map the same. */
  lemma MappingAgain(sorted: seq<FormStepJson>, ids: set<Option<string>>)
    ensures var after := MapSeq(FormStepAfterTransform, sorted);
      BuildMapping(after, after, ids) == BuildMapping(sorted, sorted, ids)
  {
    var after := MapSeq(FormStepAfterTransform, sorted);
    BuildMappingSameReferences(after, sorted, after, sorted, ids);
  }

  /** The form steps as a transform leaves them sort to themselves. */
  lemma SortedStepsStaySorted(fs: seq<FormStepJson>)
    ensures var after := MapSeq(FormStepAfterTransform, SortBy(fs, FormStepSortKey));
      SortBy(after, FormStepSortKey) == after
  {
    var sorted := SortBy(fs, FormStepSortKey);
    MapSeqKeepsSorted(FormStepAfterTransform, sorted, FormStepSortKey);
    SortBySortedIsIdentity(MapSeq(FormStepAfterTransform, sorted), FormStepSortKey);
  }

  /** The progress steps, already sorted, transform the same. */
  lemma ProgressStepsAgain(ps: seq<ProgressStepJson>)
    ensures TransformProgressSteps(SortBy(ps, ProgressSortKey)) == TransformProgressSteps(ps)
  {
    SortByIdempotent(ps, ProgressSortKey);
  }

  /** Transforming a record a second time, with its arrays as the first
      transform left them, gives the same result as the first time: the
      same configuration, or the same failure. */
  lemma TransformAgainIsSame(q: QuizJsonQuiz)
    ensures TransformQuiz(QuizAfterTransform(q)) == TransformQuiz(q)
  {
    if QuizTransforms(q) {
      var q' := QuizAfterTransform(q);
      var ps := q.progressSteps.value;
      var sorted := SortBy(q.formSteps.value, FormStepSortKey);
      assert forall s | s in sorted :: s in multiset(q.formSteps.value);
      var after := MapSeq(FormStepAfterTransform, sorted);
      assert q'.formSteps.value == after;
      ProgressStepsAgain(ps);
      SortedStepsStaySorted(q.formSteps.value);
      FormStepsAgain(sorted);
      MappingAgain(sorted, ProgressIdSet(TransformProgressSteps(ps)));
    }
  }

  /** Loading the same document again, as the first load left it, gives the
      same configurations. */
  lemma LoadAgainIsSame(doc: Option<QuizJson>)
    ensures doc.Some? ==> LoadQuizzesFromJson(Some(DocumentAfterTransform(doc.value))) == LoadQuizzesFromJson(doc)
  {
    if doc.Some? && doc.value.quizzes.Some? {
      var qs := doc.value.quizzes.value;
      forall i | 0 <= i < |qs| ensures TransformQuiz(QuizAfterTransform(qs[i])) == TransformQuiz(qs[i]) {
        TransformAgainIsSame(qs[i]);
      }
      FilterMapAfterMap(TransformQuiz, QuizAfterTransform, qs);
    }
  }
}

=== FILE: js_maps.dfy ===
/** The JavaScript `Map` as the loader uses it: an insertion-ordered list of
    entries with distinct keys, where setting an existing key replaces its
    value in place and setting a new key appends an entry. */
module JsMaps {
  import opened Wrappers
  import opened Sequences
  import opened Duplicates

  datatype Entry<K, V> = Entry(key: K, value: V)

  function Key<K, V>(e: Entry<K, V>): K { e.key }

  function Keys<K, V>(m: seq<Entry<K, V>>): seq<K> { MapSeq(Key, m) }

  /** The position of the entry for `k`, if any. */
  function IndexOf<K(==), V>(m: seq<Entry<K, V>>, k: K): (r: Option<nat>)
    ensures r.None? <==> k !in Keys(m)
    ensures r.Some? ==> r.value < |m| && m[r.value].key == k
  {
    if |m| == 0 then None
    else if m[|m| - 1].key == k then Some(|m| - 1)
    else
      var r := IndexOf(m[..|m| - 1], k);
      assert Keys(m) == Keys(m[..|m| - 1]) + [m[|m| - 1].key];
      r
  }

  /** `map.get(k)`. */
  function Get<K(==), V>(m: seq<Entry<K, V>>, k: K): (r: Option<V>)
    ensures r.Some? <==> k in Keys(m)
  {
    match IndexOf(m, k)
    case None => None
    case Some(i) => Some(m[i].value)
  }

  /** `map.set(k, v)`. */
  function Set<K(==), V>(m: seq<Entry<K, V>>, k: K, v: V): (r: seq<Entry<K, V>>)
    ensures Keys(r) == if k in Keys(m) then Keys(m) else Keys(m) + [k]
  {
    match IndexOf(m, k)
    case None => m + [Entry(k, v)]
    case Some(i) =>
      var r := m[i := Entry(k, v)];
      assert Keys(r) == Keys(m);
      r
  }

  /** `new Map(entries)`: the entries set one after another. */
  function FromEntries<K(==), V>(es: seq<Entry<K, V>>): seq<Entry<K, V>> {
    if |es| == 0 then []
    else Set(FromEntries(es[..|es| - 1]), es[|es| - 1].key, es[|es| - 1].value)
  }

  /** Reference definition: the distinct values of `s` in the order of their
      first occurrence. */
  function FirstOccurrences<T(==)>(s: seq<T>): seq<T> {
    if |s| == 0 then []
    else
      var d := FirstOccurrences(s[..|s| - 1]);
      if s[|s| - 1] in d then d else d + [s[|s| - 1]]
  }

  lemma {:induction false} FirstOccurrencesProperties<T>(s: seq<T>)
    ensures forall x :: x in FirstOccurrences(s) <==> x in s
    ensures NoRepeats(FirstOccurrences(s))
  {
    if |s| > 0 {
      var init := s[..|s| - 1];
      FirstOccurrencesProperties(init);
      assert s == init + [s[|s| - 1]];
    }
  }

  /** The keys of `new Map(entries)` are the entry keys without repeats, in
      the order each key first appears. */
  lemma {:induction false} FromEntriesKeys<K, V>(es: seq<Entry<K, V>>)
    ensures Keys(FromEntries(es)) == FirstOccurrences(Keys(es))
    ensures NoRepeats(Keys(FromEntries(es)))
    ensures forall k :: k in Keys(FromEntries(es)) <==> k in Keys(es)
  {
    FirstOccurrencesProperties(Keys(es));
    if |es| > 0 {
      var init := es[..|es| - 1];
      FromEntriesKeys(init);
      assert Keys(es)[..|es| - 1] == Keys(init);
    }
  }

  /** The value `new Map(entries)` holds for a key is the one of the LAST
      entry with that key. */
  lemma {:induction false} FromEntriesLastWins<K, V>(es: seq<Entry<K, V>>, i: nat)
    requires i < |es|
    requires forall j | i < j < |es| :: es[j].key != es[i].key
    ensures Get(FromEntries(es), es[i].key) == Some(es[i].value)
  {
    var init := es[..|es| - 1];
    var m := FromEntries(init);
    var last := es[|es| - 1];
    if i == |es| - 1 {
      var r := Set(m, last.key, last.value);
      assert Keys(r)[IndexOf(r, last.key).value] == last.key;
      match IndexOf(m, last.key)
      case None =>
        assert r == m + [Entry(last.key, last.value)];
        GetAppended(m, last.key, last.value);
      case Some(p) =>
        SetReplaces(m, p, last.key, last.value);
    } else {
      FromEntriesLastWins(init, i);
      assert last.key != es[i].key;
      SetOtherKey(m, last.key, last.value, es[i].key);
    }
  }

  /** In a map whose keys do not repeat, the value found for an entry's key
      is that entry's value. */
  lemma GetOfMember<K, V>(m: seq<Entry<K, V>>, e: Entry<K, V>)
    requires NoRepeats(Keys(m))
    requires e in m
    ensures Get(m, e.key) == Some(e.value)
  {
    var p :| 0 <= p < |m| && m[p] == e;
    assert Keys(m)[p] == e.key;
    var i := IndexOf(m, e.key).value;
    assert Keys(m)[i] == e.key;
  }

  lemma GetAppended<K, V>(m: seq<Entry<K, V>>, k: K, v: V)
    ensures Get(m + [Entry(k, v)], k) == Some(v)
  {
  }

  /** `IndexOf` only looks at the keys. */
  lemma {:induction false} IndexOfByKeys<K, V>(a: seq<Entry<K, V>>, b: seq<Entry<K, V>>, k: K)
    requires Keys(a) == Keys(b)
    ensures IndexOf(a, k) == IndexOf(b, k)
  {
    if |a| > 0 {
      assert a[|a| - 1].key == Keys(a)[|a| - 1] == b[|b| - 1].key;
      assert Keys(a[..|a| - 1]) == Keys(a)[..|a| - 1] == Keys(b)[..|b| - 1] == Keys(b[..|b| - 1]);
      IndexOfByKeys(a[..|a| - 1], b[..|b| - 1], k);
    }
  }

  lemma SetReplaces<K, V>(m: seq<Entry<K, V>>, p: nat, k: K, v: V)
    requires IndexOf(m, k) == Some(p)
    ensures Get(Set(m, k, v), k) == Some(v)
  {
    var r := m[p := Entry(k, v)];
    assert Keys(r) == Keys(m);
    IndexOfByKeys(r, m, k);
  }

  lemma SetOtherKey<K, V>(m: seq<Entry<K, V>>, k: K, v: V, other: K)
    requires other != k
    ensures Get(Set(m, k, v), other) == Get(m, other)
  {
    var r := Set(m, k, v);
    match IndexOf(m, k)
    case None =>
      assert r == m + [Entry(k, v)];
      assert r[..|r| - 1] == m;
    case Some(i) =>
      assert r == m[i := Entry(k, v)];
      IndexOfByKeys(r, m, other);
      match IndexOf(m, other)
      case None =>
      case Some(p) =>
        assert p != i;
  }

  /** The elements of `s` not in `excluded`, in order. */
  function Without<T(==,!new)>(s: seq<T>, excluded: seq<T>): (r: seq<T>)
    ensures forall x | x in r :: x in s && x !in excluded
    ensures forall i | 0 <= i < |s| && s[i] !in excluded :: s[i] in r
    ensures NoRepeats(s) ==> NoRepeats(r)
    ensures IsSubsequence(r, s)
  {
    if |s| == 0 then []
    else
      var rest := Without(s[1..], excluded);
      assert forall x | x in s[1..] :: x in s;
      assert forall i | 1 <= i < |s| :: s[i] == s[1..][i - 1];
      assert NoRepeats(s) ==> s[0] !in s[1..] && NoRepeats(s[1..]) by {
        if NoRepeats(s) {
          forall i | 0 <= i < |s[1..]| ensures s[1..][i] != s[0] {
            assert s[1..][i] == s[i + 1];
          }
          forall i, j | 0 <= i < j < |s[1..]| ensures s[1..][i] != s[1..][j] {
            assert s[1..][i] == s[i + 1] && s[1..][j] == s[j + 1];
          }
        }
      }
      if s[0] in excluded then
        SubsequenceExtend(rest, s);
        rest
      else
        assert ([s[0]] + rest)[1..] == rest;
        [s[0]] + rest
  }

  /** A value of `s` outside `excluded` survives `Without` after repeats are
      dropped. */
  lemma WithoutFirstOccurrencesCovers<T(!new)>(s: seq<T>, excluded: seq<T>, x: T)
    requires x in s && x !in excluded
    ensures x in Without(FirstOccurrences(s), excluded)
  {
    FirstOccurrencesProperties(s);
    var firsts := FirstOccurrences(s);
    var k :| 0 <= k < |firsts| && firsts[k] == x;
  }

  lemma {:induction false} WithoutSameMembers<T(!new)>(s: seq<T>, a: seq<T>, b: seq<T>)
    requires forall x :: x in a <==> x in b
    ensures Without(s, a) == Without(s, b)
  {
    if |s| > 0 {
      WithoutSameMembers(s[1..], a, b);
    }
  }

  function Value<K, V>(e: Entry<K, V>): V { e.value }

  /** The entries whose key is not in `excluded`, in map order (`forEach`
      with a `has` test). */
  function EntriesWithout<K(==), V>(m: seq<Entry<K, V>>, excluded: seq<K>): (r: seq<Entry<K, V>>)
    ensures |r| <= |m|
    ensures forall e | e in r :: e in m && e.key !in excluded
    ensures forall i | 0 <= i < |m| && m[i].key !in excluded :: m[i] in r
  {
    if |m| == 0 then []
    else
      var rest := EntriesWithout(m[1..], excluded);
      assert forall i | 1 <= i < |m| :: m[i] == m[1..][i - 1];
      (if m[0].key in excluded then [] else [m[0]]) + rest
  }

  lemma KeysAppend<K, V>(a: seq<Entry<K, V>>, b: seq<Entry<K, V>>)
    ensures Keys(a + b) == Keys(a) + Keys(b)
  {
  }

  /** One step of the filter on the first entry. */
  lemma EntriesWithoutStep<K(!new), V>(m: seq<Entry<K, V>>, excluded: seq<K>)
    requires |m| > 0
    ensures Keys(EntriesWithout(m, excluded))
         == (if m[0].key in excluded then [] else [m[0].key]) + Keys(EntriesWithout(m[1..], excluded))
  {
    var head := if m[0].key in excluded then [] else [m[0]];
    KeysAppend(head, EntriesWithout(m[1..], excluded));
  }

  /** One step of `Without` on the first key. */
  lemma WithoutKeysStep<K(!new), V>(m: seq<Entry<K, V>>, excluded: seq<K>)
    requires |m| > 0
    ensures Without(Keys(m), excluded)
         == (if m[0].key in excluded then [] else [m[0].key]) + Without(Keys(m[1..]), excluded)
  {
    var keys := Keys(m);
    assert keys[0] == m[0].key && keys[1..] == Keys(m[1..]);
  }

  /** Filtering entries filters their keys the same way. */
  lemma {:induction false} EntriesWithoutKeys<K(!new), V>(m: seq<Entry<K, V>>, excluded: seq<K>)
    ensures Keys(EntriesWithout(m, excluded)) == Without(Keys(m), excluded)
  {
    if |m| > 0 {
      EntriesWithoutStep(m, excluded);
      WithoutKeysStep(m, excluded);
      EntriesWithoutKeys(m[1..], excluded);
    }
  }
}

=== FILE: js_values.dfy ===
/** The slice of JavaScript value semantics the quiz pipeline relies on:
    truthiness (`||`, `!x`), nullishness (`??`, `== null`), `Number(v)`,
    `String(v)`, template interpolation, `Array.prototype.join` and ASCII
    case mapping. `Number(text)` reads an exact decimal, NaN or an
    infinity; the number values that answers, option values and order
    fields hold are integers. */
module JsValues {
  import opened Wrappers

  /** A number-valued JSON key that may be missing, explicitly `null`, or a number. */
  datatype NumberField = Missing | ExplicitNull | Present(n: int)

  /** A JavaScript primitive as it occurs in an answers map, an option value
      or a condition's comparison value. */
  datatype JsValue = Undefined | Null | Bool(b: bool) | Num(n: int) | Str(s: string)

  /** JavaScript truthiness: `false`, `0`, `''`, `null` and `undefined` are falsy. */
  predicate Truthy(v: JsValue) {
    match v
    case Undefined => false
    case Null => false
    case Bool(b) => b
    case Num(n) => n != 0
    case Str(s) => s != ""
  }

  /** Loose equality with null: `v == null`. */
  predicate IsNullish(v: JsValue) {
    v.Undefined? || v.Null?
  }

  /** Truthiness of an optional string field. */
  predicate StringTruthy(o: Option<string>) {
    o.Some? && o.value != ""
  }

  /** Truthiness of a number-valued field. */
  predicate NumberTruthy(f: NumberField) {
    f.Present? && f.n != 0
  }

  /** `a || b` for an optional string and a string fallback. */
  function StringOr(a: Option<string>, b: string): string {
    if StringTruthy(a) then a.value else b
  }

  /** `a || undefined`: an empty string becomes absent. */
  function FalsyToNone(a: Option<string>): Option<string> {
    if StringTruthy(a) then a else None
  }

  /** `f || fallback` for a number-valued field. */
  function NumberOr(f: NumberField, fallback: int): int {
    if NumberTruthy(f) then f.n else fallback
  }

  /** `f ?? fallback` for a number-valued field (null and undefined both fall through). */
  function NumberCoalesce(f: NumberField, fallback: int): int {
    if f.Present? then f.n else fallback
  }

  // ---------------------------------------------------------------------------
  // Decimal text
  // ---------------------------------------------------------------------------

  predicate IsDigit(c: char) {
    '0' <= c <= '9'
  }

  predicate AllDigits(s: string) {
    forall i | 0 <= i < |s| :: IsDigit(s[i])
  }

  function DigitChar(d: nat): (c: char)
    requires d < 10
    ensures IsDigit(c)
  {
    (48 + d) as char
  }

  function DigitValue(c: char): (d: nat)
    requires IsDigit(c)
    ensures d < 10
  {
    c as int - 48
  }

  /** Decimal rendering of a natural number, without leading zeros. */
  function NatToString(n: nat): (s: string)
    ensures |s| > 0 && AllDigits(s)
    ensures s[0] != '0' || n == 0
    decreases n
  {
    if n < 10 then [DigitChar(n)] else NatToString(n / 10) + [DigitChar(n % 10)]
  }

  /** `String(i)` / template interpolation of an integer. */
  function IntToString(i: int): string {
    if i < 0 then "-" + NatToString(-i) else NatToString(i)
  }

  /** The number a string of decimal digits denotes. */
  function DigitsValue(s: string): nat
    requires AllDigits(s)
  {
    if |s| == 0 then 0 else DigitsValue(s[..|s| - 1]) * 10 + DigitValue(s[|s| - 1])
  }

  // ---------------------------------------------------------------------------
  // Number(v)
  // ---------------------------------------------------------------------------

  /** A JavaScript number read exactly: `Finite(m, e)` is m × 10^e. */
  datatype JsNumber = NaN | PosInfinity | NegInfinity | Finite(mantissa: int, exponent: int)

  function Pow10(n: nat): (r: nat)
    ensures r >= 1
  {
    if n == 0 then 1 else 10 * Pow10(n - 1)
  }

  /** `a < b` on two numbers: every comparison with NaN is false, and the
      infinities lie below and above every finite number. */
  predicate NumberLess(a: JsNumber, b: JsNumber) {
    match (a, b)
    case (NaN, _) => false
    case (_, NaN) => false
    case (NegInfinity, _) => !b.NegInfinity?
    case (_, PosInfinity) => !a.PosInfinity?
    case (PosInfinity, _) => false
    case (_, NegInfinity) => false
    case (Finite(m1, e1), Finite(m2, e2)) =>
      if e1 <= e2 then m1 < m2 * Pow10(e2 - e1) else m1 * Pow10(e1 - e2) < m2
  }

  /** Unary minus. */
  function Negate(x: JsNumber): JsNumber {
    match x
    case NaN => NaN
    case PosInfinity => NegInfinity
    case NegInfinity => PosInfinity
    case Finite(m, e) => Finite(-m, e)
  }

  /** The white space and line terminators `Number(s)` ignores around its
      text (StrWhiteSpaceChar, section 7.1.4.1 of ECMA-262): tab, vertical
      tab, form feed, the space separators, the byte order mark, and line
      feed, carriage return, line and paragraph separators. */
  predicate IsJsSpace(c: char) {
    var n := c as int;
    (0x09 <= n <= 0x0D) || n == 0x20 || n == 0xA0 || n == 0x1680 || (0x2000 <= n <= 0x200A)
    || n == 0x2028 || n == 0x2029 || n == 0x202F || n == 0x205F || n == 0x3000 || n == 0xFEFF
  }

  predicate AllSpace(s: string) {
    forall i | 0 <= i < |s| :: IsJsSpace(s[i])
  }

  /** `s` without its leading white space. */
  function TrimStart(s: string): (r: string)
    ensures |r| <= |s| && r == s[|s| - |r|..]
    ensures AllSpace(s[..|s| - |r|])
    ensures |r| > 0 ==> !IsJsSpace(r[0])
  {
    if |s| > 0 && IsJsSpace(s[0]) then TrimStart(s[1..]) else s
  }

  /** `s` without its trailing white space. */
  function TrimEnd(s: string): (r: string)
    ensures |r| <= |s| && r == s[..|r|]
    ensures AllSpace(s[|r|..])
    ensures |r| > 0 ==> !IsJsSpace(r[|r| - 1])
  {
    if |s| > 0 && IsJsSpace(s[|s| - 1]) then TrimEnd(s[..|s| - 1]) else s
  }

  function Trim(s: string): string {
    TrimEnd(TrimStart(s))
  }

  /** The value of a hexadecimal, decimal, octal or binary digit character. */
  function HexDigitValue(c: char): Option<nat> {
    if '0' <= c <= '9' then Some(c as int - '0' as int)
    else if 'a' <= c <= 'f' then Some(c as int - 'a' as int + 10)
    else if 'A' <= c <= 'F' then Some(c as int - 'A' as int + 10)
    else None
  }

  predicate IsDigitIn(c: char, radix: nat) {
    HexDigitValue(c).Some? && HexDigitValue(c).value < radix
  }

  predicate AllDigitsIn(s: string, radix: nat) {
    forall i | 0 <= i < |s| :: IsDigitIn(s[i], radix)
  }

  /** The number a string of base-`radix` digits denotes. */
  function ValueIn(s: string, radix: nat): nat
    requires AllDigitsIn(s, radix)
  {
    if |s| == 0 then 0 else ValueIn(s[..|s| - 1], radix) * radix + HexDigitValue(s[|s| - 1]).value
  }

  /** The base a `0x`, `0o` or `0b` prefix selects. */
  function RadixOf(c: char): Option<nat> {
    if c == 'x' || c == 'X' then Some(16)
    else if c == 'o' || c == 'O' then Some(8)
    else if c == 'b' || c == 'B' then Some(2)
    else None
  }

  /** The first position of `s` holding one of `cs`, or `|s|`. */
  function IndexOfAny(s: string, cs: set<char>): (k: nat)
    ensures k <= |s|
    ensures k < |s| ==> s[k] in cs
    ensures forall i | 0 <= i < k :: s[i] !in cs
  {
    if |s| == 0 then 0
    else if s[0] in cs then 0
    else 1 + IndexOfAny(s[1..], cs)
  }

  /** The digits of a decimal mantissa with an optional point, as the
      integer they spell and the number of digits after the point. At least
      one digit is needed: `"5"`, `"5."` and `".5"` are read, `"."` is not. */
  function DecimalMantissa(m: string): Option<(nat, nat)> {
    var d := IndexOfAny(m, {'.'});
    var whole := m[..d];
    var fraction := if d < |m| then m[d + 1..] else "";
    if AllDigitsIn(whole, 10) && AllDigitsIn(fraction, 10) && |whole| + |fraction| > 0 then
      assert AllDigitsIn(whole + fraction, 10);
      Some((ValueIn(whole + fraction, 10), |fraction|))
    else
      None
  }

  /** An exponent: an optional sign and at least one decimal digit. */
  function ExponentValue(x: string): Option<int> {
    if |x| > 0 && (x[0] == '+' || x[0] == '-') then
      if |x| > 1 && AllDigitsIn(x[1..], 10) then
        Some(if x[0] == '-' then -(ValueIn(x[1..], 10) as int) else ValueIn(x[1..], 10))
      else None
    else if |x| > 0 && AllDigitsIn(x, 10) then Some(ValueIn(x, 10))
    else None
  }

  /** An unsigned decimal literal (`Infinity`, or a mantissa with an
      optional `e`/`E` exponent); anything else is NaN. */
  function UnsignedDecimal(u: string): JsNumber {
    if u == "Infinity" then PosInfinity
    else
      var k := IndexOfAny(u, {'e', 'E'});
      var exponent := if k < |u| then ExponentValue(u[k + 1..]) else Some(0);
      match (DecimalMantissa(u[..k]), exponent)
      case (Some((digits, scale)), Some(x)) => Finite(digits, x - scale)
      case _ => NaN
  }

  /** `Number(s)` for a string (StringToNumber, section 7.1.4.1 of ECMA-262):
      surrounding white space is ignored, and the rest is read by
      `TrimmedToNumber`. */
  function StringToNumber(s: string): JsNumber {
    TrimmedToNumber(Trim(s))
  }

  /** Number text without surrounding white space: empty text is 0; `0x`,
      `0o` and `0b` introduce hexadecimal, octal and binary digits; otherwise
      the text is an optionally signed decimal literal or `Infinity`. Any
      other text is NaN. */
  function TrimmedToNumber(t: string): JsNumber {
    if t == "" then Finite(0, 0)
    else if |t| > 2 && t[0] == '0' && RadixOf(t[1]).Some? then
      if AllDigitsIn(t[2..], RadixOf(t[1]).value) then Finite(ValueIn(t[2..], RadixOf(t[1]).value), 0)
      else NaN
    else if t[0] == '-' then Negate(UnsignedDecimal(t[1..]))
    else if t[0] == '+' then UnsignedDecimal(t[1..])
    else UnsignedDecimal(t)
  }

  /** `Number(v)`. */
  function ToNumber(v: JsValue): JsNumber {
    match v
    case Undefined => NaN
    case Null => Finite(0, 0)
    case Bool(b) => Finite(if b then 1 else 0, 0)
    case Num(n) => Finite(n, 0)
    case Str(s) => StringToNumber(s)
  }

  /** `String(v)`. */
  function JsToString(v: JsValue): string {
    match v
    case Undefined => "undefined"
    case Null => "null"
    case Bool(b) => if b then "true" else "false"
    case Num(n) => IntToString(n)
    case Str(s) => s
  }

  lemma {:induction false} DigitsValueOfNatToString(n: nat)
    ensures DigitsValue(NatToString(n)) == n
    decreases n
  {
    if n >= 10 {
      var p := NatToString(n / 10);
      var s := NatToString(n);
      DigitsValueOfNatToString(n / 10);
      assert s[..|s| - 1] == p;
    }
  }

  lemma {:induction false} TrimStartSkipsSpace(pre: string, x: string)
    requires AllSpace(pre)
    ensures TrimStart(pre + x) == TrimStart(x)
    decreases |pre|
  {
    if |pre| > 0 {
      assert (pre + x)[1..] == pre[1..] + x;
      TrimStartSkipsSpace(pre[1..], x);
    } else {
      assert pre + x == x;
    }
  }

  lemma {:induction false} TrimEndSkipsSpace(x: string, post: string)
    requires AllSpace(post)
    ensures TrimEnd(x + post) == TrimEnd(x)
    decreases |post|
  {
    if |post| > 0 {
      var init := post[..|post| - 1];
      assert (x + post)[..|x + post| - 1] == x + init;
      TrimEndSkipsSpace(x, init);
    } else {
      assert x + post == x;
    }
  }

  lemma {:induction false} TrimBothSkipsTrailingSpace(x: string, post: string)
    requires AllSpace(post)
    ensures TrimEnd(TrimStart(x + post)) == TrimEnd(TrimStart(x))
    decreases |x|
  {
    if |x| == 0 {
      assert x + post == post;
      TrimStartSkipsSpace(post, "");
      assert post + "" == post;
    } else if IsJsSpace(x[0]) {
      assert (x + post)[1..] == x[1..] + post;
      TrimBothSkipsTrailingSpace(x[1..], post);
    } else {
      TrimEndSkipsSpace(x, post);
    }
  }

  /** White space around a number's text does not change what it reads as:
      `Number(" 5\n") === Number("5")`. */
  lemma SurroundingSpaceIgnored(pre: string, s: string, post: string)
    requires AllSpace(pre) && AllSpace(post)
    ensures StringToNumber(pre + s + post) == StringToNumber(s)
  {
    assert Trim(pre + s + post) == Trim(s) by {
      assert pre + s + post == pre + (s + post);
      TrimStartSkipsSpace(pre, s + post);
      TrimBothSkipsTrailingSpace(s, post);
    }
  }

  lemma {:induction false} DecimalValueIn(s: string)
    requires AllDigits(s)
    ensures AllDigitsIn(s, 10) && ValueIn(s, 10) == DigitsValue(s)
  {
    if |s| > 0 {
      DecimalValueIn(s[..|s| - 1]);
    }
  }

  /** Text that begins and ends with something other than white space is
      its own trimmed form. */
  lemma TrimUnpadded(s: string)
    requires |s| > 0 && !IsJsSpace(s[0]) && !IsJsSpace(s[|s| - 1])
    ensures Trim(s) == s
  {
  }

  /** A non-empty string of decimal digits reads as the integer it spells. */
  lemma UnsignedDecimalOfDigits(s: string)
    requires |s| > 0 && AllDigits(s)
    ensures UnsignedDecimal(s) == Finite(DigitsValue(s), 0)
  {
    assert s[0] != "Infinity"[0];
    var k := IndexOfAny(s, {'e', 'E'});
    assert k == |s|;
    assert s[..k] == s;
    DecimalMantissaOfDigits(s);
  }

  /** Digits without a point are a mantissa with nothing after the point. */
  lemma DecimalMantissaOfDigits(s: string)
    requires |s| > 0 && AllDigits(s)
    ensures DecimalMantissa(s) == Some((DigitsValue(s), 0))
  {
    var d := IndexOfAny(s, {'.'});
    assert d == |s|;
    assert s[..d] + "" == s;
    DecimalValueIn(s);
  }

  /** Unsigned digits are an exponent of their own value. */
  lemma ExponentValueOfDigits(x: string)
    requires |x| > 0 && AllDigits(x)
    ensures ExponentValue(x) == Some(DigitsValue(x) as int)
  {
    assert IsDigit(x[0]);
    DecimalValueIn(x);
  }

  /** A leading plus sign before decimal digits changes nothing: `Number("+5") === 5`. */
  lemma PlusSignIgnored(digits: string, text: string)
    requires |digits| > 0 && AllDigits(digits) && text == "+" + digits
    ensures StringToNumber(text) == Finite(DigitsValue(digits), 0)
  {
    assert text[1..] == digits;
    assert Trim(text) == text by {
      TrimUnpadded(text);
    }
    assert TrimmedToNumber(text) == UnsignedDecimal(digits);
    UnsignedDecimalOfDigits(digits);
  }

  /** `0x` followed by hexadecimal digits reads them in base 16:
      `Number("0x10") === 16`. */
  lemma HexTextValue(digits: string, text: string)
    requires |digits| > 0 && AllDigitsIn(digits, 16) && text == "0x" + digits
    ensures StringToNumber(text) == Finite(ValueIn(digits, 16), 0)
  {
    assert text[2..] == digits;
    assert text[0] == '0' && RadixOf(text[1]) == Some(16);
    assert TrimmedToNumber(text) == Finite(ValueIn(digits, 16), 0);
    assert Trim(text) == text by {
      assert IsDigitIn(text[|text| - 1], 16);
      TrimUnpadded(text);
    }
  }

  /** Decimal digits, `e` and decimal digits read as mantissa × 10^exponent:
      `Number("1e3") === 1000`. */
  lemma ExponentTextValue(mantissa: string, exponent: string, text: string)
    requires |mantissa| > 0 && AllDigits(mantissa) && |exponent| > 0 && AllDigits(exponent)
    requires text == mantissa + "e" + exponent
    ensures StringToNumber(text) == Finite(DigitsValue(mantissa), DigitsValue(exponent))
  {
    assert UnsignedDecimal(text) == Finite(DigitsValue(mantissa), DigitsValue(exponent)) by {
      UnsignedDecimalWithExponent(mantissa, exponent, text);
    }
    assert TrimmedToNumber(text) == UnsignedDecimal(text) by {
      assert IsDigit(text[0]);
      assert text[1] == 'e' || text[1] == mantissa[1];
    }
    assert Trim(text) == text by {
      TrimUnpadded(text);
    }
  }

  lemma UnsignedDecimalWithExponent(mantissa: string, exponent: string, text: string)
    requires |mantissa| > 0 && AllDigits(mantissa) && |exponent| > 0 && AllDigits(exponent)
    requires text == mantissa + "e" + exponent
    ensures UnsignedDecimal(text) == Finite(DigitsValue(mantissa), DigitsValue(exponent))
  {
    var k := IndexOfAny(text, {'e', 'E'});
    assert k == |mantissa| by {
      assert text[|mantissa|] == 'e';
      assert forall i | 0 <= i < |mantissa| :: text[i] == mantissa[i];
    }
    assert text[..k] == mantissa && text[k + 1..] == exponent;
    assert text != "Infinity" by {
      assert IsDigit(text[0]);
    }
    DecimalMantissaOfDigits(mantissa);
    ExponentValueOfDigits(exponent);
  }

  /** The decimal text of a natural number reads as that number. */
  lemma StringToNumberOfNat(m: nat, text: string)
    requires text == NatToString(m)
    ensures StringToNumber(text) == Finite(m, 0)
  {
    TrimUnpadded(text);
    UnsignedDecimalOfDigits(text);
    DigitsValueOfNatToString(m);
  }

  /** A minus sign before it negates it. */
  lemma StringToNumberOfNegative(m: nat, text: string)
    requires text == "-" + NatToString(m)
    ensures StringToNumber(text) == Finite(-(m as int), 0)
  {
    var digits := NatToString(m);
    TrimUnpadded(text);
    assert TrimmedToNumber(text) == Negate(UnsignedDecimal(text[1..]));
    assert text[1..] == digits;
    UnsignedDecimalOfDigits(digits);
    DigitsValueOfNatToString(m);
  }

  /** `String(n)` reads back as `n`. */
  lemma StringToNumberOfInt(n: int)
    ensures StringToNumber(IntToString(n)) == Finite(n, 0)
  {
    if n < 0 {
      StringToNumberOfNegative(-n, IntToString(n));
    } else {
      StringToNumberOfNat(n, IntToString(n));
    }
  }

  /** Reading back the text of a number gives the number:
      `Number(String(n)) === Number(n)`. */
  lemma NumberStringRoundTrip(n: int)
    ensures ToNumber(Str(JsToString(Num(n)))) == ToNumber(Num(n))
  {
    StringToNumberOfInt(n);
  }

  // ---------------------------------------------------------------------------
  // Text helpers
  // ---------------------------------------------------------------------------

  /** Template-literal interpolation of an optional string: absent renders as "undefined". */
  function Interp(o: Option<string>): string {
    if o.Some? then o.value else "undefined"
  }

  /** `${slug || index}`: the slug when truthy, else the position in decimal. */
  function SlugOrIndex(slug: Option<string>, index: nat): string {
    if StringTruthy(slug) then slug.value else NatToString(index)
  }

  /** `Array.prototype.join(sep)`: absent elements render as the empty string. */
  function Join(items: seq<Option<string>>, sep: string): string {
    if |items| == 0 then ""
    else if |items| == 1 then items[0].GetOr("")
    else Join(items[..|items| - 1], sep) + sep + items[|items| - 1].GetOr("")
  }

  function LowerChar(c: char): char {
    if 'A' <= c <= 'Z' then (c as int + 32) as char else c
  }

  function UpperChar(c: char): char {
    if 'a' <= c <= 'z' then (c as int - 32) as char else c
  }

  /** `s.toLowerCase()` on ASCII letters. */
  function ToLower(s: string): (r: string)
    ensures |r| == |s|
    ensures forall i | 0 <= i < |s| :: r[i] == LowerChar(s[i])
  {
    seq(|s|, i requires 0 <= i < |s| => LowerChar(s[i]))
  }

  /** `s.toUpperCase()` on ASCII letters. */
  function ToUpper(s: string): (r: string)
    ensures |r| == |s|
    ensures forall i | 0 <= i < |s| :: r[i] == UpperChar(s[i])
  {
    seq(|s|, i requires 0 <= i < |s| => UpperChar(s[i]))
  }

  /** Lower-casing first does not change what upper-casing yields, so
      dispatching on `type.toLowerCase().toUpperCase()` is case-insensitive. */
  lemma UpperOfLower(s: string)
    ensures ToUpper(ToLower(s)) == ToUpper(s)
  {
    assert forall i | 0 <= i < |s| :: UpperChar(LowerChar(s[i])) == UpperChar(s[i]);
  }

  /** Upper-casing is idempotent. */
  lemma UpperIdempotent(s: string)
    ensures ToUpper(ToUpper(s)) == ToUpper(s)
  {
    assert forall i | 0 <= i < |s| :: UpperChar(UpperChar(s[i])) == UpperChar(s[i]);
  }
}

=== FILE: loader.dfy ===
/** The quiz loader (utils/intake-form/quizLoader.ts): JSON quizzes first,
    hand-written quiz configurations as a fallback, and a module-level cache
    of the JSON load that only `clearQuizCache` resets.

    The module-level variables become an explicit `LoaderState` passed in and
    returned. The list of hand-written configurations is a parameter, and so
    is the outcome of `loadQuizzesFromJson` for the build-time quiz document
    (`QuizTransform.LoadQuizzesFromJson`): `jsonLoad` is `Some(list)` when the
    call returns and `None` when it throws, the case `loadAllQuizzes` catches.
    That function catches everything itself and its document is fixed at
    build time, so in the program every call returns the same list;
    `getQuizById`, which calls it outside any `try`, takes that list. */
module QuizLoader {
  import opened Wrappers
  import opened Sequences
  import opened Duplicates
  import opened RawQuiz
  import opened Canonical
  import opened QuizTransform
  import opened JsMaps

  function QuizId(q: QuizConfig): Option<string> { q.id }

  function Ids(qs: seq<QuizConfig>): seq<Option<string>> { MapSeq(QuizId, qs) }

  /** `[q.id, q]`, the entry the loader's maps are built from. */
  function Keyed(q: QuizConfig): Entry<Option<string>, QuizConfig> { Entry(q.id, q) }

  /** A map built from `Keyed` entries files every quiz under its own id. */
  predicate KeyedById(m: seq<Entry<Option<string>, QuizConfig>>) {
    forall e | e in m :: e.key == e.value.id
  }

  /** Every entry of `new Map(entries)` is one of the entries. */
  lemma {:induction false} FromEntriesDrawsOnEntries<K, V>(es: seq<Entry<K, V>>)
    ensures forall e | e in FromEntries(es) :: e in es
  {
    if |es| > 0 {
      var init := es[..|es| - 1];
      FromEntriesDrawsOnEntries(init);
      var m := FromEntries(init);
      var last := es[|es| - 1];
      assert forall e | e in init :: e in es;
      match IndexOf(m, last.key)
      case None =>
      case Some(i) =>
        forall e | e in m[i := Entry(last.key, last.value)] ensures e in es {
          var j :| 0 <= j < |m| && m[i := Entry(last.key, last.value)][j] == e;
          if j != i {
            assert m[j] == e;
          }
        }
    }
  }

  lemma KeyedMapById(qs: seq<QuizConfig>)
    ensures KeyedById(FromEntries(MapSeq(Keyed, qs)))
    ensures Keys(MapSeq(Keyed, qs)) == Ids(qs)
  {
    FromEntriesDrawsOnEntries(MapSeq(Keyed, qs));
  }

  /** The hand-written quizzes `loadAllQuizzes` adds after the JSON ones. */
  function Appended(json: seq<QuizConfig>, hardcoded: seq<QuizConfig>): seq<QuizConfig> {
    var jsonMap := FromEntries(MapSeq(Keyed, json));
    var hardMap := FromEntries(MapSeq(Keyed, hardcoded));
    MapSeq(Value, EntriesWithout(hardMap, Keys(jsonMap)))
  }

  /** In a map filed by id, the values' ids are the keys. */
  lemma {:induction false} ValueIdsAreKeys(m: seq<Entry<Option<string>, QuizConfig>>)
    requires KeyedById(m)
    ensures Ids(MapSeq(Value, m)) == Keys(m)
  {
    if |m| > 0 {
      assert m[0] in m;
      assert forall e | e in m[1..] :: e in m;
      ValueIdsAreKeys(m[1..]);
    }
  }

  /** The keys of the map built from a quiz list are its ids without
      repeats, in first-occurrence order. */
  lemma KeyedMapKeys(qs: seq<QuizConfig>)
    ensures Keys(FromEntries(MapSeq(Keyed, qs))) == FirstOccurrences(Ids(qs))
    ensures forall k :: k in Keys(FromEntries(MapSeq(Keyed, qs))) <==> k in Ids(qs)
  {
    FromEntriesKeys(MapSeq(Keyed, qs));
    KeyedMapById(qs);
  }

  /** The appended ids are the hand-written ids missing from JSON, each
      once, in the order they first appear. */
  lemma AppendedIds(json: seq<QuizConfig>, hardcoded: seq<QuizConfig>)
    ensures Ids(Appended(json, hardcoded)) == Without(FirstOccurrences(Ids(hardcoded)), Ids(json))
  {
    var jsonMap := FromEntries(MapSeq(Keyed, json));
    var hardMap := FromEntries(MapSeq(Keyed, hardcoded));
    var kept := EntriesWithout(hardMap, Keys(jsonMap));
    KeyedMapById(hardcoded);
    assert KeyedById(kept);
    KeyedMapKeys(json);
    KeyedMapKeys(hardcoded);
    calc {
      Ids(Appended(json, hardcoded));
      Ids(MapSeq(Value, kept));
      { ValueIdsAreKeys(kept); }
      Keys(kept);
      { EntriesWithoutKeys(hardMap, Keys(jsonMap)); }
      Without(Keys(hardMap), Keys(jsonMap));
      { WithoutSameMembers(Keys(hardMap), Keys(jsonMap), Ids(json)); }
      Without(FirstOccurrences(Ids(hardcoded)), Ids(json));
    }
  }

  /** Every value of the map built from a quiz list is one of its quizzes. */
  lemma KeyedMapValues(qs: seq<QuizConfig>)
    ensures forall e | e in FromEntries(MapSeq(Keyed, qs)) :: e.value in qs
  {
    var es := MapSeq(Keyed, qs);
    FromEntriesDrawsOnEntries(es);
    forall e | e in FromEntries(es) ensures e.value in qs {
      var i :| 0 <= i < |es| && es[i] == e;
      assert qs[i] == e.value;
    }
  }

  /** Every appended quiz is hand-written and has an id JSON lacks. */
  lemma AppendedFromHardcoded(json: seq<QuizConfig>, hardcoded: seq<QuizConfig>)
    ensures forall q | q in Appended(json, hardcoded) :: q in hardcoded && q.id !in Ids(json)
  {
    var jsonMap := FromEntries(MapSeq(Keyed, json));
    var hardMap := FromEntries(MapSeq(Keyed, hardcoded));
    var kept := EntriesWithout(hardMap, Keys(jsonMap));
    var added := MapSeq(Value, kept);
    KeyedMapKeys(json);
    KeyedMapById(hardcoded);
    KeyedMapValues(hardcoded);
    forall q | q in added ensures q in hardcoded && q.id !in Ids(json) {
      var k :| 0 <= k < |added| && added[k] == q;
      assert kept[k] in kept;
    }
  }

  /** Every hand-written id JSON lacks is among the appended ids. */
  lemma AppendedCoversMissing(json: seq<QuizConfig>, hardcoded: seq<QuizConfig>)
    ensures forall q | q in hardcoded && q.id !in Ids(json) :: q.id in Ids(Appended(json, hardcoded))
  {
    AppendedIds(json, hardcoded);
    forall q | q in hardcoded && q.id !in Ids(json)
      ensures q.id in Without(FirstOccurrences(Ids(hardcoded)), Ids(json))
    {
      MapSeqMember(QuizId, hardcoded, q);
      WithoutFirstOccurrencesCovers(Ids(hardcoded), Ids(json), q.id);
    }
  }

  /** `q` is the last quiz of `qs` that has its id. */
  predicate IsLastWithItsId(qs: seq<QuizConfig>, q: QuizConfig) {
    exists i | 0 <= i < |qs| :: qs[i] == q && forall j | i < j < |qs| :: qs[j].id != q.id
  }

  /** The position of the last quiz of `qs` with the id `k`. */
  function LastIndexOfId(qs: seq<QuizConfig>, k: Option<string>): (i: nat)
    requires k in Ids(qs)
    ensures i < |qs| && qs[i].id == k
    ensures forall j | i < j < |qs| :: qs[j].id != k
  {
    if qs[|qs| - 1].id == k then |qs| - 1
    else
      assert Ids(qs) == Ids(qs[..|qs| - 1]) + [qs[|qs| - 1].id];
      LastIndexOfId(qs[..|qs| - 1], k)
  }

  /** Every appended quiz is the LAST hand-written quiz with its id: the
      `Map` built from the hand-written list keeps the last value of a
      repeated key. */
  lemma AppendedAreLast(json: seq<QuizConfig>, hardcoded: seq<QuizConfig>)
    ensures forall q | q in Appended(json, hardcoded) :: IsLastWithItsId(hardcoded, q)
  {
    var es := MapSeq(Keyed, hardcoded);
    var jsonMap := FromEntries(MapSeq(Keyed, json));
    var hardMap := FromEntries(es);
    var kept := EntriesWithout(hardMap, Keys(jsonMap));
    var added := MapSeq(Value, kept);
    KeyedMapById(hardcoded);
    KeyedMapKeys(hardcoded);
    FirstOccurrencesProperties(Ids(hardcoded));
    forall q | q in added ensures IsLastWithItsId(hardcoded, q) {
      var k :| 0 <= k < |added| && added[k] == q;
      var e := kept[k];
      assert e in kept;
      assert e in hardMap && e.value == q && e.key == q.id;
      MapSeqMember(Key, hardMap, e);
      var i := LastIndexOfId(hardcoded, e.key);
      assert es[i].key == e.key;
      FromEntriesLastWins(es, i);
      GetOfMember(hardMap, e);
      assert hardcoded[i] == q;
    }
  }

  /** The merge of `loadAllQuizzes`: the JSON quizzes, then, for every id of
      the hand-written list that no JSON quiz has, in the order the id first
      appears, the LAST hand-written quiz with that id (a JavaScript `Map`
      keeps the first position and the last value of a repeated key). */
  function MergeQuizzes(json: seq<QuizConfig>, hardcoded: seq<QuizConfig>): (r: seq<QuizConfig>)
    ensures |json| <= |r| && r[..|json|] == json
    ensures forall q | q in r[|json|..] :: q in hardcoded && q.id !in Ids(json)
    ensures Ids(r[|json|..]) == Without(FirstOccurrences(Ids(hardcoded)), Ids(json))
    ensures NoRepeats(Ids(r[|json|..]))
    ensures forall q | q in hardcoded :: q.id in Ids(r)
    ensures forall q | q in r[|json|..] :: IsLastWithItsId(hardcoded, q)
  {
    var added := Appended(json, hardcoded);
    AppendedAreLast(json, hardcoded);
    var r := json + added;
    assert r[..|json|] == json && r[|json|..] == added;
    AppendedIds(json, hardcoded);
    AppendedFromHardcoded(json, hardcoded);
    AppendedCoversMissing(json, hardcoded);
    FirstOccurrencesProperties(Ids(hardcoded));
    IdsAppend(json, added);
    r
  }

  lemma IdsAppend(a: seq<QuizConfig>, b: seq<QuizConfig>)
    ensures Ids(a + b) == Ids(a) + Ids(b)
  {
  }

  /** `getQuizById`: the JSON quiz with that id, reloaded on every call and
      not taken from the cache; otherwise the FIRST hand-written quiz with
      it. */
  function GetQuizById(jsonQuizzes: seq<QuizConfig>, hardcoded: seq<QuizConfig>, id: string): (r: Option<QuizConfig>)
    ensures r.Some? <==> Some(id) in Ids(jsonQuizzes) || Some(id) in Ids(hardcoded)
    ensures Some(id) in Ids(jsonQuizzes) ==> r == FindQuiz(jsonQuizzes, id)
    ensures Some(id) !in Ids(jsonQuizzes) ==> r == FindQuiz(hardcoded, id)
  {
    IdsMembership(jsonQuizzes, id);
    IdsMembership(hardcoded, id);
    match FindQuiz(jsonQuizzes, id)
    case Some(q) => Some(q)
    case None => FindQuiz(hardcoded, id)
  }

  lemma IdsMembership(qs: seq<QuizConfig>, id: string)
    ensures Some(id) in Ids(qs) <==> exists q | q in qs :: q.id == Some(id)
  {
    if q :| q in qs && q.id == Some(id) {
      var i :| 0 <= i < |qs| && qs[i] == q;
      assert Ids(qs)[i] == Some(id);
    }
  }

  /** `find` over a concatenation looks in the second part only when the
      first has no match. */
  lemma {:induction false} FindQuizAppend(a: seq<QuizConfig>, b: seq<QuizConfig>, id: string)
    ensures FindQuiz(a + b, id) == if FindQuiz(a, id).Some? then FindQuiz(a, id) else FindQuiz(b, id)
  {
    if |a| == 0 {
      assert a + b == b;
    } else if a[0].id == Some(id) {
      assert (a + b)[0] == a[0];
    } else {
      assert (a + b)[0] == a[0] && (a + b)[1..] == a[1..] + b;
      assert FindQuiz(a + b, id) == FindQuiz(a[1..] + b, id);
      assert FindQuiz(a, id) == FindQuiz(a[1..], id);
      FindQuizAppend(a[1..], b, id);
    }
  }

  /** In a list where ids do not repeat, an id names one quiz. */
  lemma SameIdSameQuiz(qs: seq<QuizConfig>, p: QuizConfig, q: QuizConfig)
    requires NoRepeats(Ids(qs))
    requires p in qs && q in qs && p.id == q.id
    ensures p == q
  {
    var i :| 0 <= i < |qs| && qs[i] == p;
    var j :| 0 <= j < |qs| && qs[j] == q;
    assert Ids(qs)[i] == Ids(qs)[j];
  }

  /** In a list where ids do not repeat, `find` returns the one quiz that
      carries the id. */
  lemma FindQuizUnique(qs: seq<QuizConfig>, id: string, q: QuizConfig)
    requires NoRepeats(Ids(qs))
    requires q in qs && q.id == Some(id)
    ensures FindQuiz(qs, id) == Some(q)
  {
    SameIdSameQuiz(qs, FindQuiz(qs, id).value, q);
  }

  /** The quizzes appended for ids JSON lacks agree with `find` over the
      hand-written list when its ids do not repeat. */
  lemma AppendedLookup(json: seq<QuizConfig>, hardcoded: seq<QuizConfig>, id: string)
    requires NoRepeats(Ids(hardcoded))
    requires Some(id) !in Ids(json)
    ensures FindQuiz(Appended(json, hardcoded), id) == FindQuiz(hardcoded, id)
  {
    var added := Appended(json, hardcoded);
    AppendedFromHardcoded(json, hardcoded);
    match FindQuiz(hardcoded, id)
    case None =>
    case Some(q) =>
      AppendedCoversMissing(json, hardcoded);
      IdsMembership(added, id);
      var p :| p in added && p.id == Some(id);
      SameIdSameQuiz(hardcoded, p, q);
      AppendedIds(json, hardcoded);
      FirstOccurrencesProperties(Ids(hardcoded));
      FindQuizUnique(added, id, q);
  }

  /** Looking an id up in the merged list agrees with `getQuizById` when the
      hand-written configurations have distinct ids. */
  lemma MergedLookupAgreesWithGetQuizById(jsonQuizzes: seq<QuizConfig>, hardcoded: seq<QuizConfig>, id: string)
    requires NoRepeats(Ids(hardcoded))
    ensures FindQuiz(MergeQuizzes(jsonQuizzes, hardcoded), id) == GetQuizById(jsonQuizzes, hardcoded, id)
  {
    FindQuizAppend(jsonQuizzes, Appended(jsonQuizzes, hardcoded), id);
    IdsMembership(jsonQuizzes, id);
    if Some(id) !in Ids(jsonQuizzes) {
      AppendedLookup(jsonQuizzes, hardcoded, id);
    }
  }

  /** Two entries with the same key make a one-entry map holding the second
      value. */
  lemma RepeatedKeyMap(first: QuizConfig, second: QuizConfig)
    requires first.id == second.id
    ensures FromEntries(MapSeq(Keyed, [first, second])) == [Entry(second.id, second)]
  {
    var es := MapSeq(Keyed, [first, second]);
    assert es[..1] == [Entry(first.id, first)];
    assert FromEntries(es[..1]) == [Entry(first.id, first)];
    assert IndexOf(FromEntries(es[..1]), second.id) == Some(0);
  }

  /** With no JSON quizzes, the merge is the map's values. */
  lemma MergeWithoutJson(hardcoded: seq<QuizConfig>, m: seq<Entry<Option<string>, QuizConfig>>)
    requires FromEntries(MapSeq(Keyed, hardcoded)) == m
    ensures MergeQuizzes([], hardcoded) == MapSeq(Value, m)
  {
    assert FromEntries(MapSeq(Keyed, [])) == [];
    EntriesWithoutNothing(m);
  }

  lemma {:induction false} EntriesWithoutNothing<K, V>(m: seq<Entry<K, V>>)
    ensures EntriesWithout(m, []) == m
  {
    if |m| > 0 {
      EntriesWithoutNothing(m[1..]);
    }
  }

  /** Hand-written quizzes sharing an id: the merged list keeps the later one
      while `getQuizById` returns the earlier one. */
  lemma RepeatedHardcodedIdsDisagree()
    ensures var first := QuizConfig(Some("quiz"), Some("first"), None, None, [], [], [], None);
      var second := QuizConfig(Some("quiz"), Some("second"), None, None, [], [], [], None);
      && MergeQuizzes([], [first, second]) == [second]
      && GetQuizById([], [first, second], "quiz") == Some(first)
  {
    var first := QuizConfig(Some("quiz"), Some("first"), None, None, [], [], [], None);
    var second := QuizConfig(Some("quiz"), Some("second"), None, None, [], [], [], None);
    RepeatedIdsMergeKeepsLast(first, second);
    RepeatedIdsLookupFindsFirst(first, second, "quiz");
  }

  lemma RepeatedIdsMergeKeepsLast(first: QuizConfig, second: QuizConfig)
    requires first.id == second.id
    ensures MergeQuizzes([], [first, second]) == [second]
  {
    RepeatedKeyMap(first, second);
    MergeWithoutJson([first, second], [Entry(second.id, second)]);
    assert MapSeq(Value, [Entry(second.id, second)]) == [second];
  }

  lemma RepeatedIdsLookupFindsFirst(first: QuizConfig, second: QuizConfig, id: string)
    requires first.id == Some(id)
    ensures GetQuizById([], [first, second], id) == Some(first)
  {
    assert FindQuiz([], id).None?;
    assert FindQuiz([first, second], id) == Some(first);
  }

  // ---------------------------------------------------------------------------
  // The cache
  // ---------------------------------------------------------------------------

  /** `jsonQuizzesLoadAttempted` and `jsonQuizzesCache`. */
  datatype LoaderState = LoaderState(loadAttempted: bool, cache: Option<seq<QuizConfig>>)

  const InitialState := LoaderState(false, None)

  /** The state after a call, its result, and whether the JSON loader ran. */
  datatype Outcome<T> = Outcome(state: LoaderState, result: T, loaderRan: bool)

  /** What the cache holds after an attempted load: the loader's list, or an
      empty list when the loader threw. */
  function LoadedOrEmpty(jsonLoad: Option<seq<QuizConfig>>): seq<QuizConfig> {
    jsonLoad.GetOr([])
  }

  /** `loadAllQuizzes`: the JSON loader runs only on the first call after
      start-up or a `clearQuizCache`; later calls reuse the cached list. */
  function LoadAllQuizzes(st: LoaderState, jsonLoad: Option<seq<QuizConfig>>, hardcoded: seq<QuizConfig>)
    : (r: Outcome<seq<QuizConfig>>)
    ensures r.loaderRan <==> !st.loadAttempted
    ensures r.state.loadAttempted
    ensures r.loaderRan && jsonLoad.Some? ==> r.state.cache == jsonLoad
    ensures r.loaderRan && jsonLoad.None? ==> r.state.cache == Some([])
    ensures !r.loaderRan ==> r.state == st
    ensures |r.state.cache.GetOr([])| <= |r.result|
    ensures r.result[..|r.state.cache.GetOr([])|] == r.state.cache.GetOr([])
    ensures forall q | q in hardcoded :: q.id in Ids(r.result)
  {
    var ran := !st.loadAttempted;
    var state := if ran then LoaderState(true, Some(LoadedOrEmpty(jsonLoad))) else st;
    Outcome(state, MergeQuizzes(state.cache.GetOr([]), hardcoded), ran)
  }

  /** `clearQuizCache`. */
  function ClearQuizCache(st: LoaderState): (r: LoaderState)
    ensures !r.loadAttempted && r.cache.None?
  {
    InitialState
  }

  /** After `clearQuizCache` the next load runs the JSON loader again. */
  lemma ClearThenLoadRunsLoader(st: LoaderState, jsonLoad: Option<seq<QuizConfig>>, hardcoded: seq<QuizConfig>)
    ensures LoadAllQuizzes(ClearQuizCache(st), jsonLoad, hardcoded).loaderRan
    ensures LoadAllQuizzes(ClearQuizCache(st), jsonLoad, hardcoded).state.cache == Some(LoadedOrEmpty(jsonLoad))
  {
  }

  /** `getAvailableQuizIds`: the ids of `loadAllQuizzes`, in its order. */
  function GetAvailableQuizIds(st: LoaderState, jsonLoad: Option<seq<QuizConfig>>, hardcoded: seq<QuizConfig>)
    : (r: Outcome<seq<Option<string>>>)
    ensures r.loaderRan <==> !st.loadAttempted
    ensures forall q | q in hardcoded :: q.id in r.result
    ensures r.state == LoadAllQuizzes(st, jsonLoad, hardcoded).state
    ensures |r.result| == |LoadAllQuizzes(st, jsonLoad, hardcoded).result|
    ensures forall i | 0 <= i < |r.result| :: r.result[i] == LoadAllQuizzes(st, jsonLoad, hardcoded).result[i].id
  {
    var o := LoadAllQuizzes(st, jsonLoad, hardcoded);
    Outcome(o.state, Ids(o.result), o.loaderRan)
  }

  /** The cache agrees with the JSON loader: untouched before the first
      load, and the loader's list (empty if it threw) after it. */
  predicate CacheMatches(st: LoaderState, jsonLoad: Option<seq<QuizConfig>>) {
    if st.loadAttempted then st.cache == Some(LoadedOrEmpty(jsonLoad)) else st.cache.None?
  }

  datatype LoaderCall = LoadAll | AvailableIds | Clear

  function CountClears(calls: seq<LoaderCall>): nat {
    if |calls| == 0 then 0 else (if calls[0] == Clear then 1 else 0) + CountClears(calls[1..])
  }

  /** A sequence of calls from state `st`: the final state and how many
      times the JSON loader ran. */
  function Run(st: LoaderState, calls: seq<LoaderCall>, jsonLoad: Option<seq<QuizConfig>>, hardcoded: seq<QuizConfig>)
    : (r: (LoaderState, nat))
    decreases |calls|
  {
    if |calls| == 0 then (st, 0)
    else
      var (next, ran) := match calls[0]
        case LoadAll =>
          var o := LoadAllQuizzes(st, jsonLoad, hardcoded); (o.state, o.loaderRan)
        case AvailableIds =>
          var o := GetAvailableQuizIds(st, jsonLoad, hardcoded); (o.state, o.loaderRan)
        case Clear => (ClearQuizCache(st), false);
      var rest := Run(next, calls[1..], jsonLoad, hardcoded);
      (rest.0, rest.1 + if ran then 1 else 0)
  }

  /** The JSON loader runs at most once, plus once after each clear, and not
      at all before a clear once it has been attempted; the cache keeps
      agreeing with the loader throughout. */
  lemma {:induction false} LoaderRunsOncePerClear(st: LoaderState, calls: seq<LoaderCall>,
                                                  jsonLoad: Option<seq<QuizConfig>>, hardcoded: seq<QuizConfig>)
    requires CacheMatches(st, jsonLoad)
    ensures Run(st, calls, jsonLoad, hardcoded).1 <= (if st.loadAttempted then 0 else 1) + CountClears(calls)
    ensures CacheMatches(Run(st, calls, jsonLoad, hardcoded).0, jsonLoad)
    decreases |calls|
  {
    if |calls| > 0 {
      var next := match calls[0]
        case LoadAll => LoadAllQuizzes(st, jsonLoad, hardcoded).state
        case AvailableIds => GetAvailableQuizIds(st, jsonLoad, hardcoded).state
        case Clear => ClearQuizCache(st);
      LoaderRunsOncePerClear(next, calls[1..], jsonLoad, hardcoded);
    }
  }

  /** With the cache in step with the loader, every `loadAllQuizzes` call
      returns the same merged list, whether or not the loader ran. */
  lemma CachedLoadIsStable(st: LoaderState, jsonLoad: Option<seq<QuizConfig>>, hardcoded: seq<QuizConfig>)
    requires CacheMatches(st, jsonLoad)
    ensures LoadAllQuizzes(st, jsonLoad, hardcoded).result == MergeQuizzes(LoadedOrEmpty(jsonLoad), hardcoded)
    ensures var next := LoadAllQuizzes(st, jsonLoad, hardcoded).state;
      !LoadAllQuizzes(next, jsonLoad, hardcoded).loaderRan
      && LoadAllQuizzes(next, jsonLoad, hardcoded).result == LoadAllQuizzes(st, jsonLoad, hardcoded).result
  {
  }
}

=== FILE: pipeline.dfy ===
/** How the validator and the transformer fit together: what a quiz that
    passes `validateQuizJson` is guaranteed to look like once
    `transformQuizJsonToQuizConfig` has turned it into a configuration
    (utils/intake-form/validateQuizJson.ts, utils/intake-form/transformQuizJson.ts). */
module QuizPipeline {
  import opened Wrappers
  import opened Sequences
  import opened Duplicates
  import opened JsValues
  import opened RawQuiz
  import opened Canonical
  import opened QuizTransform
  import opened Formats
  import opened QuizValidate

  /** A progress-step slug the validator accepts a reference to is the id of
      one of the transformed progress steps. */
  lemma ReferencedSlugIsProgressId(steps: seq<ProgressStepJson>, pid: Option<string>)
    requires pid in MapSeq(ProgressSlug, steps)
    ensures pid in ProgressIdSet(TransformProgressSteps(steps))
  {
    var ps := TransformProgressSteps(steps);
    assert pid in multiset(MapSeq(ProgressId, ps));
    var j :| 0 <= j < |ps| && MapSeq(ProgressId, ps)[j] == pid;
    assert ps[j] in ps;
  }

  /** Reordering keeps form-step slugs distinct, and each reordered step is
      one of the validated steps. */
  lemma ReorderedStepsStayValid(forms: seq<FormStepJson>, sorted: seq<FormStepJson>, slugs: seq<Option<string>>)
    requires FormStepsValid(forms, slugs)
    requires multiset(sorted) == multiset(forms)
    ensures forall a, b | 0 <= a < b < |sorted| :: sorted[a].slug != sorted[b].slug
    ensures forall i | 0 <= i < |sorted| :: FormStepRulesHold(sorted[i], slugs)
  {
    MapSeqPermutation(FormSlug, forms, sorted);
    NoRepeatsPermutation(MapSeq(FormSlug, forms), MapSeq(FormSlug, sorted));
    forall a, b | 0 <= a < b < |sorted| ensures sorted[a].slug != sorted[b].slug {
      assert MapSeq(FormSlug, sorted)[a] != MapSeq(FormSlug, sorted)[b];
    }
    forall i | 0 <= i < |sorted| ensures FormStepRulesHold(sorted[i], slugs) {
      assert sorted[i] in multiset(forms);
      var k :| 0 <= k < |forms| && forms[k] == sorted[i];
    }
  }

  /** On valid form steps every sorted step gets its own mapping entry,
      naming the step's own `progressStepId`. */
  lemma ValidStepsAllMapped(forms: seq<FormStepJson>, progress: seq<ProgressStepJson>)
    requires FormStepsValid(forms, MapSeq(ProgressSlug, progress))
    ensures var sorted := SortBy(forms, FormStepSortKey);
      var ids := ProgressIdSet(TransformProgressSteps(progress));
      forall i | 0 <= i < |sorted| ::
        && StringTruthy(sorted[i].progressStepId)
        && MappingEntry(sorted, sorted[i], ids)
           == Some(StepProgressMapping(sorted[i].slug, sorted[i].progressStepId.value))
  {
    var sorted := SortBy(forms, FormStepSortKey);
    var ids := ProgressIdSet(TransformProgressSteps(progress));
    ReorderedStepsStayValid(forms, sorted, MapSeq(ProgressSlug, progress));
    forall i | 0 <= i < |sorted|
      ensures && StringTruthy(sorted[i].progressStepId)
              && MappingEntry(sorted, sorted[i], ids)
                 == Some(StepProgressMapping(sorted[i].slug, sorted[i].progressStepId.value))
    {
      ReferencedSlugIsProgressId(progress, sorted[i].progressStepId);
      MappingEntryDistinctSlugs(sorted, i, ids);
    }
  }

  /** Sorting does not change whether the form steps transform. */
  lemma SortedStepsTransform(forms: seq<FormStepJson>)
    requires forall s | s in forms :: FormStepTransforms(s)
    ensures TransformFormSteps(SortBy(forms, FormStepSortKey)).Some?
  {
    var sorted := SortBy(forms, FormStepSortKey);
    assert forall s | s in sorted :: s in multiset(forms);
  }

  /** When every step of `sorted` has its own entry, the mapping lines up
      with the transformed steps. */
  lemma MappingPairsSteps(sorted: seq<FormStepJson>, ids: set<Option<string>>)
    requires TransformFormSteps(sorted).Some?
    requires forall i | 0 <= i < |sorted| ::
      && StringTruthy(sorted[i].progressStepId)
      && MappingEntry(sorted, sorted[i], ids)
         == Some(StepProgressMapping(sorted[i].slug, sorted[i].progressStepId.value))
    ensures var mapping := BuildMapping(sorted, sorted, ids);
      var steps := TransformFormSteps(sorted).value;
      && |mapping| == |steps|
      && forall i | 0 <= i < |steps| ::
           mapping[i].stepId == steps[i].id && Some(mapping[i].progressStepId) == sorted[i].progressStepId
  {
    BuildMappingComplete(sorted, sorted, ids);
    var mapping := BuildMapping(sorted, sorted, ids);
    var steps := TransformFormSteps(sorted).value;
    forall i | 0 <= i < |steps|
      ensures mapping[i].stepId == steps[i].id && Some(mapping[i].progressStepId) == sorted[i].progressStepId
    {
      assert Some(mapping[i]) == MappingEntry(sorted, sorted[i], ids);
      assert Some(steps[i]) == TransformFormStep(sorted[i]);
    }
  }

  /** The mapping built over valid, transformable form steps pairs each
      transformed step with its own progress step. */
  lemma ValidStepsMapping(forms: seq<FormStepJson>, progress: seq<ProgressStepJson>)
    requires FormStepsValid(forms, MapSeq(ProgressSlug, progress))
    requires forall s | s in forms :: FormStepTransforms(s)
    ensures var sorted := SortBy(forms, FormStepSortKey);
      var mapping := BuildMapping(sorted, sorted, ProgressIdSet(TransformProgressSteps(progress)));
      && TransformFormSteps(sorted).Some?
      && |mapping| == |TransformFormSteps(sorted).value|
      && forall i | 0 <= i < |mapping| ::
           mapping[i].stepId == TransformFormSteps(sorted).value[i].id
           && Some(mapping[i].progressStepId) == sorted[i].progressStepId
  {
    SortedStepsTransform(forms);
    ValidStepsAllMapped(forms, progress);
    MappingPairsSteps(SortBy(forms, FormStepSortKey), ProgressIdSet(TransformProgressSteps(progress)));
  }

  /** A quiz that passes validation and transforms maps every form step to
      its progress step: the mapping has one entry per step, in step order,
      and each entry names the step's own `progressStepId`. */
  lemma ValidQuizMapsEveryStep(quiz: QuizJsonQuiz)
    requires !ValidatorThrows(quiz) && QuizRulesHold(quiz)
    requires TransformQuiz(quiz).Some?
    ensures var c := TransformQuiz(quiz).value;
      var sorted := SortBy(quiz.formSteps.value, FormStepSortKey);
      && |c.stepProgressMapping| == |c.steps|
      && forall i | 0 <= i < |c.steps| ::
           c.stepProgressMapping[i].stepId == c.steps[i].id
           && Some(c.stepProgressMapping[i].progressStepId) == sorted[i].progressStepId
  {
    var forms := quiz.formSteps.value;
    var progress := quiz.progressSteps.value;
    var sorted := SortBy(forms, FormStepSortKey);
    assert FormStepsValid(forms, MapSeq(ProgressSlug, progress));
    ValidStepsMapping(forms, progress);
  }

  // ---------------------------------------------------------------------------
  // A valid quiz the transformer rejects
  // ---------------------------------------------------------------------------

  const NameQuestion := EmptyQuestion.(slug := Some("name"), typeTag := Some("text"))

  /** A form step whose render condition has no `conditions` list. */
  const UnconditionedStep := EmptyFormStep.(
    slug := Some("intro"), progressStepId := Some("about"), order := Present(1),
    renderCondition := Some(RenderConditionJson(None, "AND")), questions := Some([NameQuestion]))

  const AboutStep := EmptyProgressStep.(
    slug := Some("about"), name := Some("About"), color := Some("#fff"), order := Present(1))

  const UnconditionedQuiz := EmptyQuiz.(
    id := Some("quiz"), slug := Some("quiz"), progressSteps := Some([AboutStep]),
    formSteps := Some([UnconditionedStep]))

  lemma AboutStepRules()
    ensures ProgressStepRulesHold(AboutStep)
  {
    assert IsValidSlug("about") && IsValidColor("#fff") by { ColorExamples(); }
  }

  lemma AboutStepOrders()
    ensures multiset(MapSeq(ProgressValidatorOrder, [AboutStep])) == multiset(Range(1, 1))
  {
    assert MapSeq(ProgressValidatorOrder, [AboutStep]) == [1] == Range(1, 1);
  }

  lemma AboutStepValid()
    ensures ProgressStepsValid([AboutStep])
  {
    AboutStepRules();
    AboutStepOrders();
  }

  lemma UnconditionedStepValid()
    ensures FormStepsValid([UnconditionedStep], MapSeq(ProgressSlug, [AboutStep]))
  {
    assert IsValidSlug("name") && IsValidSlug("intro");
    assert QuestionRulesHold(NameQuestion);
    assert MapSeq(ProgressSlug, [AboutStep]) == [Some("about")];
  }

  lemma UnconditionedQuizRules()
    ensures !ValidatorThrows(UnconditionedQuiz) && QuizRulesHold(UnconditionedQuiz)
  {
    AboutStepValid();
    UnconditionedStepValid();
    assert IsValidSlug("quiz");
    assert MapSeq(QuestionSlug, [NameQuestion]) == [Some("name")];
  }

  lemma UnconditionedQuizValid()
    ensures ValidateQuizJson(UnconditionedQuiz).Some? && ValidateQuizJson(UnconditionedQuiz).value.isValid
  {
    UnconditionedQuizRules();
  }

  lemma UnconditionedQuizDropped()
    ensures TransformQuiz(UnconditionedQuiz).None?
    ensures TransformAll([UnconditionedQuiz]) == []
  {
    assert !FormStepTransforms(UnconditionedStep);
    assert TransformQuiz([UnconditionedQuiz][0]).None?;
  }

  /** The validator never looks at render conditions, so a quiz can pass it
      and still fail to transform: a render condition without a `conditions`
      list makes the transformer's `.map` throw, and the batch transform
      drops the quiz. */
  lemma ValidQuizMayFailToTransform()
    ensures exists quiz: QuizJsonQuiz ::
      && ValidateQuizJson(quiz).Some? && ValidateQuizJson(quiz).value.isValid
      && TransformQuiz(quiz).None? && TransformAll([quiz]) == []
  {
    UnconditionedQuizValid();
    UnconditionedQuizDropped();
  }
}

=== FILE: raw_quiz.dfy ===
/** The raw quiz document as parsed from quiz.json. Every key the pipeline
    reads is a field here, under its JSON spelling, so that canonical and
    legacy aliases (`order` / `step_order`, `required` / `is_required`, …)
    stay distinguishable. A JSON `type` key is `typeTag` / `calcType`, since
    `type` is a Dafny keyword; likewise an option's `label` key is `labelText`. */
module RawQuiz {
  import opened Wrappers
  import opened JsValues

  // ---------------------------------------------------------------------------
  // Closed vocabularies
  // ---------------------------------------------------------------------------

  /** The comparison operators a condition may name. */
  datatype ComparisonOperator = Equals | NotEquals | GreaterThan | LessThan

  function OperatorName(op: ComparisonOperator): string {
    match op
    case Equals => "equals"
    case NotEquals => "notEquals"
    case GreaterThan => "greaterThan"
    case LessThan => "lessThan"
  }

  /** Recognises an operator string; anything outside the four names is `None`. */
  function ParseOperator(s: string): (r: Option<ComparisonOperator>)
    ensures r.Some? <==> s in {"equals", "notEquals", "greaterThan", "lessThan"}
    ensures r.Some? ==> OperatorName(r.value) == s
  {
    if s == "equals" then Some(Equals)
    else if s == "notEquals" then Some(NotEquals)
    else if s == "greaterThan" then Some(GreaterThan)
    else if s == "lessThan" then Some(LessThan)
    else None
  }

  lemma ParseOperatorName(op: ComparisonOperator)
    ensures ParseOperator(OperatorName(op)) == Some(op)
  {
  }

  /** How a render condition combines its comparisons. */
  datatype LogicalOperator = And | Or

  function LogicalOperatorName(op: LogicalOperator): string {
    match op
    case And => "AND"
    case Or => "OR"
  }

  function ParseLogicalOperator(s: string): (r: Option<LogicalOperator>)
    ensures r.Some? <==> s in {"AND", "OR"}
    ensures r.Some? ==> LogicalOperatorName(r.value) == s
  {
    if s == "AND" then Some(And) else if s == "OR" then Some(Or) else None
  }

  /** The calculations a display value may request. */
  datatype CalculationType = Bmi | WeeksToGoal | Custom

  function CalculationTypeName(t: CalculationType): string {
    match t
    case Bmi => "bmi"
    case WeeksToGoal => "weeksToGoal"
    case Custom => "custom"
  }

  function ParseCalculationType(s: string): (r: Option<CalculationType>)
    ensures r.Some? <==> s in {"bmi", "weeksToGoal", "custom"}
    ensures r.Some? ==> CalculationTypeName(r.value) == s
  {
    if s == "bmi" then Some(Bmi)
    else if s == "weeksToGoal" then Some(WeeksToGoal)
    else if s == "custom" then Some(Custom)
    else None
  }

  // ---------------------------------------------------------------------------
  // Raw records
  // ---------------------------------------------------------------------------

  /** One comparison `answers[field] <operator> value`. The operator is kept
      as text: the document is untrusted and may name an operator outside
      the closed set. */
  datatype ConditionJson = ConditionJson(field: string, operator: string, value: JsValue)

  /** A render condition; a missing `conditions` list is representable
      because the transformer dereferences it without a guard. */
  datatype RenderConditionJson = RenderConditionJson(
    conditions: Option<seq<ConditionJson>>,
    logicalOperator: string)

  datatype QuestionOptionJson = QuestionOptionJson(
    id: Option<string>,
    question_id: Option<string>,
    value: JsValue,
    labelText: Option<string>,
    option_order: Option<int>)

  datatype CalculatedValues = CalculatedValues(
    bmi: Option<string>,
    currentWeight: Option<string>,
    weeksToGoal: Option<string>)

  datatype QuestionJson = QuestionJson(
    id: Option<string>,
    slug: Option<string>,
    typeTag: Option<string>,
    question: Option<string>,
    display_question: Option<string>,
    displayQuestion: Option<string>,
    required: Option<bool>,
    is_required: Option<bool>,
    placeholder: Option<string>,
    api_type: Option<string>,
    apiType: Option<string>,
    validation: Option<seq<string>>,
    question_order: Option<int>,
    dynamicText: Option<string>,
    icon: Option<string>,
    options: Option<seq<QuestionOptionJson>>,
    display_as_row: Option<bool>,
    displayAsRow: Option<bool>,
    option_images: Option<seq<string>>,
    optionImages: Option<seq<string>>,
    image: Option<string>,
    display_statistics: Option<bool>,
    displayStatistics: Option<bool>,
    before_image: Option<string>,
    beforeImage: Option<string>,
    after_image: Option<string>,
    afterImage: Option<string>,
    quote: Option<string>,
    calculatedValues: Option<CalculatedValues>,
    candidateStatement: Option<string>,
    heading1: Option<string>,
    dynamicSubtext: Option<string>,
    subtext: Option<string>)

  datatype CalculateJson = CalculateJson(
    calcType: string,
    fields: Option<seq<string>>,
    formula: Option<string>)

  datatype DisplayValueJson = DisplayValueJson(
    condition: Option<seq<ConditionJson>>,
    calculate: Option<CalculateJson>,
    template: Option<string>)

  datatype FormStepJson = FormStepJson(
    id: Option<string>,
    slug: Option<string>,
    title: Option<string>,
    heading1: Option<string>,
    heading2: Option<string>,
    subtext: Option<string>,
    progressStepId: Option<string>,
    order: NumberField,
    step_order: NumberField,
    renderCondition: Option<RenderConditionJson>,
    render_condition: Option<RenderConditionJson>,
    showTrustBadges: Option<bool>,
    headingsInline: Option<bool>,
    questions: Option<seq<QuestionJson>>,
    dynamicTitle: Option<string>,
    dynamicHeading1: Option<string>,
    dynamicHeading2: Option<string>,
    dynamicSubtext: Option<string>,
    displayValue: Option<DisplayValueJson>)

  datatype ProgressStepJson = ProgressStepJson(
    id: Option<string>,
    slug: Option<string>,
    name: Option<string>,
    description: Option<string>,
    color: Option<string>,
    order: NumberField,
    step_order: NumberField)

  datatype QuizMetadata = QuizMetadata(
    category: Option<string>,
    estimatedTime: Option<string>,
    targetAudience: Option<string>,
    compliance: Option<seq<string>>)

  datatype QuizJsonQuiz = QuizJsonQuiz(
    id: Option<string>,
    slug: Option<string>,
    name: Option<string>,
    description: Option<string>,
    version: Option<string>,
    metadata: Option<QuizMetadata>,
    progressSteps: Option<seq<ProgressStepJson>>,
    formSteps: Option<seq<FormStepJson>>)

  /** The whole document; `quizzes` is `None` when the key is missing or is not an array. */
  datatype QuizJson = QuizJson(quizzes: Option<seq<QuizJsonQuiz>>)

  /** The validator's report. */
  datatype ValidationResult = ValidationResult(
    isValid: bool,
    errors: seq<string>,
    warnings: seq<string>)

  // ---------------------------------------------------------------------------
  // Empty records: the object literal `{}` read as each record type
  // ---------------------------------------------------------------------------

  const EmptyQuestion := QuestionJson(
    None, None, None, None, None, None, None, None, None, None, None,
    None, None, None, None, None, None, None, None, None, None, None, None, None, None,
    None, None, None, None, None, None, None, None)

  const EmptyFormStep := FormStepJson(
    None, None, None, None, None, None, None, Missing, Missing,
    None, None, None, None, None, None, None, None, None, None)

  const EmptyProgressStep := ProgressStepJson(None, None, None, None, None, Missing, Missing)

  const EmptyQuiz := QuizJsonQuiz(None, None, None, None, None, None, None, None)

  // ---------------------------------------------------------------------------
  // Field accessors used with `map`
  // ---------------------------------------------------------------------------

  function ProgressSlug(s: ProgressStepJson): Option<string> { s.slug }

  function ProgressRawId(s: ProgressStepJson): Option<string> { s.id }

  function FormSlug(s: FormStepJson): Option<string> { s.slug }

  function QuestionSlug(q: QuestionJson): Option<string> { q.slug }

  // ---------------------------------------------------------------------------
  // Alias resolution: one accessor per field offered in two spellings
  // ---------------------------------------------------------------------------

  /** Transformer sort key of a progress step: `order || step_order || 0`. */
  function ProgressSortKey(s: ProgressStepJson): int {
    NumberOr(s.order, NumberOr(s.step_order, 0))
  }

  /** Transformer sort key of a form step: `order || step_order || 0`. */
  function FormStepSortKey(s: FormStepJson): int {
    NumberOr(s.order, NumberOr(s.step_order, 0))
  }

  /** Validator order of a progress step: `order ?? step_order ?? 0`. */
  function ProgressValidatorOrder(s: ProgressStepJson): int {
    NumberCoalesce(s.order, NumberCoalesce(s.step_order, 0))
  }

  /** Transformer sort key of a question: `question_order || 0` (no alias). */
  function QuestionSortKey(q: QuestionJson): int {
    q.question_order.GetOr(0)
  }

  /** Transformer sort key of an option: `option_order || 0` (no alias). */
  function OptionSortKey(o: QuestionOptionJson): int {
    o.option_order.GetOr(0)
  }

  /** `required ?? is_required ?? false`. */
  function ResolvedRequired(q: QuestionJson): bool {
    q.required.OrElse(q.is_required).GetOr(false)
  }

  /** `renderCondition || render_condition` (both are objects or null). */
  function ResolvedRenderCondition(s: FormStepJson): Option<RenderConditionJson> {
    s.renderCondition.OrElse(s.render_condition)
  }

  /** The two components resolve a step's order differently: they disagree
      exactly when `order` is an explicit 0 and `step_order` is a non-zero
      number, because `||` skips the 0 and `??` keeps it. */
  lemma OrderResolutionsDiffer(s: ProgressStepJson)
    ensures ProgressSortKey(s) != ProgressValidatorOrder(s)
        <==> s.order == Present(0) && NumberTruthy(s.step_order)
  {
  }
}

=== FILE: sequences.dfy ===
/** Sequence utilities shared by the transformer and the validator: the
    stable sort that `Array.prototype.sort` performs with a numeric
    comparator, and the facts about it the rest of the model relies on. */
module Sequences {
  import opened Wrappers

  /** `s` is ascending by `key`. */
  predicate SortedBy<T>(s: seq<T>, key: T -> int) {
    forall i, j | 0 <= i < j < |s| :: key(s[i]) <= key(s[j])
  }

  /** The elements of `s` whose key is `k`, in their order in `s`. A sort is
      stable exactly when it leaves every such sub-sequence unchanged. */
  function WithKey<T>(s: seq<T>, key: T -> int, k: int): seq<T> {
    if |s| == 0 then [] else (if key(s[0]) == k then [s[0]] else []) + WithKey(s[1..], key, k)
  }

  lemma {:induction false} WithKeyAppend<T>(a: seq<T>, b: seq<T>, key: T -> int, k: int)
    ensures WithKey(a + b, key, k) == WithKey(a, key, k) + WithKey(b, key, k)
  {
    if |a| == 0 {
      assert a + b == b;
    } else {
      var head := if key(a[0]) == k then [a[0]] else [];
      assert (a + b)[0] == a[0];
      assert (a + b)[1..] == a[1..] + b;
      assert WithKey(a + b, key, k) == head + WithKey(a[1..] + b, key, k);
      WithKeyAppend(a[1..], b, key, k);
      assert WithKey(a, key, k) == head + WithKey(a[1..], key, k);
    }
  }


  lemma {:induction false} WithKeyAbove<T>(s: seq<T>, key: T -> int, k: int)
    requires forall i | 0 <= i < |s| :: key(s[i]) > k
    ensures WithKey(s, key, k) == []
  {
    if |s| > 0 {
      WithKeyAbove(s[1..], key, k);
    }
  }

  /** Inserts `x` into `s` after every leading element whose key is not
      greater than `x`'s: the step of a stable insertion sort. */
  function InsertBy<T>(x: T, s: seq<T>, key: T -> int): (r: seq<T>)
    ensures |r| == |s| + 1
    ensures multiset(r) == multiset(s) + multiset{x}
  {
    if |s| == 0 then
      [x]
    else if key(s[0]) <= key(x) then
      assert s == [s[0]] + s[1..];
      [s[0]] + InsertBy(x, s[1..], key)
    else
      [x] + s
  }

  lemma {:induction false} InsertBySorted<T>(x: T, s: seq<T>, key: T -> int)
    requires SortedBy(s, key)
    ensures SortedBy(InsertBy(x, s, key), key)
  {
    if |s| > 0 && key(s[0]) <= key(x) {
      var rest := InsertBy(x, s[1..], key);
      InsertBySorted(x, s[1..], key);
      forall j | 0 <= j < |rest| ensures key(s[0]) <= key(rest[j]) {
        assert rest[j] in multiset(rest);
        if rest[j] != x {
          assert rest[j] in multiset(s[1..]);
          var m :| 0 <= m < |s[1..]| && s[1..][m] == rest[j];
          assert rest[j] == s[m + 1];
        }
      }
      var r := [s[0]] + rest;
      assert forall j | 1 <= j < |r| :: r[j] == rest[j - 1];
    }
  }

  /** The key sub-sequence of `[h] + t`. */
  lemma WithKeyCons<T>(h: T, t: seq<T>, key: T -> int, k: int)
    ensures WithKey([h] + t, key, k) == (if key(h) == k then [h] else []) + WithKey(t, key, k)
  {
    assert ([h] + t)[0] == h && ([h] + t)[1..] == t;
  }

  /** Inserting in front of larger keys adds `x` at the end of its key's
      sub-sequence, which has no other element. */
  lemma InsertFrontWithKey<T>(x: T, s: seq<T>, key: T -> int, k: int)
    requires |s| > 0 && SortedBy(s, key) && key(x) < key(s[0])
    ensures WithKey([x] + s, key, k) == WithKey(s, key, k) + (if key(x) == k then [x] else [])
  {
    WithKeyCons(x, s, key, k);
    if key(x) == k {
      SortedAbove(s, key, k);
      WithKeyAbove(s, key, k);
    }
  }

  /** Inserting behind `s[0]` keeps `s[0]` in front of the key sub-sequence. */
  lemma InsertBehindWithKey<T>(x: T, s: seq<T>, key: T -> int, k: int)
    requires |s| > 0 && key(s[0]) <= key(x)
    requires WithKey(InsertBy(x, s[1..], key), key, k)
          == WithKey(s[1..], key, k) + (if key(x) == k then [x] else [])
    ensures WithKey(InsertBy(x, s, key), key, k) == WithKey(s, key, k) + (if key(x) == k then [x] else [])
  {
    var rest := InsertBy(x, s[1..], key);
    var head := if key(s[0]) == k then [s[0]] else [];
    var tail := if key(x) == k then [x] else [];
    calc {
      WithKey(InsertBy(x, s, key), key, k);
      WithKey([s[0]] + rest, key, k);
      { WithKeyCons(s[0], rest, key, k); }
      head + WithKey(rest, key, k);
      head + (WithKey(s[1..], key, k) + tail);
      { ConcatAssoc(head, WithKey(s[1..], key, k), tail); }
      (head + WithKey(s[1..], key, k)) + tail;
      WithKey(s, key, k) + tail;
    }
  }

  lemma ConcatAssoc<T>(a: seq<T>, b: seq<T>, c: seq<T>)
    ensures a + (b + c) == (a + b) + c
  {
  }

  lemma {:induction false} InsertByWithKey<T>(x: T, s: seq<T>, key: T -> int, k: int)
    requires SortedBy(s, key)
    ensures WithKey(InsertBy(x, s, key), key, k) == WithKey(s, key, k) + (if key(x) == k then [x] else [])
  {
    if |s| == 0 {
      WithKeyCons(x, [], key, k);
      assert [x] + [] == [x];
    } else if key(s[0]) <= key(x) {
      SortedBySuffix(s, key);
      InsertByWithKey(x, s[1..], key, k);
      InsertBehindWithKey(x, s, key, k);
    } else {
      InsertFrontWithKey(x, s, key, k);
    }
  }

  /** A suffix of a sorted sequence is sorted. */
  lemma SortedBySuffix<T>(s: seq<T>, key: T -> int)
    requires |s| > 0 && SortedBy(s, key)
    ensures SortedBy(s[1..], key)
  {
    forall i, j | 0 <= i < j < |s[1..]| ensures key(s[1..][i]) <= key(s[1..][j]) {
      assert s[1..][i] == s[i + 1] && s[1..][j] == s[j + 1];
    }
  }

  /** Every key of a sorted sequence whose first key exceeds `k` exceeds `k`. */
  lemma SortedAbove<T>(s: seq<T>, key: T -> int, k: int)
    requires |s| > 0 && SortedBy(s, key) && key(s[0]) > k
    ensures forall i | 0 <= i < |s| :: key(s[i]) > k
  {
  }


  /** Stable ascending sort by an integer key: `Array.prototype.sort` with the
      comparator `(a, b) => key(a) - key(b)`, which is stable since ES2019.
      The result is ascending, a permutation of the input, and elements with
      equal keys keep their input order. */
  function SortBy<T>(s: seq<T>, key: T -> int): (r: seq<T>)
    ensures |r| == |s|
    ensures SortedBy(r, key)
    ensures multiset(r) == multiset(s)
    ensures forall k :: WithKey(r, key, k) == WithKey(s, key, k)
  {
    if |s| == 0 then
      []
    else
      var init := s[..|s| - 1];
      var x := s[|s| - 1];
      assert s == init + [x];
      var t := SortBy(init, key);
      InsertStep(x, init, t, key);
      InsertBy(x, t, key)
  }

  /** One step of the insertion sort: inserting the next element into a
      stable sort of the elements before it gives a stable sort of both. */
  lemma InsertStep<T>(x: T, init: seq<T>, t: seq<T>, key: T -> int)
    requires SortedBy(t, key) && multiset(t) == multiset(init)
    requires forall k :: WithKey(t, key, k) == WithKey(init, key, k)
    ensures SortedBy(InsertBy(x, t, key), key)
    ensures multiset(InsertBy(x, t, key)) == multiset(init + [x])
    ensures forall k :: WithKey(InsertBy(x, t, key), key, k) == WithKey(init + [x], key, k)
  {
    InsertBySorted(x, t, key);
    var r := InsertBy(x, t, key);
    forall k ensures WithKey(r, key, k) == WithKey(init + [x], key, k) {
      InsertByWithKey(x, t, key, k);
      WithKeyInit(init + [x], key, k);
      assert (init + [x])[..|init|] == init;
    }
  }

  lemma {:induction false} InsertAfterAll<T>(x: T, s: seq<T>, key: T -> int)
    requires SortedBy(s, key)
    requires forall i | 0 <= i < |s| :: key(s[i]) <= key(x)
    ensures InsertBy(x, s, key) == s + [x]
  {
    if |s| > 0 {
      InsertAfterAll(x, s[1..], key);
      assert s == [s[0]] + s[1..];
    }
  }

  /** Sorting an already sorted sequence changes nothing, so sorting twice
      (as happens when the same array is sorted in place again) is the same
      as sorting once. */
  lemma {:induction false} SortBySortedIsIdentity<T>(s: seq<T>, key: T -> int)
    requires SortedBy(s, key)
    ensures SortBy(s, key) == s
  {
    if |s| > 0 {
      var init := s[..|s| - 1];
      SortBySortedIsIdentity(init, key);
      InsertAfterAll(s[|s| - 1], init, key);
      assert init + [s[|s| - 1]] == s;
    }
  }

  /** Elements of equal key come in the same order in `a` and `b`. */
  ghost predicate SameKeyGroups<T>(a: seq<T>, b: seq<T>, key: T -> int) {
    forall k :: WithKey(a, key, k) == WithKey(b, key, k)
  }

  /** `sorted` is `s` rearranged ascending by `key`, with equal keys in their
      order in `s`: what any stable sort of `s` must return. */
  ghost predicate StableSortOf<T>(sorted: seq<T>, s: seq<T>, key: T -> int) {
    && SortedBy(sorted, key)
    && multiset(sorted) == multiset(s)
    && SameKeyGroups(sorted, s, key)
  }

  /** Dropping the last element drops it from its key's sub-sequence. */
  lemma WithKeyInit<T>(s: seq<T>, key: T -> int, k: int)
    requires |s| > 0
    ensures WithKey(s, key, k)
         == WithKey(s[..|s| - 1], key, k) + (if key(s[|s| - 1]) == k then [s[|s| - 1]] else [])
  {
    assert s == s[..|s| - 1] + [s[|s| - 1]];
    WithKeyAppend(s[..|s| - 1], [s[|s| - 1]], key, k);
    assert [s[|s| - 1]][1..] == [];
  }

  /** Equal key sub-sequences stay equal when the same last element is
      dropped from both sequences. */
  lemma WithKeyDropLast<T>(a: seq<T>, b: seq<T>, key: T -> int, k: int)
    requires |a| == |b| > 0 && a[|a| - 1] == b[|b| - 1]
    requires WithKey(a, key, k) == WithKey(b, key, k)
    ensures WithKey(a[..|a| - 1], key, k) == WithKey(b[..|b| - 1], key, k)
  {
    WithKeyInit(a, key, k);
    WithKeyInit(b, key, k);
    var x := a[|a| - 1];
    var ta := WithKey(a[..|a| - 1], key, k);
    var tb := WithKey(b[..|b| - 1], key, k);
    if key(x) == k {
      assert ta == (ta + [x])[..|ta|] && tb == (tb + [x])[..|tb|];
    } else {
      assert WithKey(a, key, k) == ta && WithKey(b, key, k) == tb;
    }
  }

  /** Two sorted rearrangements of the same elements end on the same key. */
  lemma LastKeysEqual<T>(a: seq<T>, b: seq<T>, key: T -> int)
    requires |a| > 0 && SortedBy(a, key) && SortedBy(b, key)
    requires multiset(a) == multiset(b)
    ensures |b| == |a| && key(b[|b| - 1]) == key(a[|a| - 1])
  {
    assert |a| == |multiset(a)| == |multiset(b)| == |b|;
    var n := |a| - 1;
    assert a[n] in multiset(b);
    assert b[n] in multiset(a);
    var i :| 0 <= i < |a| && a[i] == b[n];
    var j :| 0 <= j < |b| && b[j] == a[n];
  }

  /** The last element of a key's sub-sequence is the last element of the
      sequence when it has that key. */
  lemma WithKeyLast<T>(s: seq<T>, key: T -> int)
    requires |s| > 0
    ensures var w := WithKey(s, key, key(s[|s| - 1])); |w| > 0 && w[|w| - 1] == s[|s| - 1]
  {
    WithKeyInit(s, key, key(s[|s| - 1]));
  }

  /** Two stable rearrangements end in the same element: the last element of
      the largest key. */
  lemma SameLast<T>(a: seq<T>, b: seq<T>, key: T -> int)
    requires |a| > 0 && SortedBy(a, key) && SortedBy(b, key)
    requires multiset(a) == multiset(b)
    requires WithKey(a, key, key(a[|a| - 1])) == WithKey(b, key, key(a[|a| - 1]))
    ensures |b| == |a| && b[|b| - 1] == a[|a| - 1]
  {
    LastKeysEqual(a, b, key);
    WithKeyLast(a, key);
    WithKeyLast(b, key);
  }

  /** Dropping the same last element from two rearrangements keeps them
      rearrangements of each other. */
  lemma MultisetDropLast<T>(a: seq<T>, b: seq<T>)
    requires |a| == |b| > 0 && a[|a| - 1] == b[|b| - 1]
    requires multiset(a) == multiset(b)
    ensures multiset(a[..|a| - 1]) == multiset(b[..|b| - 1])
  {
    var x := a[|a| - 1];
    MultisetInitLast(a);
    MultisetInitLast(b);
    var a', b' := multiset(a[..|a| - 1]), multiset(b[..|b| - 1]);
    assert a' + multiset{x} == b' + multiset{x};
    forall y ensures a'[y] == b'[y] {
      assert (a' + multiset{x})[y] == (b' + multiset{x})[y];
    }
  }

  lemma MultisetInitLast<T>(s: seq<T>)
    requires |s| > 0
    ensures multiset(s) == multiset(s[..|s| - 1]) + multiset{s[|s| - 1]}
  {
    assert s == s[..|s| - 1] + [s[|s| - 1]];
  }

  lemma SameKeyGroupsDropLast<T>(a: seq<T>, b: seq<T>, key: T -> int)
    requires |a| == |b| > 0 && a[|a| - 1] == b[|b| - 1]
    requires SameKeyGroups(a, b, key)
    ensures SameKeyGroups(a[..|a| - 1], b[..|b| - 1], key)
  {
    var a', b' := a[..|a| - 1], b[..|b| - 1];
    forall k ensures WithKey(a', key, k) == WithKey(b', key, k) {
      WithKeyDropLast(a, b, key, k);
    }
  }

  lemma SortedByPrefix<T>(s: seq<T>, n: nat, key: T -> int)
    requires n <= |s| && SortedBy(s, key)
    ensures SortedBy(s[..n], key)
  {
  }

  /** There is only one stable sort: two stable rearrangements of the same
      elements by the same key are equal. */
  lemma {:induction false} StableSortUnique<T>(a: seq<T>, b: seq<T>, key: T -> int)
    requires SortedBy(a, key) && SortedBy(b, key)
    requires multiset(a) == multiset(b)
    requires SameKeyGroups(a, b, key)
    ensures a == b
    decreases |a|
  {
    assert |a| == |multiset(a)| == |multiset(b)| == |b|;
    if |a| > 0 {
      var n := |a| - 1;
      SameLast(a, b, key);
      MultisetDropLast(a, b);
      SameKeyGroupsDropLast(a, b, key);
      SortedByPrefix(a, n, key);
      SortedByPrefix(b, n, key);
      StableSortUnique(a[..n], b[..n], key);
      assert a == a[..n] + [a[n]] && b == b[..n] + [b[n]];
    }
  }

  /** `SortBy` is the stable sort, and any stable sort gives its result. */
  lemma SortByIsTheStableSort<T>(s: seq<T>, sorted: seq<T>, key: T -> int)
    requires StableSortOf(sorted, s, key)
    ensures SortBy(s, key) == sorted
  {
    StableSortUnique(SortBy(s, key), sorted, key);
  }

  lemma SortByIdempotent<T>(s: seq<T>, key: T -> int)
    ensures SortBy(SortBy(s, key), key) == SortBy(s, key)
  {
    SortBySortedIsIdentity(SortBy(s, key), key);
  }

  // ---------------------------------------------------------------------------
  // Mapping and sub-sequences
  // ---------------------------------------------------------------------------

  /** `s.map(f)`. */
  function MapSeq<A, B>(f: A -> B, s: seq<A>): (r: seq<B>)
    ensures |r| == |s|
    ensures forall i | 0 <= i < |s| :: r[i] == f(s[i])
  {
    seq(|s|, i requires 0 <= i < |s| => f(s[i]))
  }

  /** The image of a member is a member of the image. */
  lemma MapSeqMember<A, B>(f: A -> B, s: seq<A>, x: A)
    requires x in s
    ensures f(x) in MapSeq(f, s)
  {
    var i :| 0 <= i < |s| && s[i] == x;
    assert MapSeq(f, s)[i] == f(x);
  }

  lemma MultisetRemoveAt<T>(b: seq<T>, j: nat)
    requires j < |b|
    ensures multiset(b[..j] + b[j + 1..]) == multiset(b) - multiset{b[j]}
  {
    assert b == b[..j] + [b[j]] + b[j + 1..];
  }

  lemma MapSeqRemoveAt<A, B>(f: A -> B, b: seq<A>, j: nat)
    requires j < |b|
    ensures multiset(MapSeq(f, b)) == multiset(MapSeq(f, b[..j] + b[j + 1..])) + multiset{f(b[j])}
  {
    var m := MapSeq(f, b);
    assert m == m[..j] + [m[j]] + m[j + 1..];
    assert MapSeq(f, b[..j] + b[j + 1..]) == m[..j] + m[j + 1..];
  }

  lemma MapSeqCons<A, B>(f: A -> B, a: seq<A>)
    requires |a| > 0
    ensures multiset(MapSeq(f, a)) == multiset{f(a[0])} + multiset(MapSeq(f, a[1..]))
  {
    assert MapSeq(f, a) == [f(a[0])] + MapSeq(f, a[1..]);
  }

  /** Mapping two rearrangements of the same elements gives two rearrangements
      of the same images. */
  lemma {:induction false} MapSeqPermutation<A, B>(f: A -> B, a: seq<A>, b: seq<A>)
    requires multiset(a) == multiset(b)
    ensures multiset(MapSeq(f, a)) == multiset(MapSeq(f, b))
    decreases |a|
  {
    if |a| == 0 {
      assert |b| == |multiset(b)| == 0;
    } else {
      assert a[0] in multiset(b);
      var j :| 0 <= j < |b| && b[j] == a[0];
      var b' := b[..j] + b[j + 1..];
      MultisetRemoveAt(b, j);
      assert a == [a[0]] + a[1..];
      assert multiset(a[1..]) == multiset(b');
      MapSeqPermutation(f, a[1..], b');
      MapSeqCons(f, a);
      MapSeqRemoveAt(f, b, j);
    }
  }

  lemma MapSeqFirst<A, B>(f: A -> B, s: seq<A>)
    requires |s| > 0
    ensures MapSeq(f, s) == [f(s[0])] + MapSeq(f, s[1..])
  {
    assert forall i | 1 <= i < |s| :: s[1..][i - 1] == s[i];
  }

  /** Mapping a function that keeps every key keeps a sorted sequence sorted. */
  lemma MapSeqKeepsSorted<T>(f: T -> T, s: seq<T>, key: T -> int)
    requires SortedBy(s, key)
    requires forall i | 0 <= i < |s| :: key(f(s[i])) == key(s[i])
    ensures SortedBy(MapSeq(f, s), key)
  {
    var m := MapSeq(f, s);
    forall i, j | 0 <= i < j < |m| ensures key(m[i]) <= key(m[j]) {
      assert key(m[i]) == key(s[i]) && key(m[j]) == key(s[j]);
    }
  }

  /** `s.map(f)` where any failure fails the whole map: the shape of a
      JavaScript `.map` whose callback may throw. */
  function MapAll<A, B>(f: A -> Option<B>, s: seq<A>): (r: Option<seq<B>>)
    ensures r.Some? <==> forall i | 0 <= i < |s| :: f(s[i]).Some?
    ensures r.Some? ==> |r.value| == |s| && forall i | 0 <= i < |s| :: Some(r.value[i]) == f(s[i])
  {
    if |s| == 0 then
      Some([])
    else
      assert forall i | 1 <= i < |s| :: s[i] == s[1..][i - 1];
      match f(s[0])
      case None => None
      case Some(first) =>
        match MapAll(f, s[1..])
        case None => None
        case Some(rest) => Some([first] + rest)
  }

  /** Replacing elements by ones `f` treats the same way does not change
      what `MapAll` gives. */
  lemma {:induction false} MapAllAfterMap<A, B>(f: A -> Option<B>, g: A -> A, s: seq<A>)
    requires forall i | 0 <= i < |s| :: f(g(s[i])) == f(s[i])
    ensures MapAll(f, MapSeq(g, s)) == MapAll(f, s)
  {
    if |s| > 0 {
      var m := MapSeq(g, s);
      assert m[1..] == MapSeq(g, s[1..]);
      assert forall i | 0 <= i < |s[1..]| :: s[1..][i] == s[i + 1];
      MapAllAfterMap(f, g, s[1..]);
      assert f(m[0]) == f(s[0]);
    }
  }

  /** `s.map(f)` keeping only the successes, in order: a batch operation
      that skips the elements it fails on. */
  function FilterMap<A, B>(f: A -> Option<B>, s: seq<A>): (r: seq<B>)
    ensures |r| <= |s|
    ensures forall b | b in r :: exists i | 0 <= i < |s| :: f(s[i]) == Some(b)
    ensures (forall i | 0 <= i < |s| :: f(s[i]).Some?) ==>
      |r| == |s| && forall i | 0 <= i < |r| :: Some(r[i]) == f(s[i])
  {
    if |s| == 0 then
      []
    else
      var rest := FilterMap(f, s[1..]);
      assert forall i | 1 <= i < |s| :: s[i] == s[1..][i - 1];
      assert forall b | b in rest :: exists i | 0 <= i < |s| :: f(s[i]) == Some(b) by {
        forall b | b in rest ensures exists i | 0 <= i < |s| :: f(s[i]) == Some(b) {
          var i :| 0 <= i < |s[1..]| && f(s[1..][i]) == Some(b);
          assert f(s[i + 1]) == Some(b);
        }
      }
      match f(s[0])
      case None => rest
      case Some(b) => [b] + rest
  }

  /** The positions from `lo` on where `f` succeeds, in ascending order. */
  function SuccessIndicesFrom<A, B>(f: A -> Option<B>, s: seq<A>, lo: nat): (r: seq<nat>)
    requires lo <= |s|
    ensures forall j | 0 <= j < |r| :: lo <= r[j] < |s| && f(s[r[j]]).Some?
    ensures forall j, k | 0 <= j < k < |r| :: r[j] < r[k]
    ensures forall i | lo <= i < |s| && f(s[i]).Some? :: i in r
    decreases |s| - lo
  {
    if lo == |s| then []
    else (if f(s[lo]).Some? then [lo] else []) + SuccessIndicesFrom(f, s, lo + 1)
  }

  /** The positions where `f` succeeds, in ascending order: the reference
      against which `FilterMap` is characterised. */
  function SuccessIndices<A, B>(f: A -> Option<B>, s: seq<A>): (r: seq<nat>)
    ensures forall j | 0 <= j < |r| :: r[j] < |s| && f(s[r[j]]).Some?
    ensures forall j, k | 0 <= j < k < |r| :: r[j] < r[k]
    ensures forall i | 0 <= i < |s| && f(s[i]).Some? :: i in r
  {
    SuccessIndicesFrom(f, s, 0)
  }

  /** `r[j]` is the result of `f` at position `idx[j]` of `s`, for every `j`. */
  ghost predicate ResultsAt<A, B>(f: A -> Option<B>, s: seq<A>, idx: seq<nat>, r: seq<B>) {
    |r| == |idx| && forall j | 0 <= j < |r| :: idx[j] < |s| && Some(r[j]) == f(s[idx[j]])
  }

  lemma ResultsAtCons<A, B>(f: A -> Option<B>, s: seq<A>, idx: seq<nat>, r: seq<B>, i: nat, b: B)
    requires ResultsAt(f, s, idx, r)
    requires i < |s| && f(s[i]) == Some(b)
    ensures ResultsAt(f, s, [i] + idx, [b] + r)
  {
    var idx', r' := [i] + idx, [b] + r;
    forall j | 0 <= j < |r'| ensures idx'[j] < |s| && Some(r'[j]) == f(s[idx'[j]]) {
      if j > 0 {
        assert r'[j] == r[j - 1] && idx'[j] == idx[j - 1];
      }
    }
  }

  lemma {:induction false} FilterMapFrom<A, B>(f: A -> Option<B>, s: seq<A>, lo: nat)
    requires lo <= |s|
    ensures ResultsAt(f, s, SuccessIndicesFrom(f, s, lo), FilterMap(f, s[lo..]))
    decreases |s| - lo
  {
    if lo < |s| {
      FilterMapFrom(f, s, lo + 1);
      var t := s[lo..];
      assert t[0] == s[lo] && t[1..] == s[lo + 1..];
      var rest := FilterMap(f, s[lo + 1..]);
      var idx := SuccessIndicesFrom(f, s, lo + 1);
      if f(s[lo]).Some? {
        assert FilterMap(f, t) == [f(s[lo]).value] + rest;
        assert SuccessIndicesFrom(f, s, lo) == [lo] + idx;
        ResultsAtCons(f, s, idx, rest, lo, f(s[lo]).value);
      } else {
        assert FilterMap(f, t) == rest;
        assert SuccessIndicesFrom(f, s, lo) == idx;
      }
    }
  }

  /** `FilterMap` keeps exactly the successes, in input order: its `j`-th
      element is the result at the `j`-th position where `f` succeeds. */
  lemma FilterMapSuccesses<A, B>(f: A -> Option<B>, s: seq<A>)
    ensures |FilterMap(f, s)| == |SuccessIndices(f, s)|
    ensures forall j | 0 <= j < |FilterMap(f, s)| :: Some(FilterMap(f, s)[j]) == f(s[SuccessIndices(f, s)[j]])
  {
    FilterMapFrom(f, s, 0);
    assert s[0..] == s;
  }

  /** Replacing elements by ones `f` treats the same way does not change
      what `FilterMap` keeps. */
  lemma {:induction false} FilterMapAfterMap<A, B>(f: A -> Option<B>, g: A -> A, s: seq<A>)
    requires forall i | 0 <= i < |s| :: f(g(s[i])) == f(s[i])
    ensures FilterMap(f, MapSeq(g, s)) == FilterMap(f, s)
  {
    if |s| > 0 {
      var m := MapSeq(g, s);
      assert m[1..] == MapSeq(g, s[1..]);
      assert forall i | 0 <= i < |s[1..]| :: s[1..][i] == s[i + 1];
      FilterMapAfterMap(f, g, s[1..]);
      assert f(m[0]) == f(s[0]);
    }
  }

  /** The concatenation of a list of lists (`forEach` pushing each batch). */
  function Flatten<T>(ls: seq<seq<T>>): (r: seq<T>)
    ensures r == [] <==> forall k | 0 <= k < |ls| :: ls[k] == []
    ensures forall k, x | 0 <= k < |ls| && x in ls[k] :: x in r
    ensures forall x | x in r :: exists k | 0 <= k < |ls| :: x in ls[k]
  {
    if |ls| == 0 then []
    else
      var rest := Flatten(ls[1..]);
      assert forall k | 1 <= k < |ls| :: ls[k] == ls[1..][k - 1];
      ls[0] + rest
  }

  /** The concatenation of `f(s[k], k)` over the positions `k` of `s`: a
      `forEach((x, k) => errors.push(...))` loop. */
  function ConcatMapIndexed<A, T>(f: (A, nat) -> seq<T>, s: seq<A>): (r: seq<T>)
    ensures r == [] <==> forall k | 0 <= k < |s| :: f(s[k], k) == []
    ensures forall k, x | 0 <= k < |s| && x in f(s[k], k) :: x in r
  {
    var per := seq(|s|, k requires 0 <= k < |s| => f(s[k], k));
    assert forall k | 0 <= k < |s| :: per[k] == f(s[k], k);
    Flatten(per)
  }

  /** `a` can be obtained from `b` by deleting elements. */
  predicate IsSubsequence<T(==)>(a: seq<T>, b: seq<T>)
    decreases |b|
  {
    if |a| == 0 then true
    else if |b| == 0 then false
    else if a[0] == b[0] then IsSubsequence(a[1..], b[1..])
    else IsSubsequence(a, b[1..])
  }

  lemma {:induction false} SubsequenceDropFirst<T>(a: seq<T>, c: seq<T>)
    requires |a| > 0 && IsSubsequence(a, c)
    ensures IsSubsequence(a[1..], c)
    decreases |c|
  {
    if a[0] == c[0] {
      if |a| > 1 && a[1] == c[0] {
        SubsequenceDropFirst(a[1..], c[1..]);
        assert a[1..][1..] == a[2..];
      }
    } else {
      SubsequenceDropFirst(a, c[1..]);
      if |a| > 1 && a[1] == c[0] {
        SubsequenceDropFirst(a[1..], c[1..]);
        assert a[1..][1..] == a[2..];
      }
    }
  }

  /** Adding an element in front of the longer sequence keeps a sub-sequence one. */
  lemma SubsequenceExtend<T>(a: seq<T>, b: seq<T>)
    requires |b| > 0 && IsSubsequence(a, b[1..])
    ensures IsSubsequence(a, b)
  {
    if |a| > 0 && a[0] == b[0] {
      SubsequenceDropFirst(a, b[1..]);
    }
  }

  // ---------------------------------------------------------------------------
  // Integer sequences
  // ---------------------------------------------------------------------------

  function Identity(x: int): int { x }

  /** The consecutive integers `lo, lo + 1, …, lo + n - 1`. */
  function Range(lo: int, n: nat): (r: seq<int>)
    ensures |r| == n
    ensures forall i | 0 <= i < n :: r[i] == lo + i
  {
    seq(n, i requires 0 <= i < n => lo + i)
  }

  lemma {:induction false} SortedHeadIsMinimum(a: seq<int>, v: int)
    requires SortedBy(a, Identity) && |a| > 0 && v in multiset(a)
    ensures a[0] <= v
  {
    var j :| 0 <= j < |a| && a[j] == v;
    if j > 0 {
      assert Identity(a[0]) <= Identity(a[j]);
    }
  }

  /** Two ascending integer sequences with the same elements are equal. */
  lemma {:induction false} SortedPermutationsEqual(a: seq<int>, b: seq<int>)
    requires SortedBy(a, Identity) && SortedBy(b, Identity)
    requires multiset(a) == multiset(b)
    ensures a == b
  {
    if |a| == 0 {
      assert |b| == |multiset(b)| == 0;
    } else {
      assert |b| == |multiset(b)| == |a|;
      assert a[0] in multiset(b);
      assert b[0] in multiset(a);
      SortedHeadIsMinimum(b, a[0]);
      SortedHeadIsMinimum(a, b[0]);
      assert a[0] == b[0];
      assert a == [a[0]] + a[1..];
      assert b == [b[0]] + b[1..];
      assert multiset(a) == multiset{a[0]} + multiset(a[1..]);
      assert multiset(b) == multiset{b[0]} + multiset(b[1..]);
      assert multiset(a[1..]) == multiset(a) - multiset{a[0]};
      assert multiset(a[1..]) == multiset(b[1..]);
      SortedPermutationsEqual(a[1..], b[1..]);
    }
  }

  /** The ascending sort of `xs` is `1, 2, …, |xs|` exactly when `xs` is a
      permutation of those numbers. */
  lemma SortedIsOneToN(xs: seq<int>)
    ensures SortBy(xs, Identity) == Range(1, |xs|) <==> multiset(xs) == multiset(Range(1, |xs|))
  {
    var sorted := SortBy(xs, Identity);
    var r := Range(1, |xs|);
    if multiset(xs) == multiset(r) {
      assert SortedBy(r, Identity);
      SortedPermutationsEqual(sorted, r);
    }
  }
}

=== FILE: transform.dfy ===
/** The transformer: raw quiz record to canonical quiz configuration
    (utils/intake-form/transformQuizJson.ts). The source sorts its input
    arrays in place before mapping them; the model returns sorted copies and
    leaves its input untouched. The record as the source leaves it, and the
    fact that transforming it again yields the same configuration, are in
    the `InPlaceSort` module. */
module QuizTransform {
  import opened Wrappers
  import opened JsValues
  import opened Sequences
  import opened RawQuiz
  import opened Canonical

  /** Design-system colour used when a progress step has no colour. */
  const DefaultColor: string := "#A75809"

  /** Display template used when a display value supplies none. */
  const DefaultTemplate: string := "{{value}}"

  /** Upper-case tags of the questions with a selectable option list and layout flag. */
  const ChoiceTags: set<string> := {"SINGLESELECT", "MULTISELECT", "CHECKBOX"}

  /** Upper-case tags that have a branch of their own; every other tag is text-like. */
  const NamedTags: set<string> :=
    ChoiceTags + {"MARKETING", "BEFORE_AFTER", "FILE_INPUT", "DROPDOWN", "MEDICAL_REVIEW", "PERFECT", "WEIGHT_SUMMARY"}

  // ---------------------------------------------------------------------------
  // Progress steps
  // ---------------------------------------------------------------------------

  function ProgressStepOf(s: ProgressStepJson): (r: ProgressStep)
    ensures r.id == s.slug && r.name == s.name && r.description == s.description
    ensures r.color != ""
    ensures StringTruthy(s.color) ==> r.color == s.color.value
    ensures !StringTruthy(s.color) ==> r.color == DefaultColor
  {
    ProgressStep(s.slug, s.name, s.description, StringOr(s.color, DefaultColor))
  }

  function ProgressId(p: ProgressStep): Option<string> { p.id }

  /** The ids of the canonical progress steps, the set the mapping is checked against. */
  function ProgressIdSet(ps: seq<ProgressStep>): set<Option<string>> {
    set p | p in ps :: p.id
  }

  /** Progress steps in stable ascending `order || step_order || 0` order, one
      canonical step per raw step, whose ids are exactly the raw slugs. */
  function TransformProgressSteps(steps: seq<ProgressStepJson>): (r: seq<ProgressStep>)
    ensures |r| == |steps|
    ensures forall i | 0 <= i < |r| :: r[i] == ProgressStepOf(SortBy(steps, ProgressSortKey)[i])
    ensures multiset(MapSeq(ProgressId, r)) == multiset(MapSeq(ProgressSlug, steps))
  {
    var sorted := SortBy(steps, ProgressSortKey);
    var r := MapSeq(ProgressStepOf, sorted);
    assert MapSeq(ProgressId, r) == MapSeq(ProgressSlug, sorted);
    MapSeqPermutation(ProgressSlug, sorted, steps);
    r
  }

  /** The progress steps follow any stable sort of the raw steps by
      `order || step_order || 0`: the order does not depend on how the sort
      is carried out. */
  lemma ProgressStepsFollowAnyStableSort(steps: seq<ProgressStepJson>, sorted: seq<ProgressStepJson>)
    requires StableSortOf(sorted, steps, ProgressSortKey)
    ensures TransformProgressSteps(steps) == MapSeq(ProgressStepOf, sorted)
  {
    SortByIsTheStableSort(steps, sorted, ProgressSortKey);
  }

  // ---------------------------------------------------------------------------
  // Step -> progress mapping
  // ---------------------------------------------------------------------------

  function MappingStepId(m: StepProgressMapping): Option<string> { m.stepId }

  /** `steps.find(fs => fs.slug === slug)`, as a position. */
  function FindSlugIndex(steps: seq<FormStepJson>, slug: Option<string>): (r: Option<nat>)
    ensures r.Some? ==> r.value < |steps| && steps[r.value].slug == slug
    ensures r.Some? ==> forall j | 0 <= j < r.value :: steps[j].slug != slug
    ensures r.None? ==> forall j | 0 <= j < |steps| :: steps[j].slug != slug
  {
    if |steps| == 0 then None
    else if steps[0].slug == slug then Some(0)
    else
      match FindSlugIndex(steps[1..], slug)
      case None => None
      case Some(i) => Some(i + 1)
  }

  /** The mapping entry derived for `step`: its slug is looked up among the
      (sorted) raw form steps, and the entry exists only when the step found
      has a non-empty `progressStepId` naming a known progress step. */
  function MappingEntry(sorted: seq<FormStepJson>, step: FormStepJson, progressIds: set<Option<string>>)
    : (r: Option<StepProgressMapping>)
    ensures r.Some? ==> r.value.stepId == step.slug
    ensures r.Some? ==> r.value.progressStepId != "" && Some(r.value.progressStepId) in progressIds
  {
    match FindSlugIndex(sorted, step.slug)
    case None => None
    case Some(i) =>
      var pid := sorted[i].progressStepId;
      if !StringTruthy(pid) || pid !in progressIds then None
      else Some(StepProgressMapping(step.slug, pid.value))
  }

  /** The mapping for the steps `pending`, in their order, dropping dangling
      references. */
  function BuildMapping(pending: seq<FormStepJson>, sorted: seq<FormStepJson>, progressIds: set<Option<string>>)
    : (r: seq<StepProgressMapping>)
    ensures |r| <= |pending|
    ensures forall j | 0 <= j < |r| :: r[j].progressStepId != "" && Some(r[j].progressStepId) in progressIds
  {
    if |pending| == 0 then []
    else
      var rest := BuildMapping(pending[1..], sorted, progressIds);
      match MappingEntry(sorted, pending[0], progressIds)
      case None => rest
      case Some(m) => [m] + rest
  }

  /** The entries of the mapping are exactly the entries of the steps that are
      not dropped. */
  lemma {:induction false} BuildMappingMembers(pending: seq<FormStepJson>, sorted: seq<FormStepJson>, progressIds: set<Option<string>>)
    ensures forall m :: m in BuildMapping(pending, sorted, progressIds) <==>
      exists i | 0 <= i < |pending| :: MappingEntry(sorted, pending[i], progressIds) == Some(m)
  {
    if |pending| > 0 {
      BuildMappingMembers(pending[1..], sorted, progressIds);
      assert forall i | 1 <= i < |pending| :: pending[i] == pending[1..][i - 1];
    }
  }

  /** The mapping's step ids appear in the order of the steps. */
  lemma {:induction false} BuildMappingOrder(pending: seq<FormStepJson>, sorted: seq<FormStepJson>, progressIds: set<Option<string>>)
    ensures IsSubsequence(MapSeq(MappingStepId, BuildMapping(pending, sorted, progressIds)), MapSeq(FormSlug, pending))
  {
    if |pending| > 0 {
      var rest := BuildMapping(pending[1..], sorted, progressIds);
      var slugs := MapSeq(FormSlug, pending);
      BuildMappingOrder(pending[1..], sorted, progressIds);
      assert slugs[1..] == MapSeq(FormSlug, pending[1..]);
      match MappingEntry(sorted, pending[0], progressIds)
      case None =>
        SubsequenceExtend(MapSeq(MappingStepId, rest), slugs);
      case Some(m) =>
        assert MapSeq(MappingStepId, [m] + rest)[1..] == MapSeq(MappingStepId, rest);
    }
  }

  /** When no step is dropped, the mapping has one entry per step, in step
      order. */
  lemma {:induction false} BuildMappingComplete(pending: seq<FormStepJson>, sorted: seq<FormStepJson>, progressIds: set<Option<string>>)
    requires forall i | 0 <= i < |pending| :: MappingEntry(sorted, pending[i], progressIds).Some?
    ensures var r := BuildMapping(pending, sorted, progressIds);
      |r| == |pending| && forall i | 0 <= i < |r| :: Some(r[i]) == MappingEntry(sorted, pending[i], progressIds)
  {
    if |pending| > 0 {
      assert forall i | 1 <= i < |pending| :: pending[i] == pending[1..][i - 1];
      BuildMappingComplete(pending[1..], sorted, progressIds);
    }
  }

  /** When form-step slugs are distinct, a step gets a mapping entry exactly
      when its own `progressStepId` is non-empty and names a progress step,
      and the entry carries that id. */
  lemma MappingEntryDistinctSlugs(sorted: seq<FormStepJson>, i: nat, progressIds: set<Option<string>>)
    requires i < |sorted|
    requires forall a, b | 0 <= a < b < |sorted| :: sorted[a].slug != sorted[b].slug
    ensures MappingEntry(sorted, sorted[i], progressIds)
         == if StringTruthy(sorted[i].progressStepId) && sorted[i].progressStepId in progressIds
            then Some(StepProgressMapping(sorted[i].slug, sorted[i].progressStepId.value))
            else None
  {
    var k := FindSlugIndex(sorted, sorted[i].slug);
    assert k.Some? && k.value <= i;
  }

  // ---------------------------------------------------------------------------
  // Render conditions and display values
  // ---------------------------------------------------------------------------

  function CopyCondition(c: ConditionJson): Condition {
    Condition(c.field, c.operator, c.value)
  }

  /** Structural copy of a render condition; `None` when its `conditions`
      list is missing, where the source's `.map` throws. */
  function TransformRenderCondition(rc: RenderConditionJson): (r: Option<RenderCondition>)
    ensures r.Some? <==> rc.conditions.Some?
    ensures r.Some? ==> r.value.logicalOperator == rc.logicalOperator
    ensures r.Some? ==> |r.value.conditions| == |rc.conditions.value|
    ensures r.Some? ==> forall i | 0 <= i < |r.value.conditions| ::
      var c := rc.conditions.value[i];
      r.value.conditions[i].field == c.field && r.value.conditions[i].operator == c.operator
      && r.value.conditions[i].value == c.value
  {
    match rc.conditions
    case None => None
    case Some(cs) => Some(RenderCondition(MapSeq(CopyCondition, cs), rc.logicalOperator))
  }

  /** `answers[field]`; a missing key reads as `undefined`. */
  function Lookup(answers: map<string, JsValue>, field: string): JsValue {
    if field in answers then answers[field] else Undefined
  }

  /** One clause of a display-value condition. */
  function ClauseHolds(c: ConditionJson, answers: map<string, JsValue>): (r: bool)
    ensures c.operator == "equals" ==> (r <==> Lookup(answers, c.field) == c.value)
    ensures c.operator == "notEquals" ==>
      (r <==> !IsNullish(Lookup(answers, c.field)) && Lookup(answers, c.field) != Str("")
              && Lookup(answers, c.field) != c.value)
    ensures c.operator == "greaterThan" ==>
      (r <==> NumberLess(ToNumber(c.value), ToNumber(Lookup(answers, c.field))))
    ensures c.operator == "lessThan" ==>
      (r <==> NumberLess(ToNumber(Lookup(answers, c.field)), ToNumber(c.value)))
    ensures c.operator !in {"equals", "notEquals", "greaterThan", "lessThan"} ==> r
  {
    var fieldValue := Lookup(answers, c.field);
    match ParseOperator(c.operator)
    case None => true
    case Some(NotEquals) => !IsNullish(fieldValue) && fieldValue != Str("") && fieldValue != c.value
    case Some(Equals) => fieldValue == c.value
    case Some(GreaterThan) => NumberLess(ToNumber(c.value), ToNumber(fieldValue))
    case Some(LessThan) => NumberLess(ToNumber(fieldValue), ToNumber(c.value))
  }

  /** A `greaterThan` clause whose value is the text of an integer compares
      a numeric answer with that integer, as `Number` reads the text back. */
  lemma GreaterThanNumberText(c: ConditionJson, answers: map<string, JsValue>, n: int, m: int)
    requires c.operator == "greaterThan" && Lookup(answers, c.field) == Num(n)
    requires c.value == Str(IntToString(m))
    ensures ClauseHolds(c, answers) <==> n > m
  {
    StringToNumberOfInt(m);
  }

  /** `cs.every(c => ClauseHolds(c))`. */
  function AllClausesHold(cs: seq<ConditionJson>, answers: map<string, JsValue>): (r: bool)
    ensures r <==> forall i | 0 <= i < |cs| :: ClauseHolds(cs[i], answers)
  {
    if |cs| == 0 then true
    else
      assert forall i | 1 <= i < |cs| :: cs[i] == cs[1..][i - 1];
      ClauseHolds(cs[0], answers) && AllClausesHold(cs[1..], answers)
  }

  /** The compiled `condition` closure: true when no clause is declared,
      otherwise the conjunction of the clauses. */
  function DisplayCondition(d: DisplayValue, answers: map<string, JsValue>): (r: bool)
    ensures d.spec.condition.None? || |d.spec.condition.value| == 0 ==> r
    ensures r <==> forall c | c in d.spec.condition.GetOr([]) :: ClauseHolds(c, answers)
  {
    match d.spec.condition
    case None => true
    case Some(cs) => |cs| == 0 || AllClausesHold(cs, answers)
  }

  /** The compiled `calculate` closure. Only a `bmi` calculation with at least
      three fields whose answers are all present yields a value; every other
      case (no calculation, `weeksToGoal`, `custom`, unknown type, too few
      fields, a missing answer) is the empty-string sentinel. */
  function DisplayCalculate(d: DisplayValue, answers: map<string, JsValue>): (r: Calculated)
    ensures d.spec.calculate.None? ==> r == EmptySentinel
    ensures d.spec.calculate.Some? && ParseCalculationType(d.spec.calculate.value.calcType) != Some(Bmi)
      ==> r == EmptySentinel
    ensures r.BmiOf? <==>
      d.spec.calculate.Some? && d.spec.calculate.value.calcType == "bmi"
      && d.spec.calculate.value.fields.Some? && |d.spec.calculate.value.fields.value| >= 3
      && !IsNullish(Lookup(answers, d.spec.calculate.value.fields.value[0]))
      && !IsNullish(Lookup(answers, d.spec.calculate.value.fields.value[1]))
      && !IsNullish(Lookup(answers, d.spec.calculate.value.fields.value[2]))
    ensures r.BmiOf? ==>
      var fs := d.spec.calculate.value.fields.value;
      r == BmiOf(Lookup(answers, fs[0]), Lookup(answers, fs[1]), Lookup(answers, fs[2]))
  {
    match d.spec.calculate
    case None => EmptySentinel
    case Some(calculation) =>
      if ParseCalculationType(calculation.calcType) == Some(Bmi) && calculation.fields.Some? && |calculation.fields.value| >= 3 then
        var feet := Lookup(answers, calculation.fields.value[0]);
        var inches := Lookup(answers, calculation.fields.value[1]);
        var weight := Lookup(answers, calculation.fields.value[2]);
        if IsNullish(feet) || IsNullish(inches) || IsNullish(weight) then EmptySentinel
        else BmiOf(feet, inches, weight)
      else
        EmptySentinel
  }

  /** `undefined` for a missing display value; otherwise the compiled closures
      over the JSON and a template that is never empty. */
  function TransformDisplayValue(dv: Option<DisplayValueJson>): (r: Option<DisplayValue>)
    ensures r.Some? <==> dv.Some?
    ensures r.Some? ==> r.value.spec == dv.value && r.value.template != ""
    ensures r.Some? && StringTruthy(dv.value.template) ==> r.value.template == dv.value.template.value
    ensures r.Some? && !StringTruthy(dv.value.template) ==> r.value.template == DefaultTemplate
  {
    match dv
    case None => None
    case Some(spec) => Some(DisplayValue(spec, StringOr(spec.template, DefaultTemplate)))
  }

  // ---------------------------------------------------------------------------
  // Questions
  // ---------------------------------------------------------------------------

  /** `(type || '').toLowerCase()`, the tag stored on the base question. */
  function LowerTypeTag(q: QuestionJson): string {
    ToLower(StringOr(q.typeTag, ""))
  }

  /** The tag the type-specific branch is chosen by. */
  function DispatchTag(q: QuestionJson): string {
    ToUpper(LowerTypeTag(q))
  }

  /** `opt.label || String(opt.value)`. */
  function OptionLabel(o: QuestionOptionJson): string {
    StringOr(o.labelText, JsToString(o.value))
  }

  function OptionValue(o: QuestionOptionJson): JsValue { o.value }

  /** The raw options after the stable sort by `option_order || 0`. */
  function SortedOptions(q: QuestionJson): seq<QuestionOptionJson> {
    SortBy(q.options.GetOr([]), OptionSortKey)
  }

  /** Values and labels are index-aligned: position `i` of both comes from
      the `i`-th option in sorted order. */
  predicate OptionsAligned(q: QuestionJson, values: seq<JsValue>, labels: seq<string>) {
    var sorted := SortedOptions(q);
    && |values| == |labels| == |q.options.GetOr([])|
    && forall i | 0 <= i < |values| :: values[i] == sorted[i].value && labels[i] == OptionLabel(sorted[i])
  }

  /** Option values and labels of a choice or dropdown question. */
  function OptionLists(q: QuestionJson): (r: (seq<JsValue>, seq<string>))
    ensures OptionsAligned(q, r.0, r.1)
    ensures multiset(r.0) == multiset(MapSeq(OptionValue, q.options.GetOr([])))
  {
    var sorted := SortedOptions(q);
    MapSeqPermutation(OptionValue, sorted, q.options.GetOr([]));
    (MapSeq(OptionValue, sorted), MapSeq(OptionLabel, sorted))
  }

  function TransformQuestion(q: QuestionJson): (r: FormQuestion)
    ensures r.id == q.slug
    ensures r.required == ResolvedRequired(q)
    ensures r.displayQuestion == q.displayQuestion.OrElse(q.display_question)
    ensures DispatchTag(q) == ToUpper(StringOr(q.typeTag, ""))
    ensures DispatchTag(q) in NamedTags ==> r.questionType == ToUpper(StringOr(q.typeTag, ""))
    ensures DispatchTag(q) !in NamedTags ==>
      r.questionType == ToLower(StringOr(q.typeTag, "")) && r.payload == TextPayload(q.icon)
    ensures DispatchTag(q) == "FILE_INPUT" ==> r.apiType == Some("FILE") && r.payload == FileInputPayload
    ensures DispatchTag(q) != "FILE_INPUT" ==> r.apiType == q.apiType.OrElse(q.api_type)
    ensures r.payload.ChoicePayload? <==> DispatchTag(q) in ChoiceTags
    ensures r.payload.DropdownPayload? <==> DispatchTag(q) == "DROPDOWN"
    ensures r.payload.ChoicePayload? || r.payload.DropdownPayload? ==>
      OptionsAligned(q, r.payload.options, r.payload.optionLabels)
    ensures r.payload.ChoicePayload? ==>
      r.payload.displayAsRow == q.displayAsRow.OrElse(q.display_as_row).GetOr(true)
      && r.payload.optionImages == q.optionImages.OrElse(q.option_images)
      && r.payload.image == q.image
    ensures DispatchTag(q) == "MEDICAL_REVIEW" ==>
      r.payload == MedicalReviewPayload(q.calculatedValues, StringOr(q.candidateStatement, ""))
    ensures DispatchTag(q) == "MARKETING" ==>
      r.payload == MarketingPayload(q.image, q.displayStatistics.OrElse(q.display_statistics))
    ensures DispatchTag(q) == "BEFORE_AFTER" ==>
      r.payload == BeforeAfterPayload(q.beforeImage.OrElse(q.before_image), q.afterImage.OrElse(q.after_image), q.quote)
    ensures DispatchTag(q) == "PERFECT" ==> r.payload == PerfectPayload(q.heading1, q.dynamicSubtext, q.subtext)
    ensures DispatchTag(q) == "WEIGHT_SUMMARY" ==> r.payload == WeightSummaryPayload
    ensures StringTruthy(q.placeholder) ==> r.placeholder == q.placeholder
    ensures !StringTruthy(q.placeholder) ==> r.placeholder.None?
    ensures r.question == q.question && r.validation == q.validation && r.dynamicText == q.dynamicText
  {
    var lower := LowerTypeTag(q);
    var tag := ToUpper(lower);
    UpperOfLower(StringOr(q.typeTag, ""));
    FormQuestion(
      q.slug, q.question, q.displayQuestion.OrElse(q.display_question), ResolvedRequired(q),
      if tag in NamedTags then tag else lower, FalsyToNone(q.placeholder),
      if tag == "FILE_INPUT" then Some("FILE") else q.apiType.OrElse(q.api_type),
      q.validation, q.dynamicText, TypedPayload(q, tag))
  }

  /** The payload of the cases that carry an option list: the three choice
      tags and `DROPDOWN`. */
  function OptionPayload(q: QuestionJson, tag: string): (p: QuestionPayload)
    requires tag in ChoiceTags || tag == "DROPDOWN"
    ensures p.ChoicePayload? <==> tag in ChoiceTags
    ensures p.DropdownPayload? <==> tag == "DROPDOWN"
    ensures OptionsAligned(q, p.options, p.optionLabels)
    ensures p.ChoicePayload? ==>
      p.displayAsRow == q.displayAsRow.OrElse(q.display_as_row).GetOr(true)
      && p.optionImages == q.optionImages.OrElse(q.option_images)
      && p.image == q.image
  {
    var (values, labels) := OptionLists(q);
    if tag in ChoiceTags then
      ChoicePayload(values, labels, q.displayAsRow.OrElse(q.display_as_row).GetOr(true),
        q.image, q.optionImages.OrElse(q.option_images))
    else
      DropdownPayload(values, labels)
  }

  /** The payload of every tag without an option list: each named case its
      own, every other tag the text payload of the base question. */
  function PlainPayload(q: QuestionJson, tag: string): (p: QuestionPayload)
    requires tag !in ChoiceTags && tag != "DROPDOWN"
    ensures !p.ChoicePayload? && !p.DropdownPayload?
    ensures tag !in NamedTags ==> p == TextPayload(q.icon)
    ensures tag == "FILE_INPUT" ==> p == FileInputPayload
    ensures tag == "MEDICAL_REVIEW" ==> p == MedicalReviewPayload(q.calculatedValues, StringOr(q.candidateStatement, ""))
    ensures tag == "MARKETING" ==> p == MarketingPayload(q.image, q.displayStatistics.OrElse(q.display_statistics))
    ensures tag == "BEFORE_AFTER" ==>
      p == BeforeAfterPayload(q.beforeImage.OrElse(q.before_image), q.afterImage.OrElse(q.after_image), q.quote)
    ensures tag == "PERFECT" ==> p == PerfectPayload(q.heading1, q.dynamicSubtext, q.subtext)
    ensures tag == "WEIGHT_SUMMARY" ==> p == WeightSummaryPayload
  {
    if tag == "MARKETING" then MarketingPayload(q.image, q.displayStatistics.OrElse(q.display_statistics))
    else if tag == "BEFORE_AFTER" then
      BeforeAfterPayload(q.beforeImage.OrElse(q.before_image), q.afterImage.OrElse(q.after_image), q.quote)
    else if tag == "FILE_INPUT" then FileInputPayload
    else if tag == "MEDICAL_REVIEW" then MedicalReviewPayload(q.calculatedValues, StringOr(q.candidateStatement, ""))
    else if tag == "PERFECT" then PerfectPayload(q.heading1, q.dynamicSubtext, q.subtext)
    else if tag == "WEIGHT_SUMMARY" then WeightSummaryPayload
    else TextPayload(q.icon)
  }

  /** The payload the `switch` on the upper-case tag builds: each named
      case its own, every other tag the text payload of the base question. */
  function TypedPayload(q: QuestionJson, tag: string): (p: QuestionPayload)
    ensures p.ChoicePayload? <==> tag in ChoiceTags
    ensures p.DropdownPayload? <==> tag == "DROPDOWN"
    ensures p.ChoicePayload? || p.DropdownPayload? ==> OptionsAligned(q, p.options, p.optionLabels)
    ensures p.ChoicePayload? ==>
      p.displayAsRow == q.displayAsRow.OrElse(q.display_as_row).GetOr(true)
      && p.optionImages == q.optionImages.OrElse(q.option_images)
      && p.image == q.image
    ensures tag !in NamedTags ==> p == TextPayload(q.icon)
    ensures tag == "FILE_INPUT" ==> p == FileInputPayload
    ensures tag == "MEDICAL_REVIEW" ==> p == MedicalReviewPayload(q.calculatedValues, StringOr(q.candidateStatement, ""))
    ensures tag == "MARKETING" ==> p == MarketingPayload(q.image, q.displayStatistics.OrElse(q.display_statistics))
    ensures tag == "BEFORE_AFTER" ==>
      p == BeforeAfterPayload(q.beforeImage.OrElse(q.before_image), q.afterImage.OrElse(q.after_image), q.quote)
    ensures tag == "PERFECT" ==> p == PerfectPayload(q.heading1, q.dynamicSubtext, q.subtext)
    ensures tag == "WEIGHT_SUMMARY" ==> p == WeightSummaryPayload
  {
    if tag in ChoiceTags || tag == "DROPDOWN" then OptionPayload(q, tag) else PlainPayload(q, tag)
  }

  // ---------------------------------------------------------------------------
  // Form steps
  // ---------------------------------------------------------------------------

  /** True when the source's `transformFormStep` runs without throwing. */
  predicate FormStepTransforms(s: FormStepJson) {
    && s.questions.Some?
    && (ResolvedRenderCondition(s).Some? ==> ResolvedRenderCondition(s).value.conditions.Some?)
  }

  function TransformFormStep(s: FormStepJson): (r: Option<FormStep>)
    ensures r.Some? <==> FormStepTransforms(s)
    ensures r.Some? ==> r.value.id == s.slug
    ensures r.Some? ==> r.value.questionSubtext == r.value.subtext == FalsyToNone(s.subtext)
    ensures r.Some? ==> |r.value.questions| == |s.questions.value|
    ensures r.Some? ==> forall i | 0 <= i < |r.value.questions| ::
      r.value.questions[i] == TransformQuestion(SortBy(s.questions.value, QuestionSortKey)[i])
    ensures r.Some? && s.renderCondition.Some? ==>
      r.value.renderCondition == TransformRenderCondition(s.renderCondition.value)
    ensures r.Some? && s.renderCondition.None? && s.render_condition.Some? ==>
      r.value.renderCondition == TransformRenderCondition(s.render_condition.value)
    ensures r.Some? && ResolvedRenderCondition(s).None? ==> r.value.renderCondition.None?
    ensures r.Some? ==> r.value.displayValue == TransformDisplayValue(s.displayValue)
    ensures r.Some? ==> r.value.title == s.title && r.value.heading1 == s.heading1 && r.value.heading2 == s.heading2
    ensures r.Some? ==> r.value.showTrustBadges == s.showTrustBadges && r.value.headingsInline == s.headingsInline
    ensures r.Some? ==> r.value.dynamicTitle == s.dynamicTitle && r.value.dynamicHeading1 == s.dynamicHeading1
    ensures r.Some? ==> r.value.dynamicHeading2 == s.dynamicHeading2 && r.value.dynamicSubtext == s.dynamicSubtext
  {
    if !FormStepTransforms(s) then
      None
    else
      var renderCondition :=
        match ResolvedRenderCondition(s)
        case None => None
        case Some(rc) => TransformRenderCondition(rc);
      var questions := MapSeq(TransformQuestion, SortBy(s.questions.value, QuestionSortKey));
      Some(FormStep(
        s.slug, s.title, s.heading1, s.heading2, FalsyToNone(s.subtext), FalsyToNone(s.subtext),
        renderCondition, s.showTrustBadges, s.headingsInline,
        s.dynamicTitle, s.dynamicHeading1, s.dynamicHeading2, s.dynamicSubtext,
        TransformDisplayValue(s.displayValue), questions))
  }

  /** Transforms every step, failing if any step fails. */
  function TransformFormSteps(steps: seq<FormStepJson>): (r: Option<seq<FormStep>>)
    ensures r.Some? <==> forall s | s in steps :: FormStepTransforms(s)
    ensures r.Some? ==> |r.value| == |steps|
    ensures r.Some? ==> forall i | 0 <= i < |steps| :: Some(r.value[i]) == TransformFormStep(steps[i])
  {
    var r := MapAll(TransformFormStep, steps);
    assert (forall i | 0 <= i < |steps| :: TransformFormStep(steps[i]).Some?)
       <==> forall s | s in steps :: FormStepTransforms(s);
    r
  }

  // ---------------------------------------------------------------------------
  // Quizzes
  // ---------------------------------------------------------------------------

  /** True when the source's `transformQuizJsonToQuizConfig` runs without throwing. */
  predicate QuizTransforms(q: QuizJsonQuiz) {
    && q.progressSteps.Some?
    && q.formSteps.Some?
    && forall s | s in q.formSteps.value :: FormStepTransforms(s)
  }

  function TransformQuiz(q: QuizJsonQuiz): (r: Option<QuizConfig>)
    ensures r.Some? <==> QuizTransforms(q)
    ensures r.Some? ==> r.value.id == q.slug && r.value.metadata == q.metadata
    ensures r.Some? ==> r.value.name == q.name && r.value.description == q.description && r.value.version == q.version
    ensures r.Some? ==> r.value.progressSteps == TransformProgressSteps(q.progressSteps.value)
    ensures r.Some? ==> Some(r.value.steps) == TransformFormSteps(SortBy(q.formSteps.value, FormStepSortKey))
    ensures r.Some? ==> var sorted := SortBy(q.formSteps.value, FormStepSortKey);
      r.value.stepProgressMapping == BuildMapping(sorted, sorted, ProgressIdSet(r.value.progressSteps))
    ensures r.Some? ==> |r.value.progressSteps| == |q.progressSteps.value|
    ensures r.Some? ==> |r.value.steps| == |q.formSteps.value|
    ensures r.Some? ==> |r.value.stepProgressMapping| <= |r.value.steps|
    ensures r.Some? ==> forall j | 0 <= j < |r.value.stepProgressMapping| ::
      Some(r.value.stepProgressMapping[j].progressStepId) in ProgressIdSet(r.value.progressSteps)
  {
    if !QuizTransforms(q) then
      None
    else
      var progressSteps := TransformProgressSteps(q.progressSteps.value);
      var sorted := SortBy(q.formSteps.value, FormStepSortKey);
      assert forall s | s in sorted :: s in multiset(q.formSteps.value);
      var steps := TransformFormSteps(sorted).value;
      var mapping := BuildMapping(sorted, sorted, ProgressIdSet(progressSteps));
      Some(QuizConfig(q.slug, q.name, q.description, q.version, progressSteps, mapping, steps, q.metadata))
  }

  /** The successful transforms, in input order; failing quizzes are dropped. */
  function TransformAll(quizzes: seq<QuizJsonQuiz>): (r: seq<QuizConfig>)
    ensures |r| <= |quizzes|
    ensures var idx := SuccessIndices(TransformQuiz, quizzes);
      |r| == |idx| && forall j | 0 <= j < |r| :: Some(r[j]) == TransformQuiz(quizzes[idx[j]])
    ensures forall c | c in r :: exists i | 0 <= i < |quizzes| :: TransformQuiz(quizzes[i]) == Some(c)
    ensures (forall i | 0 <= i < |quizzes| :: QuizTransforms(quizzes[i])) ==>
      |r| == |quizzes| && forall i | 0 <= i < |r| :: Some(r[i]) == TransformQuiz(quizzes[i])
  {
    FilterMapSuccesses(TransformQuiz, quizzes);
    FilterMap(TransformQuiz, quizzes)
  }

  /** `transformQuizzesFromData`: no `quizzes` array means no quizzes. */
  function TransformQuizzesFromData(data: QuizJson): (r: seq<QuizConfig>)
    ensures data.quizzes.None? ==> r == []
    ensures data.quizzes.Some? ==> r == TransformAll(data.quizzes.value)
    ensures data.quizzes.Some? ==> |r| <= |data.quizzes.value|
    ensures data.quizzes.Some? ==> forall c | c in r :: exists q | q in data.quizzes.value :: TransformQuiz(q) == Some(c)
  {
    match data.quizzes
    case None => []
    case Some(qs) => TransformAll(qs)
  }

  /** `loadQuizzesFromJson`: the build-time document, when there is one, transformed. */
  function LoadQuizzesFromJson(doc: Option<QuizJson>): (r: seq<QuizConfig>)
    ensures doc.None? || doc.value.quizzes.None? ==> r == []
    ensures doc.Some? ==> r == TransformQuizzesFromData(doc.value)
    ensures forall c | c in r :: exists q | q in doc.value.quizzes.value :: TransformQuiz(q) == Some(c)
  {
    match doc
    case None => []
    case Some(data) => TransformQuizzesFromData(data)
  }

  /** A configuration is in the batch exactly when some input quiz transforms
      to it: nothing is invented and no successful transform is lost. */
  lemma TransformAllMembers(quizzes: seq<QuizJsonQuiz>)
    ensures forall c :: c in TransformAll(quizzes) <==>
      exists i | 0 <= i < |quizzes| :: TransformQuiz(quizzes[i]) == Some(c)
  {
    var r := TransformAll(quizzes);
    var idx := SuccessIndices(TransformQuiz, quizzes);
    forall c | exists i | 0 <= i < |quizzes| :: TransformQuiz(quizzes[i]) == Some(c)
      ensures c in r
    {
      var i :| 0 <= i < |quizzes| && TransformQuiz(quizzes[i]) == Some(c);
      assert i in idx;
      var j :| 0 <= j < |idx| && idx[j] == i;
      assert Some(r[j]) == Some(c);
    }
  }

  /** The loaded configurations are exactly the transforms of the document's
      quizzes that succeed. */
  lemma LoadedQuizzesMembers(doc: Option<QuizJson>)
    ensures forall c :: c in LoadQuizzesFromJson(doc) <==>
      doc.Some? && doc.value.quizzes.Some? &&
      exists i | 0 <= i < |doc.value.quizzes.value| :: TransformQuiz(doc.value.quizzes.value[i]) == Some(c)
  {
    if doc.Some? && doc.value.quizzes.Some? {
      assert LoadQuizzesFromJson(doc) == TransformAll(doc.value.quizzes.value);
      TransformAllMembers(doc.value.quizzes.value);
    } else {
      assert LoadQuizzesFromJson(doc) == [];
    }
  }

  /** The steps and the mapping follow any stable sort of the raw form steps
      by `order || step_order || 0`. */
  lemma QuizStepsFollowAnyStableSort(q: QuizJsonQuiz, sorted: seq<FormStepJson>)
    requires QuizTransforms(q)
    requires StableSortOf(sorted, q.formSteps.value, FormStepSortKey)
    ensures Some(TransformQuiz(q).value.steps) == TransformFormSteps(sorted)
    ensures TransformQuiz(q).value.stepProgressMapping
         == BuildMapping(sorted, sorted, ProgressIdSet(TransformProgressSteps(q.progressSteps.value)))
  {
    SortByIsTheStableSort(q.formSteps.value, sorted, FormStepSortKey);
  }

  /** `quizzes.find(q => q.id === id)`. */
  function FindQuiz(quizzes: seq<QuizConfig>, id: string): (r: Option<QuizConfig>)
    ensures r.Some? ==> r.value in quizzes && r.value.id == Some(id)
    ensures r.Some? ==> exists i | 0 <= i < |quizzes| ::
      quizzes[i] == r.value && forall j | 0 <= j < i :: quizzes[j].id != Some(id)
    ensures r.None? <==> forall c | c in quizzes :: c.id != Some(id)
  {
    if |quizzes| == 0 then None
    else if quizzes[0].id == Some(id) then Some(quizzes[0])
    else
      var r := FindQuiz(quizzes[1..], id);
      assert forall c | c in quizzes :: c == quizzes[0] || c in quizzes[1..];
      if r.Some? then
        var i :| 0 <= i < |quizzes[1..]| && quizzes[1..][i] == r.value
                 && forall j | 0 <= j < i :: quizzes[1..][j].id != Some(id);
        assert quizzes[i + 1] == r.value;
        r
      else
        r
  }

  /** `getQuizBySlugFromJson`. */
  function GetQuizBySlugFromJson(doc: Option<QuizJson>, slug: string): (r: Option<QuizConfig>)
    ensures r.Some? ==> r.value in LoadQuizzesFromJson(doc) && r.value.id == Some(slug)
    ensures r.Some? ==> exists i | 0 <= i < |LoadQuizzesFromJson(doc)| ::
      LoadQuizzesFromJson(doc)[i] == r.value && forall j | 0 <= j < i :: LoadQuizzesFromJson(doc)[j].id != Some(slug)
    ensures r.None? <==> forall c | c in LoadQuizzesFromJson(doc) :: c.id != Some(slug)
  {
    FindQuiz(LoadQuizzesFromJson(doc), slug)
  }
}

=== FILE: validate.dfy ===
/** The quiz validator (utils/intake-form/validateQuizJson.ts): structural
    and referential checks over a raw quiz record that produce readable error
    and warning messages. Each check comes with a declarative statement of
    the rule it enforces, and every error list is empty exactly when its
    rule holds. */
module QuizValidate {
  import opened Wrappers
  import opened JsValues
  import opened Sequences
  import opened RawQuiz
  import opened Formats
  import opened Duplicates

  // ---------------------------------------------------------------------------
  // Shared checks
  // ---------------------------------------------------------------------------

  function NotUrlSafe(kind: string, slug: string): string {
    kind + " slug \"" + slug + "\" is not URL-safe"
  }

  /** A slug that is required and must be URL-safe: the missing message when
      it is falsy, the URL-safety message when it has other characters. */
  function SlugErrors(slug: Option<string>, missing: string, kind: string): (r: seq<string>)
    ensures |r| <= 1
    ensures r == [] <==> StringTruthy(slug) && IsValidSlug(slug.value)
    ensures !StringTruthy(slug) ==> r == [missing]
  {
    if !StringTruthy(slug) then [missing]
    else if !IsValidSlug(slug.value) then [NotUrlSafe(kind, slug.value)]
    else []
  }

  /** One message listing the repeated values, or nothing when none repeats. */
  function DuplicateErrors(prefix: string, values: seq<Option<string>>): (r: seq<string>)
    ensures |r| <= 1
    ensures r == [] <==> NoRepeats(values)
    ensures r != [] ==> r == [prefix + Join(FindDuplicates(values), ", ")]
  {
    FindDuplicatesEmpty(values);
    var d := FindDuplicates(values);
    if |d| > 0 then [prefix + Join(d, ", ")] else []
  }

  // ---------------------------------------------------------------------------
  // Questions
  // ---------------------------------------------------------------------------

  /** The question types whose options are checked. */
  const OptionTags: seq<string> := ["SINGLESELECT", "MULTISELECT", "CHECKBOX", "DROPDOWN"]

  /** The question type upper-cased, the empty string when it is falsy. */
  function UpperTypeTag(q: QuestionJson): string {
    ToUpper(StringOr(q.typeTag, ""))
  }

  /** Messages for the option at zero-based position `k` (reported 1-based). */
  function OptionValueMessage(k: nat): string {
    "Option " + NatToString(k + 1) + " is missing value"
  }

  function OptionLabelMessage(k: nat): string {
    "Option " + NatToString(k + 1) + " is missing label"
  }

  function OptionsRequiredMessage(tag: string): string {
    "Question type \"" + tag + "\" requires options"
  }

  /** Every option needs a truthy value (so the number 0 and "" fail) and a
      truthy label; each message names a failing option and each failure is
      reported. */
  function OptionErrorsFrom(options: seq<QuestionOptionJson>, i: nat): (r: seq<string>)
    requires i <= |options|
    decreases |options| - i
    ensures forall m | m in r :: exists k | i <= k < |options| ::
      (m == OptionValueMessage(k) && !Truthy(options[k].value))
      || (m == OptionLabelMessage(k) && !StringTruthy(options[k].labelText))
    ensures forall k | i <= k < |options| && !Truthy(options[k].value) :: OptionValueMessage(k) in r
    ensures forall k | i <= k < |options| && !StringTruthy(options[k].labelText) :: OptionLabelMessage(k) in r
  {
    if i == |options| then []
    else
      (if !Truthy(options[i].value) then [OptionValueMessage(i)] else [])
      + (if !StringTruthy(options[i].labelText) then [OptionLabelMessage(i)] else [])
      + OptionErrorsFrom(options, i + 1)
  }

  /** The rules a question must meet, stated declaratively. */
  predicate QuestionRulesHold(q: QuestionJson) {
    && StringTruthy(q.slug) && IsValidSlug(q.slug.value)
    && StringTruthy(q.typeTag)
    && (UpperTypeTag(q) in OptionTags ==>
          q.options.Some? && |q.options.value| > 0
          && forall o | o in q.options.value :: Truthy(o.value) && StringTruthy(o.labelText))
    && (UpperTypeTag(q) == "MARKETING" ==> StringTruthy(q.image))
    && (UpperTypeTag(q) == "BEFORE_AFTER" ==>
          (StringTruthy(q.before_image) || StringTruthy(q.beforeImage))
          && (StringTruthy(q.after_image) || StringTruthy(q.afterImage)))
  }

  function QuestionOptionErrors(q: QuestionJson): (r: seq<string>)
    ensures r == [] <==> (UpperTypeTag(q) in OptionTags ==>
      q.options.Some? && |q.options.value| > 0
      && forall o | o in q.options.value :: Truthy(o.value) && StringTruthy(o.labelText))
  {
    var tag := UpperTypeTag(q);
    if tag !in OptionTags then []
    else if q.options.None? || |q.options.value| == 0 then [OptionsRequiredMessage(tag)]
    else
      var options := q.options.value;
      var r := OptionErrorsFrom(options, 0);
      assert r != [] ==> exists o | o in options :: !Truthy(o.value) || !StringTruthy(o.labelText) by {
        if r != [] {
          assert r[0] in r;
        }
      }
      assert (exists o | o in options :: !Truthy(o.value) || !StringTruthy(o.labelText)) ==> r != [] by {
        if o :| o in options && (!Truthy(o.value) || !StringTruthy(o.labelText)) {
          var k :| 0 <= k < |options| && options[k] == o;
          assert OptionValueMessage(k) in r || OptionLabelMessage(k) in r;
        }
      }
      r
  }

  /** `MARKETING question type requires image` and its `BEFORE_AFTER` kin. */
  function ImageRequired(tag: string, field: string): string {
    tag + " question type requires " + field
  }

  function QuestionImageErrors(q: QuestionJson): (r: seq<string>)
    ensures r == [] <==>
      && (UpperTypeTag(q) == "MARKETING" ==> StringTruthy(q.image))
      && (UpperTypeTag(q) == "BEFORE_AFTER" ==>
            (StringTruthy(q.before_image) || StringTruthy(q.beforeImage))
            && (StringTruthy(q.after_image) || StringTruthy(q.afterImage)))
  {
    var tag := UpperTypeTag(q);
    (if tag == "MARKETING" && !StringTruthy(q.image)
     then [ImageRequired("MARKETING", "image")] else [])
    + (if tag == "BEFORE_AFTER" && !StringTruthy(q.before_image) && !StringTruthy(q.beforeImage)
       then [ImageRequired("BEFORE_AFTER", "beforeImage")] else [])
    + (if tag == "BEFORE_AFTER" && !StringTruthy(q.after_image) && !StringTruthy(q.afterImage)
       then [ImageRequired("BEFORE_AFTER", "afterImage")] else [])
  }

  /** `validateQuestion`: no message exactly when the question meets every
      rule; a choice-like question without options gets the options message
      and none about individual options; each failing option is named. */
  function ValidateQuestion(q: QuestionJson): (r: seq<string>)
    ensures r == [] <==> QuestionRulesHold(q)
    ensures !StringTruthy(q.slug) ==> "Question is missing slug" in r
    ensures !StringTruthy(q.typeTag) ==> "Question is missing type" in r
    ensures UpperTypeTag(q) in OptionTags && (q.options.None? || |q.options.value| == 0) ==>
      OptionsRequiredMessage(UpperTypeTag(q)) in r
      && forall k: nat :: OptionValueMessage(k) !in r && OptionLabelMessage(k) !in r
    ensures UpperTypeTag(q) in OptionTags && q.options.Some? ==>
      forall k | 0 <= k < |q.options.value| ::
        (!Truthy(q.options.value[k].value) ==> OptionValueMessage(k) in r)
        && (!StringTruthy(q.options.value[k].labelText) ==> OptionLabelMessage(k) in r)
  {
    var slug := SlugErrors(q.slug, "Question is missing slug", "Question");
    var typeErr := if !StringTruthy(q.typeTag) then ["Question is missing type"] else [];
    var opts := QuestionOptionErrors(q);
    var images := QuestionImageErrors(q);
    var r := slug + typeErr + opts + images;
    ConcatFour(slug, typeErr, opts, images);
    if UpperTypeTag(q) in OptionTags && (q.options.None? || |q.options.value| == 0) then
      OptionsInQuestionHaveNoPositions(q, slug, typeErr, opts, images);
      r
    else
      r
  }

  /** Membership and emptiness of a four-part message list. */
  lemma ConcatFour<T>(a: seq<T>, b: seq<T>, c: seq<T>, d: seq<T>)
    ensures a + b + c + d == [] <==> a == [] && b == [] && c == [] && d == []
    ensures forall x | x in a :: x in a + b + c + d
    ensures forall x | x in b :: x in a + b + c + d
    ensures forall x | x in c :: x in a + b + c + d
    ensures forall x | x in d :: x in a + b + c + d
  {
  }

  /** No option message comes out of a question whose options are missing:
      the slug, type, options-required and image messages all differ from
      "Option …" text. */
  lemma OptionsInQuestionHaveNoPositions(q: QuestionJson, slug: seq<string>, typeErr: seq<string>,
                                         opts: seq<string>, images: seq<string>)
    requires UpperTypeTag(q) in OptionTags && (q.options.None? || |q.options.value| == 0)
    requires slug == SlugErrors(q.slug, "Question is missing slug", "Question")
    requires typeErr == if !StringTruthy(q.typeTag) then ["Question is missing type"] else []
    requires opts == QuestionOptionErrors(q) && images == QuestionImageErrors(q)
    ensures forall k: nat :: OptionValueMessage(k) !in slug + typeErr + opts + images
                          && OptionLabelMessage(k) !in slug + typeErr + opts + images
  {
    assert images == [];
    assert opts == [OptionsRequiredMessage(UpperTypeTag(q))];
    forall k: nat ensures OptionValueMessage(k) !in slug + typeErr + opts + images
                       && OptionLabelMessage(k) !in slug + typeErr + opts + images {
      var v := OptionValueMessage(k);
      var l := OptionLabelMessage(k);
      assert v[0] == 'O' && l[0] == 'O';
      forall m | m in slug + typeErr + opts + images ensures m[0] == 'Q' {
        if m in slug && StringTruthy(q.slug) {
          assert m == NotUrlSafe("Question", q.slug.value);
        }
      }
    }
  }

  /** The options-required message comes out of a question once when its
      options are missing or empty and never otherwise. */
  lemma OptionsRequiredOnce(q: QuestionJson)
    ensures multiset(ValidateQuestion(q))[OptionsRequiredMessage(UpperTypeTag(q))]
         == if UpperTypeTag(q) in OptionTags && (q.options.None? || |q.options.value| == 0) then 1 else 0
  {
    var m := OptionsRequiredMessage(UpperTypeTag(q));
    var slug := SlugErrors(q.slug, "Question is missing slug", "Question");
    var typeErr := if !StringTruthy(q.typeTag) then ["Question is missing type"] else [];
    var opts := QuestionOptionErrors(q);
    var images := QuestionImageErrors(q);
    assert ValidateQuestion(q) == slug + typeErr + opts + images;
    OptionsRequiredShape(UpperTypeTag(q));
    SlugMessagesDiffer(q);
    ImageMessagesDiffer(q);
    TypeMessageDiffers();
    CountInThird(slug, typeErr, opts, images, m);
    if UpperTypeTag(q) in OptionTags && (q.options.None? || |q.options.value| == 0) {
      assert opts == [m];
    } else {
      OptionMessagesDiffer(q);
      assert m !in opts;
    }
  }

  lemma OptionsRequiredShape(tag: string)
    ensures |OptionsRequiredMessage(tag)| > 9 && OptionsRequiredMessage(tag)[0] == 'Q' && OptionsRequiredMessage(tag)[9] == 't'
  {
  }

  lemma TypeMessageDiffers()
    ensures "Question is missing type"[9] == 'i'
  {
  }

  /** The slug messages differ from "Question type …" at the tenth character. */
  lemma SlugMessagesDiffer(q: QuestionJson)
    ensures forall x | x in SlugErrors(q.slug, "Question is missing slug", "Question") :: |x| > 9 && x[9] != 't'
  {
    if StringTruthy(q.slug) && !IsValidSlug(q.slug.value) {
      assert NotUrlSafe("Question", q.slug.value)[9] == 's';
    }
  }

  /** The image messages start with the type name, not with "Question". */
  lemma ImageMessagesDiffer(q: QuestionJson)
    ensures forall x | x in QuestionImageErrors(q) :: |x| > 0 && x[0] != 'Q'
  {
    var marketing := ImageRequired("MARKETING", "image");
    var before := ImageRequired("BEFORE_AFTER", "beforeImage");
    var after := ImageRequired("BEFORE_AFTER", "afterImage");
    assert marketing[0] == 'M' && before[0] == 'B' && after[0] == 'B';
    assert forall x | x in QuestionImageErrors(q) :: x == marketing || x == before || x == after;
  }

  /** The per-option messages all start with "Option". */
  lemma OptionMessagesDiffer(q: QuestionJson)
    requires !(UpperTypeTag(q) in OptionTags && (q.options.None? || |q.options.value| == 0))
    ensures forall x | x in QuestionOptionErrors(q) :: |x| > 0 && x[0] == 'O'
  {
    if UpperTypeTag(q) in OptionTags {
      forall x | x in QuestionOptionErrors(q) ensures |x| > 0 && x[0] == 'O' {
        var k :| 0 <= k < |q.options.value| && (x == OptionValueMessage(k) || x == OptionLabelMessage(k));
      }
    }
  }

  lemma CountInThird<T>(a: seq<T>, b: seq<T>, c: seq<T>, d: seq<T>, m: T)
    requires m !in a && m !in b && m !in d
    ensures multiset(a + b + c + d)[m] == multiset(c)[m]
  {
    assert multiset(a)[m] == 0 && multiset(b)[m] == 0 && multiset(d)[m] == 0;
  }

  // ---------------------------------------------------------------------------
  // Progress steps
  // ---------------------------------------------------------------------------

  const NoProgressSteps := "Quiz must have at least one progress step"

  function ProgressMissingName(name: string): string { "Progress step \"" + name + "\" is missing name" }

  function ProgressInvalidColor(name: string): string { "Progress step \"" + name + "\" has invalid color" }

  function ProgressMissingOrder(name: string): string { "Progress step \"" + name + "\" is missing order" }

  /** A progress step's own rules; the order check fires only when both
      spellings are absent, so an explicit `null` order passes it. */
  predicate ProgressStepRulesHold(step: ProgressStepJson) {
    && StringTruthy(step.slug) && IsValidSlug(step.slug.value)
    && StringTruthy(step.name)
    && StringTruthy(step.color) && IsValidColor(step.color.value)
    && !(step.order.Missing? && step.step_order.Missing?)
  }

  /** The messages for one progress step at position `index`; a step is
      named by its slug, or by its position when the slug is falsy. */
  function ProgressStepErrors(step: ProgressStepJson, index: nat): (r: seq<string>)
    ensures r == [] <==> ProgressStepRulesHold(step)
    ensures !StringTruthy(step.name) ==> ProgressMissingName(SlugOrIndex(step.slug, index)) in r
    ensures !StringTruthy(step.color) ==> ProgressInvalidColor(SlugOrIndex(step.slug, index)) in r
    ensures step.order.Missing? && step.step_order.Missing? ==>
      ProgressMissingOrder(SlugOrIndex(step.slug, index)) in r
  {
    var name := SlugOrIndex(step.slug, index);
    SlugErrors(step.slug, "Progress step at index " + NatToString(index) + " is missing slug", "Progress step")
    + (if !StringTruthy(step.name) then [ProgressMissingName(name)] else [])
    + (if !StringTruthy(step.color) || !IsValidColor(step.color.value) then [ProgressInvalidColor(name)] else [])
    + (if step.order.Missing? && step.step_order.Missing? then [ProgressMissingOrder(name)] else [])
  }

  function EachProgressStepErrors(steps: seq<ProgressStepJson>): (r: seq<string>)
    ensures r == [] <==> forall k | 0 <= k < |steps| :: ProgressStepRulesHold(steps[k])
    ensures forall k, m | 0 <= k < |steps| && m in ProgressStepErrors(steps[k], k) :: m in r
  {
    ConcatMapIndexed((step, k) => ProgressStepErrors(step, k), steps)
  }

  /** The first position, from `i` on, whose value is not its 1-based index. */
  function FirstMismatch(orders: seq<int>, i: nat): (r: Option<nat>)
    requires i <= |orders|
    decreases |orders| - i
    ensures r.None? <==> forall j | i <= j < |orders| :: orders[j] == j + 1
    ensures r.Some? ==>
      (i <= r.value < |orders| && orders[r.value] != r.value + 1
       && forall j | i <= j < r.value :: orders[j] == j + 1)
  {
    if i == |orders| then None
    else if orders[i] != i + 1 then Some(i)
    else FirstMismatch(orders, i + 1)
  }

  function NotSequential(expected: nat, found: int): string {
    "Progress step order sequence is not sequential (expected " + NatToString(expected)
    + ", found " + IntToString(found) + ")"
  }

  /** The order-sequence check: sort ascending and report the first position
      that breaks 1, 2, …, N. It is silent exactly when the orders are a
      permutation of 1..N, whatever order the steps are listed in. */
  function OrderSequenceErrors(orders: seq<int>): (r: seq<string>)
    ensures |r| <= 1
    ensures r == [] <==> multiset(orders) == multiset(Range(1, |orders|))
  {
    var sorted := SortBy(orders, Identity);
    SortedIsOneToN(orders);
    assert (forall j | 0 <= j < |sorted| :: sorted[j] == j + 1) <==> sorted == Range(1, |orders|);
    match FirstMismatch(sorted, 0)
    case None => []
    case Some(i) => [NotSequential(i + 1, sorted[i])]
  }

  lemma NotSequentialText()
    ensures NotSequential(3, 2) == "Progress step order sequence is not sequential (expected 3, found 2)"
  {
    assert NatToString(3) == [DigitChar(3)] == "3";
    assert NatToString(2) == [DigitChar(2)] == "2";
  }

  lemma SortedExampleIsItsOwnSort()
    ensures SortBy([1, 2, 2], Identity) == [1, 2, 2]
  {
    assert SortedBy([1, 2, 2], Identity);
    SortBySortedIsIdentity([1, 2, 2], Identity);
  }

  lemma FirstMismatchExample()
    ensures FirstMismatch([1, 2, 2], 0) == Some(2)
  {
    assert FirstMismatch([1, 2, 2], 2) == Some(2);
  }

  /** `[1, 2, 2]` is reported at the third position. */
  lemma OrderSequenceExample()
    ensures OrderSequenceErrors([1, 2, 2])
         == ["Progress step order sequence is not sequential (expected 3, found 2)"]
  {
    SortedExampleIsItsOwnSort();
    FirstMismatchExample();
    NotSequentialText();
  }

  /** Listing order does not matter: `[2, 3, 1]` passes. */
  lemma OrderSequencePermutationExample()
    ensures OrderSequenceErrors([2, 3, 1]) == []
  {
    assert Range(1, 3) == [1, 2, 3];
    assert multiset([2, 3, 1]) == multiset([1, 2, 3]);
  }

  /** The rules the whole progress-step list must meet. */
  predicate ProgressStepsValid(steps: seq<ProgressStepJson>) {
    && |steps| > 0
    && NoRepeats(MapSeq(ProgressSlug, steps))
    && NoRepeats(MapSeq(ProgressRawId, steps))
    && (forall k | 0 <= k < |steps| :: ProgressStepRulesHold(steps[k]))
    && multiset(MapSeq(ProgressValidatorOrder, steps)) == multiset(Range(1, |steps|))
  }

  /** `validateProgressSteps`: a missing or empty list gets exactly one
      message; otherwise the list is silent exactly when its rules hold. */
  function ValidateProgressSteps(steps: Option<seq<ProgressStepJson>>): (r: seq<string>)
    ensures steps.None? || |steps.value| == 0 ==> r == [NoProgressSteps]
    ensures steps.Some? ==> (r == [] <==> ProgressStepsValid(steps.value))
    ensures steps.Some? ==> forall k, m | 0 <= k < |steps.value| && m in ProgressStepErrors(steps.value[k], k) :: m in r
    ensures steps.Some? ==> DuplicateErrors("Duplicate progress step slugs: ", MapSeq(ProgressSlug, steps.value)) <= r
    ensures steps.Some? ==>
      forall m | m in DuplicateErrors("Duplicate progress step IDs: ", MapSeq(ProgressRawId, steps.value)) :: m in r
    ensures steps.Some? ==> forall m | m in OrderSequenceErrors(MapSeq(ProgressValidatorOrder, steps.value)) :: m in r
  {
    if steps.None? || |steps.value| == 0 then [NoProgressSteps]
    else
      var s := steps.value;
      var each := EachProgressStepErrors(s);
      var r := DuplicateErrors("Duplicate progress step slugs: ", MapSeq(ProgressSlug, s))
        + DuplicateErrors("Duplicate progress step IDs: ", MapSeq(ProgressRawId, s))
        + each
        + OrderSequenceErrors(MapSeq(ProgressValidatorOrder, s));
      ConcatFour(DuplicateErrors("Duplicate progress step slugs: ", MapSeq(ProgressSlug, s)),
                 DuplicateErrors("Duplicate progress step IDs: ", MapSeq(ProgressRawId, s)),
                 each, OrderSequenceErrors(MapSeq(ProgressValidatorOrder, s)));
      r
  }

  // ---------------------------------------------------------------------------
  // Form steps
  // ---------------------------------------------------------------------------

  const NoFormSteps := "Quiz must have at least one form step"

  function MissingProgressStepId(name: string): string {
    "Form step \"" + name + "\" is missing progressStepId"
  }

  function InvalidProgressStep(name: string, id: string): string {
    "Form step \"" + name + "\" references invalid progress step \"" + id + "\""
  }

  function QuestionMessage(name: string, k: nat, e: string): string {
    "Form step \"" + name + "\", question " + NatToString(k + 1) + ": " + e
  }

  /** A step's `progressStepId` must be truthy and equal some progress-step
      slug; `name` is how the message names the step. */
  function ProgressRefErrors(step: FormStepJson, name: string, progressSlugs: seq<Option<string>>)
    : (r: seq<string>)
    ensures |r| <= 1
    ensures r == [] <==> StringTruthy(step.progressStepId) && step.progressStepId in progressSlugs
    ensures !StringTruthy(step.progressStepId) ==> r == [MissingProgressStepId(name)]
  {
    if !StringTruthy(step.progressStepId) then [MissingProgressStepId(name)]
    else if step.progressStepId !in progressSlugs then [InvalidProgressStep(name, step.progressStepId.value)]
    else []
  }

  /** One question's messages, prefixed with the step name and the
      question's 1-based position. */
  function PrefixedQuestionErrors(name: string, k: nat, q: QuestionJson): (r: seq<string>)
    ensures r == [] <==> QuestionRulesHold(q)
    ensures forall e | e in ValidateQuestion(q) :: QuestionMessage(name, k, e) in r
  {
    var errs := ValidateQuestion(q);
    var r := MapSeq(e => QuestionMessage(name, k, e), errs);
    forall e | e in errs ensures QuestionMessage(name, k, e) in r {
      var p :| 0 <= p < |errs| && errs[p] == e;
      assert r[p] == QuestionMessage(name, k, e);
    }
    r
  }

  /** Each question's messages, prefixed with the step name and the
      question's 1-based position. */
  function QuestionErrors(name: string, qs: seq<QuestionJson>): (r: seq<string>)
    ensures r == [] <==> forall k | 0 <= k < |qs| :: QuestionRulesHold(qs[k])
    ensures forall k, e | 0 <= k < |qs| && e in ValidateQuestion(qs[k]) :: QuestionMessage(name, k, e) in r
  {
    ConcatMapIndexed((q, k) => PrefixedQuestionErrors(name, k, q), qs)
  }

  /** A form step's own rules against the progress-step slugs. */
  predicate FormStepRulesHold(step: FormStepJson, progressSlugs: seq<Option<string>>) {
    && StringTruthy(step.slug) && IsValidSlug(step.slug.value)
    && StringTruthy(step.progressStepId) && step.progressStepId in progressSlugs
    && !(step.order.Missing? && step.step_order.Missing?)
    && step.questions.Some? && |step.questions.value| > 0
    && forall k | 0 <= k < |step.questions.value| :: QuestionRulesHold(step.questions.value[k])
  }

  function FormStepErrors(step: FormStepJson, index: nat, progressSlugs: seq<Option<string>>): (r: seq<string>)
    ensures r == [] <==> FormStepRulesHold(step, progressSlugs)
    ensures forall m | m in ProgressRefErrors(step, SlugOrIndex(step.slug, index), progressSlugs) :: m in r
    ensures step.questions.Some? ==> forall k, e | 0 <= k < |step.questions.value| && e in ValidateQuestion(step.questions.value[k]) ::
      QuestionMessage(SlugOrIndex(step.slug, index), k, e) in r
  {
    var name := SlugOrIndex(step.slug, index);
    var refs := ProgressRefErrors(step, name, progressSlugs);
    var questions :=
      if step.questions.None? || |step.questions.value| == 0 then ["Form step \"" + name + "\" has no questions"]
      else QuestionErrors(name, step.questions.value);
    var r := SlugErrors(step.slug, "Form step at index " + NatToString(index) + " is missing slug", "Form step")
      + refs
      + (if step.order.Missing? && step.step_order.Missing? then ["Form step \"" + name + "\" is missing order"] else [])
      + questions;
    assert forall m | m in refs :: m in r;
    assert forall m | m in questions :: m in r;
    r
  }

  function EachFormStepErrors(steps: seq<FormStepJson>, progressSlugs: seq<Option<string>>): (r: seq<string>)
    ensures r == [] <==> forall k | 0 <= k < |steps| :: FormStepRulesHold(steps[k], progressSlugs)
    ensures forall k, m | 0 <= k < |steps| && m in FormStepErrors(steps[k], k, progressSlugs) :: m in r
  {
    ConcatMapIndexed((step, k) => FormStepErrors(step, k, progressSlugs), steps)
  }

  /** The rules the whole form-step list must meet. */
  predicate FormStepsValid(steps: seq<FormStepJson>, progressSlugs: seq<Option<string>>) {
    && |steps| > 0
    && NoRepeats(MapSeq(FormSlug, steps))
    && forall k | 0 <= k < |steps| :: FormStepRulesHold(steps[k], progressSlugs)
  }

  const DuplicateFormSlugsPrefix := "Duplicate form step slugs: "

  /** `validateFormSteps`: a missing or empty list gets exactly one message;
      otherwise the list is silent exactly when its rules hold. */
  function ValidateFormSteps(steps: Option<seq<FormStepJson>>, progressSlugs: seq<Option<string>>)
    : (r: seq<string>)
    ensures steps.None? || |steps.value| == 0 ==> r == [NoFormSteps]
    ensures steps.Some? ==> (r == [] <==> FormStepsValid(steps.value, progressSlugs))
    ensures steps.Some? ==> forall k, m | 0 <= k < |steps.value| && m in FormStepErrors(steps.value[k], k, progressSlugs) ::
      m in r
    ensures steps.Some? && |steps.value| > 0 ==>
      DuplicateErrors(DuplicateFormSlugsPrefix, MapSeq(FormSlug, steps.value)) <= r
  {
    if steps.None? || |steps.value| == 0 then [NoFormSteps]
    else
      var s := steps.value;
      var each := EachFormStepErrors(s, progressSlugs);
      var r := DuplicateErrors(DuplicateFormSlugsPrefix, MapSeq(FormSlug, s)) + each;
      assert forall m | m in each :: m in r;
      r
  }

  // ---------------------------------------------------------------------------
  // The whole quiz
  // ---------------------------------------------------------------------------

  /** The source dereferences `progressSteps`, `formSteps` and every step's
      `questions` without a guard, so a missing one throws a TypeError. */
  predicate ValidatorThrows(quiz: QuizJsonQuiz) {
    || quiz.progressSteps.None?
    || quiz.formSteps.None?
    || exists k | 0 <= k < |quiz.formSteps.value| :: quiz.formSteps.value[k].questions.None?
  }

  function QuizIdentityErrors(quiz: QuizJsonQuiz): (r: seq<string>)
    ensures r == [] <==> StringTruthy(quiz.slug) && StringTruthy(quiz.id) && IsValidSlug(quiz.slug.value)
  {
    (if !StringTruthy(quiz.slug) || !StringTruthy(quiz.id) then ["Quiz must have both id and slug"] else [])
    + (if StringTruthy(quiz.slug) && !IsValidSlug(quiz.slug.value) then [NotUrlSafe("Quiz", quiz.slug.value)] else [])
  }

  /** One step's repeated question slugs, naming the step by `${step.slug}`. */
  function StepQuestionDuplicates(step: FormStepJson): (r: seq<string>)
    requires step.questions.Some?
    ensures r == [] <==> NoRepeats(MapSeq(QuestionSlug, step.questions.value))
  {
    DuplicateErrors("Duplicate question slugs in step \"" + Interp(step.slug) + "\": ",
                    MapSeq(QuestionSlug, step.questions.value))
  }

  function QuestionDuplicateErrors(steps: seq<FormStepJson>): (r: seq<string>)
    requires forall k | 0 <= k < |steps| :: steps[k].questions.Some?
    ensures r == [] <==> forall k | 0 <= k < |steps| :: NoRepeats(MapSeq(QuestionSlug, steps[k].questions.value))
  {
    var per := seq(|steps|, k requires 0 <= k < |steps| => StepQuestionDuplicates(steps[k]));
    assert forall k | 0 <= k < |steps| :: per[k] == StepQuestionDuplicates(steps[k]);
    Flatten(per)
  }

  /** The second reference check, naming steps by `${step.slug}` (which
      renders a missing slug as "undefined"). */
  function StepReferenceErrors(steps: seq<FormStepJson>, progressSlugs: seq<Option<string>>): (r: seq<string>)
    ensures r == [] <==> forall k | 0 <= k < |steps| ::
      StringTruthy(steps[k].progressStepId) && steps[k].progressStepId in progressSlugs
    ensures forall k, m | 0 <= k < |steps| && m in ProgressRefErrors(steps[k], Interp(steps[k].slug), progressSlugs) ::
      m in r
  {
    ConcatMapIndexed((step: FormStepJson, k: nat) => ProgressRefErrors(step, Interp(step.slug), progressSlugs), steps)
  }

  const MissingMetadata := "Quiz is missing metadata"
  const MissingCategory := "Quiz metadata missing category"
  const MissingEstimatedTime := "Quiz metadata missing estimatedTime"
  const MissingTargetAudience := "Quiz metadata missing targetAudience"

  /** Metadata problems are warnings: one for missing metadata, else one per
      falsy descriptive field. */
  function MetadataWarnings(m: Option<QuizMetadata>): (r: seq<string>)
    ensures m.None? ==> r == [MissingMetadata]
    ensures m.Some? ==> |r| <= 3 && MissingMetadata !in r
    ensures m.Some? ==> (MissingCategory in r <==> !StringTruthy(m.value.category))
    ensures m.Some? ==> (MissingEstimatedTime in r <==> !StringTruthy(m.value.estimatedTime))
    ensures m.Some? ==> (MissingTargetAudience in r <==> !StringTruthy(m.value.targetAudience))
    ensures m.Some? ==> forall w | w in r :: w in {MissingCategory, MissingEstimatedTime, MissingTargetAudience}
    ensures NoRepeats(r)
    ensures m.Some? ==> IsSubsequence(r, [MissingCategory, MissingEstimatedTime, MissingTargetAudience])
  {
    if m.None? then [MissingMetadata]
    else
      var audience := WarnIf(!StringTruthy(m.value.targetAudience), MissingTargetAudience);
      var time := WarnIf(!StringTruthy(m.value.estimatedTime), MissingEstimatedTime) + audience;
      var all := WarnIf(!StringTruthy(m.value.category), MissingCategory) + time;
      WarnIfPrefix(!StringTruthy(m.value.targetAudience), MissingTargetAudience, [], []);
      WarnIfPrefix(!StringTruthy(m.value.estimatedTime), MissingEstimatedTime, audience, [MissingTargetAudience]);
      WarnIfPrefix(!StringTruthy(m.value.category), MissingCategory, time, [MissingEstimatedTime, MissingTargetAudience]);
      all
  }

  /** `if (on) warnings.push(w)`. */
  function WarnIf(on: bool, w: string): (r: seq<string>)
    ensures w in r <==> on
    ensures |r| <= 1
  {
    if on then [w] else []
  }

  /** Pushing `w` conditionally in front of warnings drawn in order from
      `rest`, none of them `w`, keeps them distinct and in the order of
      `[w] + rest`. */
  lemma WarnIfPrefix(on: bool, w: string, warned: seq<string>, rest: seq<string>)
    requires IsSubsequence(warned, rest) && NoRepeats(warned)
    requires forall x | x in warned :: x != w
    ensures IsSubsequence(WarnIf(on, w) + warned, [w] + rest)
    ensures NoRepeats(WarnIf(on, w) + warned)
  {
    var r := WarnIf(on, w) + warned;
    if on {
      assert r == [w] + warned;
      assert r[1..] == warned;
      assert ([w] + rest)[1..] == rest;
      forall i, j | 0 <= i < j < |r| ensures r[i] != r[j] {
        assert r[j] == warned[j - 1] && warned[j - 1] in warned;
        if i > 0 {
          assert r[i] == warned[i - 1];
        }
      }
    } else {
      assert r == warned;
      assert ([w] + rest)[1..] == rest;
      SubsequenceExtend(warned, [w] + rest);
    }
  }

  /** Every rule of a quiz, stated declaratively. */
  predicate QuizRulesHold(quiz: QuizJsonQuiz)
    requires !ValidatorThrows(quiz)
  {
    var forms := quiz.formSteps.value;
    && StringTruthy(quiz.slug) && StringTruthy(quiz.id) && IsValidSlug(quiz.slug.value)
    && ProgressStepsValid(quiz.progressSteps.value)
    && FormStepsValid(forms, MapSeq(ProgressSlug, quiz.progressSteps.value))
    && forall k | 0 <= k < |forms| :: NoRepeats(MapSeq(QuestionSlug, forms[k].questions.value))
  }

  /** The quiz-level duplicate and reference checks repeat rules the form
      steps already enforce: they are silent whenever `validateFormSteps` is. */
  lemma QuizLevelChecksRepeatFormStepChecks(quiz: QuizJsonQuiz)
    requires !ValidatorThrows(quiz)
    ensures var slugs := MapSeq(ProgressSlug, quiz.progressSteps.value);
      ValidateFormSteps(quiz.formSteps, slugs) == [] ==>
        DuplicateErrors(DuplicateFormSlugsPrefix, MapSeq(FormSlug, quiz.formSteps.value)) == []
        && StepReferenceErrors(quiz.formSteps.value, slugs) == []
  {
  }

  lemma QuizRulesHoldParts(quiz: QuizJsonQuiz)
    requires !ValidatorThrows(quiz)
    ensures QuizRulesHold(quiz) <==>
      && QuizIdentityErrors(quiz) == []
      && ValidateProgressSteps(quiz.progressSteps) == []
      && ValidateFormSteps(quiz.formSteps, MapSeq(ProgressSlug, quiz.progressSteps.value)) == []
      && QuestionDuplicateErrors(quiz.formSteps.value) == []
  {
  }

  /** The error list in the source's order. */
  function QuizErrors(quiz: QuizJsonQuiz): (r: seq<string>)
    requires !ValidatorThrows(quiz)
    ensures r == [] <==> QuizRulesHold(quiz)
  {
    var forms := quiz.formSteps.value;
    var slugs := MapSeq(ProgressSlug, quiz.progressSteps.value);
    QuizLevelChecksRepeatFormStepChecks(quiz);
    QuizRulesHoldParts(quiz);
    QuizIdentityErrors(quiz)
    + ValidateProgressSteps(quiz.progressSteps)
    + ValidateFormSteps(quiz.formSteps, slugs)
    + DuplicateErrors(DuplicateFormSlugsPrefix, MapSeq(FormSlug, forms))
    + QuestionDuplicateErrors(forms)
    + StepReferenceErrors(forms, slugs)
  }

  /** `validateQuizJson`: `None` where the source throws; otherwise the quiz
      is valid exactly when there are no errors, which is exactly when every
      rule holds, and metadata only ever produces warnings. */
  function ValidateQuizJson(quiz: QuizJsonQuiz): (r: Option<ValidationResult>)
    ensures r.None? <==> ValidatorThrows(quiz)
    ensures r.Some? ==> (r.value.isValid <==> r.value.errors == [])
    ensures r.Some? ==> (r.value.isValid <==> QuizRulesHold(quiz))
    ensures r.Some? ==> r.value.warnings == MetadataWarnings(quiz.metadata)
  {
    if ValidatorThrows(quiz) then None
    else
      var errors := QuizErrors(quiz);
      Some(ValidationResult(|errors| == 0, errors, MetadataWarnings(quiz.metadata)))
  }

  // ---------------------------------------------------------------------------
  // Messages the validator reports twice
  // ---------------------------------------------------------------------------

  /** How often each message occurs in the error list, by check. */
  lemma QuizErrorsCounts(quiz: QuizJsonQuiz)
    requires !ValidatorThrows(quiz)
    ensures var forms := quiz.formSteps.value;
      var slugs := MapSeq(ProgressSlug, quiz.progressSteps.value);
      multiset(QuizErrors(quiz))
        == multiset(QuizIdentityErrors(quiz)) + multiset(ValidateProgressSteps(quiz.progressSteps))
         + multiset(ValidateFormSteps(quiz.formSteps, slugs))
         + multiset(DuplicateErrors(DuplicateFormSlugsPrefix, MapSeq(FormSlug, forms)))
         + multiset(QuestionDuplicateErrors(forms)) + multiset(StepReferenceErrors(forms, slugs))
  {
  }

  /** Repeated form-step slugs are reported by `validateFormSteps` and again
      by the quiz-level check, so the same message appears twice. */
  lemma DuplicateFormSlugsReportedTwice(quiz: QuizJsonQuiz)
    requires !ValidatorThrows(quiz)
    requires !NoRepeats(MapSeq(FormSlug, quiz.formSteps.value))
    ensures ValidateQuizJson(quiz).Some?
    ensures var m := DuplicateFormSlugsPrefix + Join(FindDuplicates(MapSeq(FormSlug, quiz.formSteps.value)), ", ");
      multiset(ValidateQuizJson(quiz).value.errors)[m] >= 2
  {
    var forms := quiz.formSteps.value;
    var slugs := MapSeq(ProgressSlug, quiz.progressSteps.value);
    var m := DuplicateFormSlugsPrefix + Join(FindDuplicates(MapSeq(FormSlug, forms)), ", ");
    var dup := DuplicateErrors(DuplicateFormSlugsPrefix, MapSeq(FormSlug, forms));
    assert dup == [m];
    assert |forms| > 0;
    var formErrs := ValidateFormSteps(quiz.formSteps, slugs);
    assert formErrs[0] == m;
    assert multiset(formErrs)[m] >= 1;
    QuizErrorsCounts(quiz);
  }

  /** A form step with a truthy slug whose `progressStepId` is missing or
      names no progress step gets the same message from `validateFormSteps`
      and from the quiz-level reference check. */
  lemma BadReferenceReportedTwice(quiz: QuizJsonQuiz, k: nat)
    requires !ValidatorThrows(quiz)
    requires k < |quiz.formSteps.value|
    requires StringTruthy(quiz.formSteps.value[k].slug)
    ensures ValidateQuizJson(quiz).Some?
    ensures var step := quiz.formSteps.value[k];
      var slugs := MapSeq(ProgressSlug, quiz.progressSteps.value);
      forall m | m in ProgressRefErrors(step, step.slug.value, slugs) ::
        multiset(ValidateQuizJson(quiz).value.errors)[m] >= 2
  {
    var step := quiz.formSteps.value[k];
    var slugs := MapSeq(ProgressSlug, quiz.progressSteps.value);
    forall m | m in ProgressRefErrors(step, step.slug.value, slugs) ensures multiset(QuizErrors(quiz))[m] >= 2 {
      BadReferenceMessageTwice(quiz, k, m);
    }
  }

  /** A message's count in the error list is at least its count in the
      form-step checks plus its count in the quiz-level reference check. */
  lemma FormAndReferenceCounts(quiz: QuizJsonQuiz, m: string)
    requires !ValidatorThrows(quiz)
    ensures var slugs := MapSeq(ProgressSlug, quiz.progressSteps.value);
      multiset(QuizErrors(quiz))[m]
        >= multiset(ValidateFormSteps(quiz.formSteps, slugs))[m]
         + multiset(StepReferenceErrors(quiz.formSteps.value, slugs))[m]
  {
    QuizErrorsCounts(quiz);
  }

  /** The messages `validateFormSteps` reports for the step at position `k`,
      under the name it gives that step. */
  lemma FormStepMessageReported(steps: seq<FormStepJson>, slugs: seq<Option<string>>, k: nat, m: string)
    requires k < |steps|
    requires m in ProgressRefErrors(steps[k], SlugOrIndex(steps[k].slug, k), slugs)
    ensures m in ValidateFormSteps(Some(steps), slugs)
    ensures multiset(ValidateFormSteps(Some(steps), slugs))[m] >= 1
  {
    assert m in FormStepErrors(steps[k], k, slugs);
  }

  /** The messages the quiz-level reference check reports for the step at
      position `k`, under the name it gives that step. */
  lemma ReferenceMessageReported(steps: seq<FormStepJson>, slugs: seq<Option<string>>, k: nat, m: string)
    requires k < |steps|
    requires m in ProgressRefErrors(steps[k], Interp(steps[k].slug), slugs)
    ensures m in StepReferenceErrors(steps, slugs)
    ensures multiset(StepReferenceErrors(steps, slugs))[m] >= 1
  {
  }

  lemma BadReferenceMessageTwice(quiz: QuizJsonQuiz, k: nat, m: string)
    requires !ValidatorThrows(quiz)
    requires k < |quiz.formSteps.value|
    requires StringTruthy(quiz.formSteps.value[k].slug)
    requires m in ProgressRefErrors(quiz.formSteps.value[k], quiz.formSteps.value[k].slug.value,
                                    MapSeq(ProgressSlug, quiz.progressSteps.value))
    ensures multiset(QuizErrors(quiz))[m] >= 2
  {
    var forms := quiz.formSteps.value;
    var slugs := MapSeq(ProgressSlug, quiz.progressSteps.value);
    assert SlugOrIndex(forms[k].slug, k) == forms[k].slug.value;
    assert Interp(forms[k].slug) == forms[k].slug.value;
    FormStepMessageReported(forms, slugs, k, m);
    ReferenceMessageReported(forms, slugs, k, m);
    FormAndReferenceCounts(quiz, m);
  }

  /** A form step without a slug is named by its position in
      `validateFormSteps` but as "undefined" by the quiz-level check. */
  lemma UnnamedStepMessages(quiz: QuizJsonQuiz, k: nat)
    requires !ValidatorThrows(quiz)
    requires k < |quiz.formSteps.value|
    requires quiz.formSteps.value[k].slug.None?
    requires !StringTruthy(quiz.formSteps.value[k].progressStepId)
    ensures ValidateQuizJson(quiz).Some?
    ensures MissingProgressStepId(NatToString(k)) in ValidateQuizJson(quiz).value.errors
    ensures MissingProgressStepId("undefined") in ValidateQuizJson(quiz).value.errors
  {
    var forms := quiz.formSteps.value;
    var slugs := MapSeq(ProgressSlug, quiz.progressSteps.value);
    var byIndex := MissingProgressStepId(NatToString(k));
    var undef := MissingProgressStepId("undefined");
    assert ProgressRefErrors(forms[k], SlugOrIndex(forms[k].slug, k), slugs) == [byIndex];
    assert ProgressRefErrors(forms[k], Interp(forms[k].slug), slugs) == [undef];
    FormStepMessageReported(forms, slugs, k, byIndex);
    ReferenceMessageReported(forms, slugs, k, undef);
    FormAndReferenceCounts(quiz, byIndex);
    FormAndReferenceCounts(quiz, undef);
  }
}

=== FILE: wrappers.dfy ===
/** Optional values. A raw JSON field that may be absent, `null` or `undefined`
    is an `Option`; every reader in the modelled code treats those three alike,
    except the order fields, which have their own type in `JsValues`. */
module Wrappers {

  datatype Option<+T> = None | Some(value: T) {

    /** The value, or `default` when absent: JavaScript's `x ?? default`. */
    function GetOr(default: T): T {
      match this
      case Some(v) => v
      case None => default
    }

    /** `this ?? other` for two optional values. */
    function OrElse(other: Option<T>): Option<T> {
      if Some? then this else other
    }
  }
}
